=== FILE: README.md ===
# Crash recovery and stream helpers of the Consciousness Engine web UI

This project is a Dafny model of the logic in the Consciousness Engine's React web UI. It covers:

- **The crash-recovery subsystem:**
  - the snapshot store (`AppStateManager`) that keeps the application state in localStorage;
  - the error boundary's retry machine;
  - the recovery hook (`useAppRecovery`);
  - the health monitor's classification;
  - the restart manager.
- **The helpers around it:**
  - the server-sent-events hook and the event console's metrics;
  - the production shell's `fetchWithRetry`;
  - the chat's send handler and streamed reply;
  - the monitoring page's model list and evaluate request;
  - the authentication hook;
  - the render diagnostic overlay.

Every operation is a pure function over immutable records, or a short method with a loop. The browser's surroundings are passed in explicitly:

- localStorage is a `map<string, Entry>`. An entry is either a JSON document or a string that `JSON.parse` rejects (module `Storage`).
- Whether `localStorage.setItem` throws (storage full or disabled) is a `writable` flag, or for the login a count of the writes that go through. A save catches the throw: nothing is written and it reports false. A restore whose write-back throws clears the snapshot and gives null. The login rethrows, keeping what was already written.
- `Date.now()` is an integer parameter.
- `window.location.hash` and the configured API base are string parameters.
- `new URL(path, base)` is the function `EventSource.Resolve`, with None for the TypeError it throws.
- Network outcomes are data:
  - for `fetchWithRetry`, a function from attempt index to outcome;
  - elsewhere, the answer a request gave.
- `JSON.parse` of text from the network is a `parse: string -> Option<Json>` parameter.
- JSON values are the datatype `Json.Json`. The JavaScript semantics the code relies on are written out in module `Json`:
  - property access that throws on null and undefined;
  - truthiness and `||`;
  - numeric coercion in `-` and `>`;
  - `JSON.stringify`.

Each operation has a partner it is proved against: a round trip, a reference definition, an invariant kept over any run, or a lemma relating two operations. Some examples:

- **Snapshots:** a snapshot saved and restored within 24 hours comes back unchanged when storage accepts the write-back, with its token written back. At exactly 24 hours it is still accepted; one millisecond later it is not.
- **Component state:** it survives a save/restore round trip exactly while `now - saved <= maxAge`.
- **Error boundary:** over any sequence of events, the retry count never exceeds `maxRetries || 3`.
- **Recovery hook:** a recovery failing before the counter reset makes exactly `maxRetries - retryCount` attempts.
- **Histories:** the restart history and the SSE buffer are newest-first and capped (10 and 200).
- **`fetchWithRetry`:** it sleeps only after exceptions, and then linearly.
- **SSE hook:** it never has two sources open.
- **Render diagnostic:** its count equals the renders since the last clear.
- **Chat stream:** as written, each chunk is read on its own. With the tail of each chunk carried over, the result would not depend on where the stream was cut into chunks.

## Model

| member | source | states |
|---|---|---|
| RestartTypes.DefaultConfigValues | web-ui/src/types/restart.ts:95-102 | The default configuration has autoRestart, maxRetries 3, retryDelay 5000 ms, health checks every 30000 ms, and saveStateOnRestart and notifyUser both on. |
| RestartTypes.StorageKeysDistinct | web-ui/src/types/restart.ts:105-109 | The three storage keys (app state, restart config, restart history) are pairwise distinct. |
| RestartTypes.RestartTypeVariants | web-ui/src/types/restart.ts:80-84 | A restart type is one of exactly four: soft, hard, services, full. |
| RestartTypes.AppStateJson | web-ui/src/types/restart.ts:13-31 | The stored document of a snapshot is an object whose currentRoute, userSession, uiState and timestamp fields read back as the snapshot's own values. |
| RestartTypes.ApplyPatch | web-ui/src/services/AppStateManager.ts:23-37 | `{...defaults, ...patch}`: each top-level field the caller gives replaces the default as a whole; the others keep their default. |
| Storage.GetItem | web-ui/src/services/AppStateManager.ts:53 | getItem gives null exactly for a missing key, the stored text for a non-JSON entry, and non-empty JSON text for a document. |
| Storage.PresentIsTruthyItem | web-ui/src/services/AppStateManager.ts:104-106 | A key counts as present exactly when getItem returns a non-empty string. |
| Storage.ReadJson | web-ui/src/services/AppStateManager.ts:53-59 | Reading a key and parsing it has three outcomes. It is absent when the item is missing or empty, and parsed exactly when the entry is a JSON document, which it then returns. |
| Storage.Coerce | web-ui/src/hooks/useAuth.ts:62 | Storing a value read from JSON follows `String(v)`. A string is stored as itself. A number, boolean or null is stored as its JSON text. |
| Json.Get | web-ui/src/services/AppStateManager.ts:70-78 | Reading a property throws a TypeError exactly on null and undefined; otherwise it yields the object's field, or undefined. |
| Json.Put | web-ui/src/components/Monitoring/SystemMonitoring.tsx:205 | Setting a property makes it read back as the new value and leaves every other property's value as it was. A new key is appended after the existing ones; an existing key keeps its position. |
| Json.Or | web-ui/src/services/AppStateManager.ts:32-33 | `a \|\| b` is `a` exactly when `a` is truthy, and `b` otherwise. |
| AppStateManager.ParseJsonSafely | web-ui/src/services/AppStateManager.ts:173-180 | The result is null for a missing or empty item and for text that is not JSON; otherwise it is the parsed document. |
| AppStateManager.ParseAfterWrite | web-ui/src/services/AppStateManager.ts:173-180 | A key just written with a JSON document parses back to that document. |
| AppStateManager.ItemOr | web-ui/src/services/AppStateManager.ts:28-32 | `getItem(key) \|\| fallback`: the fallback exactly when the item is missing or empty, else the stored string. |
| AppStateManager.DefaultSnapshotFacts | web-ui/src/services/AppStateManager.ts:23-35 | The default snapshot has: route "/" for an empty hash, else the hash; theme "dark" when unset; notifications `[]` when unset; isAuthenticated exactly when a token is stored; timestamp `now`. |
| AppStateManager.SaveState | web-ui/src/services/AppStateManager.ts:21-46 | When storage accepts the write, saveState returns true and adds or replaces exactly one key, the app-state key, which then holds the document of the patched default snapshot. When `setItem` throws, it returns false and storage is unchanged. |
| AppStateManager.SavedInfoAfterSave | web-ui/src/services/AppStateManager.ts:111-129 | Right after a save, the saved-state info reports the snapshot's timestamp and `now` minus it as the age. |
| AppStateManager.ClearSavedState | web-ui/src/services/AppStateManager.ts:92-99 | Removes the app-state key and nothing else. |
| AppStateManager.HasSavedState | web-ui/src/services/AppStateManager.ts:104-106 | True exactly when the app-state item exists and is a non-empty string. |
| AppStateManager.RestoreState | web-ui/src/services/AppStateManager.ts:51-87 | See the case list below this table. |
| AppStateManager.RestoreParsed | web-ui/src/services/AppStateManager.ts:59-87 | A parsed snapshot older than 24 h clears the key and gives null. An accepted one is returned as parsed, is not stale, and only token, user and theme change. When storage refuses writes, a snapshot is returned only if it has nothing to write back; otherwise the key is cleared. |
| AppStateManager.RestoreWritesBack | web-ui/src/services/AppStateManager.ts:69-78 | On a successful restore, each of token, user and theme is written back exactly when the snapshot holds a truthy value for it. Otherwise that key keeps what it held. |
| AppStateManager.FailedWriteBackClears | web-ui/src/services/AppStateManager.ts:69-86 | When a snapshot that storage would accept has a token, user or theme to write back and `setItem` throws, the snapshot is cleared and null is returned. |
| AppStateManager.NothingToWriteBack | web-ui/src/services/AppStateManager.ts:69-81 | A snapshot with no truthy token, user or theme restores the same whether or not storage accepts writes. |
| AppStateManager.SnapshotThemeOf | web-ui/src/types/restart.ts:13-31 | The theme read back from a stored snapshot is the snapshot's theme. |
| AppStateManager.ReadOnlyRestoreDropsSnapshot | web-ui/src/services/AppStateManager.ts:21-86 | A default snapshot always carries a theme, so restoring it while `setItem` throws clears it and gives null. |
| AppStateManager.RestoreAcceptsWellFormed | web-ui/src/services/AppStateManager.ts:59-81 | When storage accepts the write-back, a stored document is restored in full when its timestamp is at most 24 h old and its userSession and uiState are objects. |
| AppStateManager.SaveRestoreRoundTrip | web-ui/src/services/AppStateManager.ts:21-81 | When storage accepts the write-back, saving a snapshot and restoring it within 24 h gives back exactly the saved document. A non-empty token is written back under `token`. |
| AppStateManager.SnapshotAgeBoundary | web-ui/src/services/AppStateManager.ts:62-67 | When storage accepts the write-back, a snapshot exactly 24 h old is restored; one 24 h + 1 ms old is not. |
| AppStateManager.GetSavedStateInfo | web-ui/src/services/AppStateManager.ts:111-129 | Reports existence exactly when the item is a JSON document other than null; reports its timestamp, and `now - timestamp` as the age. |
| AppStateManager.ComponentKey | web-ui/src/services/AppStateManager.ts:136 | A component's key starts with the app-state key and differs from it. |
| AppStateManager.ComponentKeyInjective | web-ui/src/services/AppStateManager.ts:134-153 | Different component names get different keys. |
| AppStateManager.SaveComponentState | web-ui/src/services/AppStateManager.ts:134-146 | When storage accepts the write, returns true and writes exactly one key, the component's, holding `{data, timestamp}`. When `setItem` throws, returns false and storage is unchanged. |
| AppStateManager.RestoreComponentState | web-ui/src/services/AppStateManager.ts:151-168 | A missing or corrupt record gives null and leaves storage alone. The only possible change is the removal of the component's own key, and then null is returned. |
| AppStateManager.ComponentRoundTrip | web-ui/src/services/AppStateManager.ts:134-164 | Data saved at t and restored at t' with t'-t <= maxAge comes back unchanged and the record stays. Later, null comes back and the key is removed. |
| AppStateManager.NullRecordRestoresNull | web-ui/src/services/AppStateManager.ts:157-163 | A record saved with null data restores as null, however old it is. |
| AppStateManager.CleanupOldStates | web-ui/src/services/AppStateManager.ts:185-209 | The loop leaves the key-by-key reference store. Keys outside the app-state prefix are all kept, and no surviving value changes. |
| AppStateManager.CleanupIdempotent | web-ui/src/services/AppStateManager.ts:185-205 | Cleaning twice removes nothing more than cleaning once. |
| AppStateManager.CleanupKeepsRecentSnapshot | web-ui/src/services/AppStateManager.ts:196 | A snapshot saved within the last 7 days survives the clean-up. |
| ErrorBoundary.InitialState | web-ui/src/components/Restart/ErrorBoundary.tsx:50-57 | The boundary starts with no error, retryCount 0 and not recovering. |
| ErrorBoundary.MaxRetries | web-ui/src/components/Restart/ErrorBoundary.tsx:105-107 | `maxRetries \|\| 3`: an absent or zero limit means 3, any other value is kept. |
| ErrorBoundary.RecoveryDelay | web-ui/src/components/Restart/ErrorBoundary.tsx:120 | `recoveryDelay \|\| 5000`: an absent or zero delay means 5000 ms, any other value is kept. |
| ErrorBoundary.ErrorId | web-ui/src/components/Restart/ErrorBoundary.tsx:64 | An error id starts with "error_" and is longer than that prefix. |
| ErrorBoundary.GetDerivedStateFromError | web-ui/src/components/Restart/ErrorBoundary.tsx:62-71 | Sets hasError, the error and the errorId; the retry count and the recovery flag are kept. |
| ErrorBoundary.Catch | web-ui/src/components/Restart/ErrorBoundary.tsx:62-108 | A catch: (1) bumps the global error counter by exactly 1; (2) saves a snapshot when storage accepts the write, and otherwise leaves storage as it was; (3) schedules a recovery with delay `recoveryDelay \|\| 5000` exactly when autoRecover is set and `retryCount < (maxRetries \|\| 3)`; (4) leaves retryCount untouched. |
| ErrorBoundary.CatchSnapshot | web-ui/src/components/Restart/ErrorBoundary.tsx:87-102 | The snapshot saved on a catch records: the raw hash as the route (no "/" default); the error's message, stack and time; no other UI field; authentication exactly when a token is stored. |
| ErrorBoundary.ScheduleRecovery | web-ui/src/components/Restart/ErrorBoundary.tsx:119-129 | Marks a recovery as pending and changes nothing else that matters. |
| ErrorBoundary.HandleRecovery | web-ui/src/components/Restart/ErrorBoundary.tsx:131-141 | Clears the error, ends the recovery, and increments retryCount by exactly 1. |
| ErrorBoundary.HandleSoftRestart | web-ui/src/components/Restart/ErrorBoundary.tsx:151-160 | Clears the error and errorId and ends the recovery; retryCount is unchanged. |
| ErrorBoundary.HandleManualRestart | web-ui/src/components/Restart/ErrorBoundary.tsx:143-149 | Saves a default snapshot when storage accepts the write, after which a saved state exists; otherwise storage is unchanged. Other keys never change. |
| ErrorBoundary.Render | web-ui/src/components/Restart/ErrorBoundary.tsx:168-176 | Children render exactly when there is no error. The fallback is shown exactly when there is an error and a fallback is given. Otherwise the error screen shows the retry count and the limit. |
| ErrorBoundary.RenderAroundRecovery | web-ui/src/components/Restart/ErrorBoundary.tsx:168-176 | Without a fallback, a caught error shows the error screen with the old retry count, whose buttons are enabled exactly when no recovery is running or scheduled; after the recovery the children render again. |
| ErrorBoundary.StepPreservesInv | web-ui/src/components/Restart/ErrorBoundary.tsx:105-140 | Each possible event keeps the invariant: the retry count is within the limit, and a pending recovery belongs to a shown error with a retry left. |
| ErrorBoundary.RunPreservesInv | web-ui/src/components/Restart/ErrorBoundary.tsx:105-140 | The invariant holds after any run of events. |
| ErrorBoundary.RetriesBounded | web-ui/src/components/Restart/ErrorBoundary.tsx:105-140 | From the initial state, whatever happens, 0 <= retryCount <= `maxRetries \|\| 3` (0 for a negative limit). |
| AppRecovery.MergeConfig | web-ui/src/hooks/useAppRecovery.ts:16-17 | The effective configuration takes each field from the user's configuration when given, else from the defaults. |
| AppRecovery.MergeEmptyIsDefault | web-ui/src/hooks/useAppRecovery.ts:16-17 | Without user fields the configuration is the default one. |
| AppRecovery.PerformRecovery | web-ui/src/hooks/useAppRecovery.ts:33-145 | See the case list below this table. |
| AppRecovery.RecoverySavesSnapshot | web-ui/src/hooks/useAppRecovery.ts:70-74 | When a recovery saves its snapshot, the clean-up that follows keeps it, and restoring within 24 h gives exactly that snapshot. |
| AppRecovery.FailingAttemptsBounded | web-ui/src/hooks/useAppRecovery.ts:39-141 | When every attempt fails before the counter reset, starting from counter c makes exactly `maxRetries - c` attempts (none when c >= maxRetries). |
| AppRecovery.FailingRecoveryFromStart | web-ui/src/hooks/useAppRecovery.ts:39-141 | From a fresh hook, a recovery failing before the counter reset makes at most `maxRetries` attempts. |
| AppRecovery.FailureAfterResetNeverStops | web-ui/src/hooks/useAppRecovery.ts:100-141 | When the success notification keeps throwing, the counter was already reset to 0, so each failure is rescheduled and any number of attempts is reached. |
| AppRecovery.HandleError | web-ui/src/hooks/useAppRecovery.ts:179-196 | errorCount grows by 1, unless a recovery succeeds, or throws after resetting it, and so resets it. A recovery runs exactly when autoRestart is set, and any event it emits carries an error reason of high severity; otherwise nothing else changes. |
| AppRecovery.ErrorReasonFor | web-ui/src/hooks/useAppRecovery.ts:186-192 | The reason has type error and severity high. Its message is the error's message, or "Erreur inconnue" when that is empty. |
| AppRecovery.ManualReason | web-ui/src/hooks/useAppRecovery.ts:201-207 | The reason has type manual and severity medium. Its message is the given text, or the default message when none or empty is given. |
| AppRecovery.TriggerRecovery | web-ui/src/hooks/useAppRecovery.ts:201-210 | triggerRecovery is performRecovery with the manual reason. Any event it emits is manual, of medium severity, and carries the given text when one is given. |
| AppRecovery.RestoreOnMount | web-ui/src/hooks/useAppRecovery.ts:236-247 | With no saved state nothing happens. Otherwise the state is restored, with or without a working write-back. The page navigates exactly when the restored route is truthy and differs from the hash, and then to that route. |
| AppRecovery.MountReturnsToSavedRoute | web-ui/src/hooks/useAppRecovery.ts:236-247 | After a snapshot saved at route r, a mount within 24 h whose write-back storage accepts at another hash navigates back to r. |
| HealthMonitor.TotalRenders | web-ui/src/components/Restart/HealthMonitor.tsx:96-103 | The render total is NaN exactly when some count is NaN. |
| HealthMonitor.MaxRenders | web-ui/src/components/Restart/HealthMonitor.tsx:97-103 | NaN exactly when some count is NaN. Otherwise it is at least 0 and every count, and is either 0 or one of the counts (a missing attribute reads 0). |
| HealthMonitor.TotalAtLeastMax | web-ui/src/components/Restart/HealthMonitor.tsx:96-103 | With no NaN and no negative count, the total is at least the maximum. |
| HealthMonitor.ClassifyFrontend | web-ui/src/components/Restart/HealthMonitor.tsx:108-113 | Unhealthy exactly when maxRenders > 20 or errors > 5. Degraded exactly when not unhealthy and maxRenders > 10 or errors > 2. Healthy otherwise. |
| HealthMonitor.ClassifyMonotone | web-ui/src/components/Restart/HealthMonitor.tsx:108-113 | More renders or more errors never make the frontend healthier. |
| HealthMonitor.CheckFrontendHealth | web-ui/src/components/Restart/HealthMonitor.tsx:94-121 | The status is the classification of the maximum. The count is the total and the error count is the global one. Counts all at most 10 with at most 2 errors give healthy. |
| HealthMonitor.CheckServiceHealth | web-ui/src/components/Restart/HealthMonitor.tsx:58-89 | A service is running exactly when the response is ok; a non-ok response or an exception gives error; name, url and check time are recorded. |
| HealthMonitor.ServiceDecidesOverall | web-ui/src/components/Restart/HealthMonitor.tsx:58-193 | Next to a healthy frontend, one service's result makes the check healthy exactly when its probe answered ok and unhealthy otherwise; its chip is green exactly then. |
| HealthMonitor.ServiceEntry | web-ui/src/components/Restart/HealthMonitor.tsx:146-157 | A rejected check still gives an entry with the target's name and url and status error. |
| HealthMonitor.ServiceResults | web-ui/src/components/Restart/HealthMonitor.tsx:140-157 | There is one entry per checked service, in input order. |
| HealthMonitor.Aggregate | web-ui/src/components/Restart/HealthMonitor.tsx:162-173 | Unhealthy exactly when the frontend is unhealthy or a service has error. Degraded exactly when not unhealthy and the frontend is degraded or a service is stopped. Healthy otherwise; never unknown. |
| HealthMonitor.Statuses | web-ui/src/components/Restart/HealthMonitor.tsx:163 | The status list has the services' statuses in order. |
| HealthMonitor.InitialHealth | web-ui/src/components/Restart/HealthMonitor.tsx:42-51 | Before any check the overall status is unknown, there are no services, and the frontend is healthy. |
| HealthMonitor.PerformHealthCheck | web-ui/src/components/Restart/HealthMonitor.tsx:126-193 | A check is never unknown. It is unhealthy exactly when the frontend is unhealthy or some probe was not an ok response. It is healthy exactly when the frontend is healthy and every probe was ok. |
| HealthMonitor.GetStatusColor | web-ui/src/components/Restart/HealthMonitor.tsx:224-237 | The colour is always one of success, warning, error, default. |
| HealthMonitor.StatusColors | web-ui/src/components/Restart/HealthMonitor.tsx:224-237 | running and healthy give success; degraded gives warning; error and unhealthy give error; stopped, unknown and anything else give default. |
| HealthMonitor.ColorBySeverity | web-ui/src/components/Restart/HealthMonitor.tsx:224-237 | The colour of a health value follows its severity rank. |
| RestartManager.PushHistory | web-ui/src/components/Restart/RestartManager.tsx:59-62 | The new event comes first, followed by the previous history, cut at 10 entries. |
| Capped.NewestFirst | web-ui/src/components/Restart/RestartManager.tsx:59-62 | After any sequence of pushes, the list holds at most the cap: the pushed items newest first, then what it held before. |
| RestartManager.ClearComponents | web-ui/src/components/Restart/RestartManager.tsx:151-154 | When storage accepts writes, each listed component's key holds a null record. Every other key is unchanged, and no key disappears. When writes throw, storage is unchanged. |
| RestartManager.Dispatch | web-ui/src/components/Restart/RestartManager.tsx:91-200 | The type-specific step succeeds unless it asks the services endpoint and that fails. It reloads for hard, and for full only when services succeeded. Only soft touches storage. |
| RestartManager.RestartMessage | web-ui/src/components/Restart/RestartManager.tsx:111 | The message is the given reason, or `Redémarrage <type> manuel` when none or empty is given. |
| RestartManager.DispatchIgnoresSnapshot | web-ui/src/components/Restart/RestartManager.tsx:91-200 | The type-specific step gives the same contents under every key but the app-state key, whatever that key holds. |
| RestartManager.ManualEvent | web-ui/src/components/Restart/RestartManager.tsx:106-120 | The recorded event has: a manual, medium-severity reason; `stateSaved = !!saveState`; stateRestored false; success true; retryCount 0; the elapsed duration; id `restart_<now>`. |
| RestartManager.PerformRestart | web-ui/src/components/Restart/RestartManager.tsx:68-144 | See the case list below this table. |
| RestartManager.RestartSavesSnapshot | web-ui/src/components/Restart/RestartManager.tsx:82-84 | With saveState on and storage writable, restoring within 24 h after the restart gives exactly the snapshot it saved. |
| RestartManager.FullIsServicesThenHard | web-ui/src/components/Restart/RestartManager.tsx:196-200 | A full restart succeeds exactly when a services restart would, and reloads only then. It leaves the same storage. |
| RestartManager.SoftRestartClearsComponents | web-ui/src/components/Restart/RestartManager.tsx:149-154 | After a soft restart, restoring ConsciousnessChat, EventConsole or AgentManagement gives null. |
| RestartManager.SoftRestartKeepsOthers | web-ui/src/components/Restart/RestartManager.tsx:149-154 | A soft restart without state saving leaves every key other than the three components' unchanged. |
| RestartManager.FailedRestartNotRecorded | web-ui/src/components/Restart/RestartManager.tsx:132-139 | A services or full restart whose request fails records nothing, leaves the history as it was, and does not reload. |
| RestartManager.ClickOptions | web-ui/src/components/Restart/RestartManager.tsx:202-207 | The button uses the selected type and save flag, with the reason `Redémarrage <type> manuel depuis l'interface`. |
| RestartManager.HandleRestartClick | web-ui/src/components/Restart/RestartManager.tsx:202-209 | A click performs the restart with those options. A recorded event is manual, names the selected type, and its stateSaved is the checkbox value. With the box checked and storage writable the snapshot is written. Otherwise storage is what the type-specific step leaves. Every key but the app-state key is what that step leaves. |
| RestartManager.OnRecoveryEvent | web-ui/src/components/Restart/RestartManager.tsx:59-62 | A recovery event from the hook is pushed onto the same capped history; nothing else changes. |
| EventSource.ResolveApiBase | web-ui/src/hooks/useEventSource.ts:19-24 | For a blank configured base, the origin. Otherwise the trimmed base, with one trailing '/' removed if present. |
| EventSource.LoneSlashBase | web-ui/src/hooks/useEventSource.ts:21-22 | A base of "/" resolves to the empty string, not to the origin. |
| EventSource.SchemeEnd | web-ui/src/hooks/useEventSource.ts:34 | Finds the scheme of a URL: one is reported exactly when the text starts with a letter and then scheme characters up to a ':'. |
| EventSource.Directory | web-ui/src/hooks/useEventSource.ts:34 | The base's directory ends in '/', extends its scheme and authority, and is cut at the last '/' of its path; with no '/' in the path it is the authority followed by '/'. |
| EventSource.Resolve | web-ui/src/hooks/useEventSource.ts:34 | `new URL(path, base)` throws exactly when the base has no scheme. A path with a scheme stands alone; a path starting with '/' replaces the base's path; any other path replaces the last segment of the base's path. |
| EventSource.ResolveAgainstOrigin | web-ui/src/hooks/useEventSource.ts:23-34 | Against a bare origin such as the page's, a path starting with '/' is simply appended. |
| EventSource.LoneSlashBaseThrows | web-ui/src/hooks/useEventSource.ts:21-37 | A configured base of "/" gives an empty base, and building the stream URL against it throws. |
| EventSource.DoubleSlashBase | web-ui/src/hooks/useEventSource.ts:22 | Only one trailing '/' is stripped: a base ending in "//" keeps one. |
| EventSource.BuildUrl | web-ui/src/hooks/useEventSource.ts:32-37 | Building the URL throws exactly when the base is not an absolute URL. Otherwise the href is the path resolved against the base, and the topic parameter is set exactly when a non-empty topic is given, and is that topic. |
| EventSource.DecodeMessage | web-ui/src/hooks/useEventSource.ts:70-80 | raw is always kept. topic, type and timestamp come from the parsed JSON, and are undefined when parsing fails. |
| EventSource.PushMessage | web-ui/src/hooks/useEventSource.ts:81 | The new message comes first, followed by the previous buffer, cut at 200. |
| EventSource.CloseAt | web-ui/src/hooks/useEventSource.ts:53-57 | Closing marks exactly the chosen source closed and keeps every source's URL. |
| EventSource.StepPreservesInv | web-ui/src/hooks/useEventSource.ts:52-96 | Each input keeps the invariant: at most one open source, it is the current one, and the buffer holds at most 200. |
| EventSource.OneOpenSource | web-ui/src/hooks/useEventSource.ts:52-96 | Over any run, the previous source is closed before a new one opens. So at most one is ever open, and the buffer never exceeds 200. |
| EventSource.ConnectedFlag | web-ui/src/hooks/useEventSource.ts:62-69 | Open on the current source sets connected; error clears it. |
| EventSource.MessageAtHead | web-ui/src/hooks/useEventSource.ts:70-81 | A message on the current source is decoded and lands at index 0 of the buffer. |
| EventConsole.ViewOf | web-ui/src/components/Monitoring/EventConsole.tsx:35-56 | A message's view keeps its type. It has a time exactly when its timestamp is truthy. |
| EventConsole.FindKind | web-ui/src/components/Monitoring/EventConsole.tsx:37-38 | `find` returns the first event of one of the kinds, or none exactly when no event has one. |
| EventConsole.FilterKind | web-ui/src/components/Monitoring/EventConsole.tsx:46-47 | The filtered list holds only events of the kind; its length is their count. |
| EventConsole.CountKindReverse | web-ui/src/components/Monitoring/EventConsole.tsx:36-47 | Counting in oldest-first order gives the same token count as in the buffer's order. |
| EventConsole.SparkCounts | web-ui/src/components/Monitoring/EventConsole.tsx:52-62 | Bucket i counts exactly the token events with a non-zero time whose index `19 - floor((end - ts)/1000)` equals i. |
| EventConsole.SparkSum | web-ui/src/components/Monitoring/EventConsole.tsx:52-62 | The buckets add up to the number of token events that land in the window, which is at most the token count. |
| EventConsole.Sparkline | web-ui/src/components/Monitoring/EventConsole.tsx:53-61 | The bucketing loop computes the reference buckets: 20 non-negative counts. |
| EventConsole.ComputeMetrics | web-ui/src/components/Monitoring/EventConsole.tsx:21-65 | See the case list below this table. |
| EventConsole.StartEventWins | web-ui/src/components/Monitoring/EventConsole.tsx:37-39 | The oldest start event with a time fixes startedAt, whatever else the buffer holds. |
| EventConsole.ApplyFilter | web-ui/src/components/Monitoring/EventConsole.tsx:82-84 | The current topic is the trimmed input, non-empty, or undefined exactly when the input is blank. The input is kept. |
| EventConsole.ClearFilter | web-ui/src/components/Monitoring/EventConsole.tsx:86-89 | Both the input and the topic are reset. |
| EventConsole.ClearAfterApply | web-ui/src/components/Monitoring/EventConsole.tsx:82-89 | Applying and then clearing is the same as clearing. |
| EventConsole.FilterReachesUrl | web-ui/src/components/Monitoring/EventConsole.tsx:19-84 | Against an absolute base, the URL is built and the filter's topic reaches it exactly when the input is not blank. |
| Text.Trim | web-ui/src/hooks/useEventSource.ts:21 | `trim()` returns an infix of the input with only whitespace removed. The result starts and ends with non-whitespace, and is empty exactly when the input is all whitespace. |
| Text.NatToStringRoundTrip | web-ui/src/App.production.tsx:199 | Reading back the decimal text of n gives n. |
| Text.SplitLinesCount | web-ui/src/components/Consciousness/ConsciousnessChat.tsx:246 | Splitting on `\r?\n` gives one more line than there are '\n' characters. |
| Text.SplitLinesNoNewline | web-ui/src/components/Consciousness/ConsciousnessChat.tsx:246 | No line of the split holds a '\n'. |
| Text.SplitConcat | web-ui/src/components/Consciousness/ConsciousnessChat.tsx:246 | The split of x+y is the complete lines of x, then the split of x's last line joined to y. |
| FetchRetry.FinalError | web-ui/src/App.production.tsx:77-83 | A failed last attempt throws an HTTP error for a non-ok response, and rethrows the exception otherwise. |
| FetchRetry.ErrorMessage | web-ui/src/App.production.tsx:77-87 | The messages are `HTTP <status>: <statusText>` and "Max retries exceeded"; a rethrown value keeps its own message. |
| FetchRetry.PauseAfter | web-ui/src/App.production.tsx:80-85 | A sleep follows attempt j exactly when it threw and was not the last, and then lasts `retryDelay*(j+1)`. |
| FetchRetry.FetchWithRetry | web-ui/src/App.production.tsx:60-88 | See the case list below this table. |
| FetchRetry.ResultFromSpec | web-ui/src/App.production.tsx:60-88 | The outcome of the attempts from i on is a success exactly when one of them is ok, and otherwise the last attempt's error. |
| FetchRetry.WaitBounded | web-ui/src/App.production.tsx:84 | After n attempts, at most `retryDelay*(1+…+n)` ms were spent asleep. |
| FetchRetry.HttpErrorsNeverWait | web-ui/src/App.production.tsx:73-79 | A call that meets only HTTP errors never sleeps. |
| FetchRetry.ProcessError | web-ui/src/App.production.tsx:154-155 | The error shown is the thrown Error's message, or "Processing failed" for a non-Error. |
| FetchRetry.HandleSendMessage | web-ui/src/App.production.tsx:195-220 | A blank input or a load in progress changes nothing. Otherwise: the user's message is appended as typed and the input is cleared; a reply is appended on success; a body that decodes to null appends nothing more and shows no error; the error is shown on failure. |
| FetchRetry.SendAddsOneUserMessage | web-ui/src/App.production.tsx:195-220 | A send that goes through adds exactly one user message. |
| FetchRetry.CheckConnection | web-ui/src/App.production.tsx:90-139 | Connected exactly when the health request succeeded and its body decoded as JSON. Otherwise the error is the thrown message: the request's, or "Connection failed" for a non-Error, or the decoding error's. Loading is off. |
| FetchRetry.ConnectionFollowsNetwork | web-ui/src/App.production.tsx:60-139 | Over the retrying health request, the UI is connected exactly when some attempt answered ok and the first such answer's body is JSON. When no attempt is ok, the error is the last attempt's message, or "Connection failed". |
| FetchRetry.FirstOk | web-ui/src/App.production.tsx:60-88 | The attempt whose response is returned is the first ok one. |
| ConsciousnessChat.PrimitiveString | web-ui/src/components/Consciousness/ConsciousnessChat.tsx:134 | `String(v)` for a primitive: a string as itself, numbers in decimal, "true"/"false", "null". |
| ConsciousnessChat.EmotionOf | web-ui/src/components/Consciousness/ConsciousnessChat.tsx:132-134 | See the case list below this table. |
| ConsciousnessChat.ReplyMessage | web-ui/src/components/Consciousness/ConsciousnessChat.tsx:124-151 | The reply becomes an engine message with `id = request_id` and the reply's content. Creativity and empathy scores default to 0 when falsy. |
| ConsciousnessChat.HandleSendMessage | web-ui/src/components/Consciousness/ConsciousnessChat.tsx:160-175 | A blank input or processing in progress changes nothing. Otherwise exactly one user message is appended, then the reply on success. The input is cleared only after a success. |
| ConsciousnessChat.SuccessfulSendAddsReply | web-ui/src/components/Consciousness/ConsciousnessChat.tsx:124-175 | A successful send adds exactly the user's message and one engine reply with id `request_id` and the reply's content, neutral when no emotional state came back, and clears the input. |
| ConsciousnessChat.FailedSendCanBeRetried | web-ui/src/components/Consciousness/ConsciousnessChat.tsx:160-175 | A failed send adds only the user's message and keeps the input, so sending again goes through. |
| ConsciousnessChat.SetContent | web-ui/src/components/Consciousness/ConsciousnessChat.tsx:260-262 | Only messages whose id is the stream's get the new content; all others are unchanged. |
| ConsciousnessChat.Contribution | web-ui/src/components/Consciousness/ConsciousnessChat.tsx:250-258 | JSON with a string content adds that content; other JSON adds nothing; non-JSON adds the payload and a line break. |
| ConsciousnessChat.FeedLineEffect | web-ui/src/components/Consciousness/ConsciousnessChat.tsx:247-263 | One line extends the text by its contribution when it is a `data:` line, and rewrites only the stream's message. |
| ConsciousnessChat.FeedLinesEffect | web-ui/src/components/Consciousness/ConsciousnessChat.tsx:247-263 | Lines extend the text by their data content in order. Only the stream's message is rewritten, and it holds the whole text once a data line was seen. |
| ConsciousnessChat.AsWrittenAgreesOnWholeLines | web-ui/src/components/Consciousness/ConsciousnessChat.tsx:241-265 | When every chunk ends on a line break, the loop as written reads the stream as a whole would be read. |
| ConsciousnessChat.SplitDataLineLost | web-ui/src/components/Consciousness/ConsciousnessChat.tsx:241-258 | As written, "data:ab" cut into "data:a" and "b" yields "a\n", while the whole stream yields "ab\n". |
| ConsciousnessChat.BufferedReadsWholeStream | web-ui/src/components/Consciousness/ConsciousnessChat.tsx:241-265 | With the tail of each chunk carried over, the result is that of the whole stream's lines. |
| ConsciousnessChat.AsWrittenReadsChunkLines | web-ui/src/components/Consciousness/ConsciousnessChat.tsx:241-263 | The loop as written reads exactly each chunk's own lines, chunk after chunk. |
| ConsciousnessChat.ChunkingIrrelevant | web-ui/src/components/Consciousness/ConsciousnessChat.tsx:241-265 | Any two cuttings of the same stream give the same messages and text. |
| ConsciousnessChat.TestStream | web-ui/src/components/Consciousness/ConsciousnessChat.tsx:214-271 | Streaming is always off afterwards, also when it was already on, because the `finally` runs after the early return. Nothing else changes while already streaming or when the request is refused. The input and processing flag are kept. |
| ConsciousnessChat.StreamFillsPlaceholder | web-ui/src/components/Consciousness/ConsciousnessChat.tsx:233-263 | A finished stream adds exactly one engine message, holding the data content of each chunk's own lines in order. Messages with other ids are untouched. |
| ConsciousnessChat.WholeLineStreamFillsPlaceholder | web-ui/src/components/Consciousness/ConsciousnessChat.tsx:233-263 | When every chunk ends on a line break, the new message holds the data content of the whole stream's lines. |
| ConsciousnessChat.TestStreamBuffered | web-ui/src/components/Consciousness/ConsciousnessChat.tsx:214-271 | The corrected test stream keeps the flags of the original: streaming is off afterwards, and nothing else changes while already streaming or when refused. |
| ConsciousnessChat.BufferedStreamFillsPlaceholder | web-ui/src/components/Consciousness/ConsciousnessChat.tsx:233-263 | With the tail of each chunk carried over, the new message holds the data content of the whole stream's lines, however it was cut. |
| ConsciousnessChat.Welcome | web-ui/src/components/Consciousness/ConsciousnessChat.tsx:279-308 | The welcome message, carrying the given text and an emotional state whose primaryEmotion is "welcoming", is inserted only into an empty list; a non-empty list is left alone. |
| ConsciousnessChat.WelcomeOnlyEngineMessage | web-ui/src/components/Consciousness/ConsciousnessChat.tsx:279-308 | After the welcome effect, an empty list holds one engine message, the welcome with its text and welcoming state, and no other; existing messages keep their places. |
| ConsciousnessChat.WelcomeIdempotent | web-ui/src/components/Consciousness/ConsciousnessChat.tsx:279-308 | Running the welcome effect again changes nothing. |
| SystemMonitoring.ModelEntry | web-ui/src/components/Monitoring/SystemMonitoring.tsx:68 | A string entry is kept. Otherwise the entry's `name` is used when truthy, else its `model`. Null and other primitives give undefined. |
| SystemMonitoring.Entries | web-ui/src/components/Monitoring/SystemMonitoring.tsx:68 | Only truthy names are kept, and every truthy mapped entry is kept. |
| SystemMonitoring.EntriesComeFromItems | web-ui/src/components/Monitoring/SystemMonitoring.tsx:68 | Every entry is the mapped value of some item. |
| SystemMonitoring.FirstEntry | web-ui/src/components/Monitoring/SystemMonitoring.tsx:68-73 | Order is kept: the first entry, which becomes the selection, is the mapped value of the first item with a truthy one. |
| SystemMonitoring.NoEntries | web-ui/src/components/Monitoring/SystemMonitoring.tsx:68-71 | The list is empty exactly when no item maps to a truthy entry. |
| SystemMonitoring.NamesKept | web-ui/src/components/Monitoring/SystemMonitoring.tsx:67-69 | A list of non-empty names is taken over unchanged. |
| SystemMonitoring.FetchedModels | web-ui/src/components/Monitoring/SystemMonitoring.tsx:67-69 | Normalises `data.models` when it is an array; anything else gives `[]`. |
| SystemMonitoring.LoadModels | web-ui/src/components/Monitoring/SystemMonitoring.tsx:60-80 | See the case list below this table. |
| SystemMonitoring.SelectionAvailableAfterLoad | web-ui/src/components/Monitoring/SystemMonitoring.tsx:53-74 | After the mount-time load, the selected model is one of the available ones. |
| SystemMonitoring.InjectModel | web-ui/src/components/Monitoring/SystemMonitoring.tsx:202-206 | `model` is set only when there is no top-level `model`, no `llm.model`, and the selection is non-empty. Then an object gains it with its other fields unchanged, and null or a primitive throws. |
| SystemMonitoring.UserModelKept | web-ui/src/components/Monitoring/SystemMonitoring.tsx:202-206 | A model named in the payload, at the top or under `llm`, is never replaced. |
| SystemMonitoring.Evaluate | web-ui/src/components/Monitoring/SystemMonitoring.tsx:195-228 | See the case list below this table. |
| SystemMonitoring.ErrorText | web-ui/src/components/Monitoring/SystemMonitoring.tsx:213-224 | The banner text is `HTTP <status>: <text>`, or the thrown message, or "Erreur inattendue" when that is empty. |
| SystemMonitoring.Reset | web-ui/src/components/Monitoring/SystemMonitoring.tsx:233-257 | Reset restores the default payload and "tinyllama" and clears the error and answer. The model list is kept. |
| SystemMonitoring.ResetThenEvaluateInjectsDefault | web-ui/src/components/Monitoring/SystemMonitoring.tsx:202-256 | After a reset, the default payload is sent with `model: "tinyllama"`. |
| Auth.DropSession | web-ui/src/hooks/useAuth.ts:74-78 | Removes exactly `token` and `user`. |
| Auth.Mount | web-ui/src/hooks/useAuth.ts:25-41 | Loading is off afterwards. If either key is missing, nothing else changes. With both present, parsable user data becomes the user, and unparsable user data removes both keys. |
| Auth.Login | web-ui/src/hooks/useAuth.ts:43-72 | Loading is off afterwards. It throws exactly on a failed request, a null body or a throwing write, and the user is then unchanged. A failed request, a null body or a throwing token write leave storage unchanged; a throwing user write leaves the token written. Otherwise the token is stored as a string, the user as its JSON text, and the user is set. |
| Auth.Logout | web-ui/src/hooks/useAuth.ts:74-85 | Removes both keys and sets the user to null, so isAuthenticated is false. |
| Auth.LoginThenReloadRestoresUser | web-ui/src/hooks/useAuth.ts:25-65 | After a login with a non-empty token whose writes storage accepts, a reload restores the same user. |
| Auth.HalfWrittenLoginNotRestored | web-ui/src/hooks/useAuth.ts:25-65 | A login whose user write throws leaves a token without user data, and a reload then finds no session. |
| Auth.LogoutThenReloadSignedOut | web-ui/src/hooks/useAuth.ts:25-78 | After a logout, a reload is signed out and leaves storage as it is. |
| RenderDiagnostic.Changed | web-ui/src/components/Debug/RenderDiagnostic.tsx:35-41 | Reports exactly the indices where `dep[i] !== last[i]`, in increasing order. |
| RenderDiagnostic.ReasonFor | web-ui/src/components/Debug/RenderDiagnostic.tsx:32-46 | The first counted render is "Initial render". Later renders report the changed indices, or "Unknown reason" when there are none. |
| RenderDiagnostic.UnchangedDepsUnknown | web-ui/src/components/Debug/RenderDiagnostic.tsx:33-46 | A later render with the same dependencies has an unknown reason. |
| RenderDiagnostic.OnRender | web-ui/src/components/Debug/RenderDiagnostic.tsx:27-61 | When disabled nothing changes. Otherwise the count grows by 1, the explanation is pushed newest-first cut at 20, and the dependencies are remembered. |
| RenderDiagnostic.ClearHistory | web-ui/src/components/Debug/RenderDiagnostic.tsx:63-66 | Empties the history and resets the count to 0. |
| RenderDiagnostic.ChipColor | web-ui/src/components/Debug/RenderDiagnostic.tsx:84 | The chip is error exactly when count > 5, warning exactly when 2 < count <= 5, default otherwise. |
| RenderDiagnostic.View | web-ui/src/components/Debug/RenderDiagnostic.tsx:68-84 | The chip is shown exactly when enabled, with the count and its colour. |
| RenderDiagnostic.ViewAfterRun | web-ui/src/components/Debug/RenderDiagnostic.tsx:27-84 | After any run, an enabled overlay shows the number of enabled renders since the last clear, coloured by that number. |
| RenderDiagnostic.CountsRendersSinceClear | web-ui/src/components/Debug/RenderDiagnostic.tsx:27-66 | Over any run, the count is the number of enabled renders since the last clear. The history holds one entry per counted render, up to 20. |
| RenderDiagnostic.ClearThenRenderIsInitial | web-ui/src/components/Debug/RenderDiagnostic.tsx:32-66 | The first render after a clear is counted as 1 and explained as the initial render. |

The five operations whose table cells point here have the following contracts.

**AppStateManager.RestoreState**
- No item, or an empty one: null, storage unchanged.
- Non-JSON item: cleared, null.
- Older than 24 h: cleared, null.
- Accepted: the stored document itself, which is not stale, with the key kept.
- When `setItem` throws: either storage is unchanged or the key is cleared, and a snapshot is returned only if it has no truthy token, user or theme to write back.
- Keys other than app-state, token, user and theme never change.

**AppRecovery.PerformRecovery**
- While recovering, or with the counter at the bound: returns false and changes nothing.
- Otherwise the counter is incremented and one event carries that count.
- On success: the counter and errorCount reset to 0, and it returns true.
- On success: the event's stateSaved is true exactly when saving is configured and storage accepted the write.
- On failure: stateSaved is false, the event carries the counter, and a retry after retryDelay is scheduled exactly when the counter is still below maxRetries.
- A throw before the counter reset keeps the incremented counter and errorCount. A throw from the success notification, after the reset, leaves both at 0.
- Storage: only the app-state key is written. The clean-up after the attempt may remove stale or unreadable keys that start with the app-state key, and no other key. An attempt that throws before saving leaves storage unchanged.

**RestartManager.PerformRestart**
- isRestarting is off and the dialog is closed afterwards.
- The delay is awaited exactly when it is positive.
- An event is recorded exactly when the type-specific step succeeded. It is the manual event, pushed on the history.
- With saveState on and storage writable, the app-state key holds the snapshot's document.
- With saveState off, or storage not writable, storage is exactly what the type-specific step leaves.
- Every key other than the app-state key is what the type-specific step leaves.

**EventConsole.ComputeMetrics**
- Empty input gives all zeros and no sparkline.
- total is the count of messages, and tokens the count of token events.
- startedAt and endedAt are the oldest start and end events.
- The duration is >= 0, and 0 without a start.
- lastType is the newest message's type.
- The 20 buckets count the tokens per second. They are all zero without a start, and sum to at most tokens.

**FetchRetry.FetchWithRetry**
- `retries <= 0`: throws "Max retries exceeded" without any attempt.
- Otherwise: at most `retries` attempts; the first ok response is returned; all earlier attempts failed.
- A failed final attempt throws its own error.
- Each pause is PauseAfter.

**ConsciousnessChat.EmotionOf**
- An object, array or null is kept as the emotional state.
- A falsy primitive becomes "neutral".
- Any other primitive becomes its `String()`, with intensity 0.5.

**SystemMonitoring.LoadModels**
- A cancelled or failed request, or an empty list, changes nothing.
- Otherwise the list replaces the available models.
- The selection moves to the first entry only when the list lacks "tinyllama".

**SystemMonitoring.Evaluate**
- Loading is off, and the error is set exactly when no answer is shown.
- An invalid payload sends nothing.
- A failed injection sends nothing.
- A non-ok answer sets `HTTP <status>: <text>`.
- An ok answer is shown parsed when it is JSON, and raw otherwise.

## Notes on the code

The model follows the code as written in these places:
- **Model list:** the mount-time load of the monitoring page reads the selection of the first render. It therefore compares the fetched list with "tinyllama", not with a selection made since (`SystemMonitoring.LoadModels`).
- **Chat input:** `ConsciousnessChat.handleSendMessage` awaits the mutation before clearing the input. A failed request rejects that await, so the input is cleared only after a success.
- **`typeof`:** the chat's emotional state uses `typeof v === 'object'`, which also holds for null and arrays. Those values are kept as they are (`ConsciousnessChat.EmotionOf`).
- **Error boundary:** the snapshot saved on a catch spreads its own `uiState` over the default one. The default theme, sidebar and notifications are therefore dropped, and the route is the raw hash without the "/" default (`ErrorBoundary.CatchSnapshot`).
- **Recovery after a reset:** when the success notification throws, the counter is already 0. The catch records a failed event with retryCount 0 and schedules another attempt. A notification that keeps throwing therefore retries without end (`AppRecovery.FailureAfterResetNeverStops`).
- **Render diagnostic:** one step of the model is one run of the overlay's effect, not one render. The effect depends on `[enabled, componentName, dependencies]`, and the default `dependencies = []` is a new array on every render. Without that prop the effect runs after every render and its `setRenders` causes the next one, so the runs are unbounded (`RenderDiagnostic.OnRender`).
- **Integer division:** the bucket index `Math.floor((end - ts) / 1000)` is Dafny's `/` by a positive divisor, which rounds down as `Math.floor` does.

## Left out

- **Browser side effects.** Rendering, notifications, console logging, `window.location.reload`, `window.dispatchEvent`, and the timers themselves are out of scope. A scheduled timer appears only as the delay it would wait.
- **Network.** Real `fetch`, `EventSource` and `AbortController` timeouts are replaced by the outcomes they produce.
- **Concurrency.** Async interleaving of React state updates and overlapping recoveries are not modelled. Each operation is one step over explicit state.
- **Clean-up sweep.** The DOM-wide sweep of timers and event sources in `cleanupResources` (web-ui/src/hooks/useAppRecovery.ts:150-174) has no state to model. Its call to `cleanupOldStates` is modelled: after an attempt, stale or unreadable keys starting with the app-state key may be gone.
- **Randomness.** `Math.random` suffixes of ids are parameters. `Date.now` is the `now` parameter.
- **Floating point.** All numbers are integers. Left out are the 0.5 intensity and scores as fractional values, `tokensPerSec` and `durationSec` with `toFixed` rounding, and the numeric fields of the welcome message (awareness, cognitive load, confidence, and the intensity, valence and arousal of its emotional state).
- **`testGenerate`.** The chat's one-shot generate button (web-ui/src/components/Consciousness/ConsciousnessChat.tsx:184-212) is not modelled. It is a request whose only state effect is one appended message.
- **Invalid dates.** The event console reads timestamps through a `dateOf` parameter. An unparsable timestamp gives an Invalid Date, which is truthy but has a NaN time; this is not represented.
- **Pretty printing.** The two-space pretty printing of `JSON.stringify(v, null, 2)` is represented by the shown value, not by its text.
- EventSource.BuildUrl: resolution follows the URL standard for the shapes this code produces only. Dot segments, percent-encoding, protocol-relative paths ("//host"), paths starting with '?' or '#', backslashes, bases with an opaque path (which throw for a relative path), host validation and the serialisation of the query are not modelled.
- **Numeric coercion.** The `-` and `>` coercion of JSON values is exact only for undefined, null, booleans, numbers, the empty string and the empty array. Every other string or array reads as NaN, including numeric strings that JavaScript would convert.
- **JSON text.** `JSON.stringify` is modelled as the compact JSON text of integers, strings, arrays and objects. String escaping is approximated; the texts only need to be non-empty and distinct from non-JSON entries.
- Storage.Coerce: an array read out of a document is stored as its JSON text. A string that happens to be JSON text is stored as a non-JSON entry. Neither case affects the properties stated here.
- ConsciousnessChat.TestStream: its contract states only the flags. The message content of the loop as written is stated by `StreamFillsPlaceholder`, and that of the corrected reader by `BufferedStreamFillsPlaceholder`.
- AppRecovery.FailingAttemptsBounded: the bound on attempts holds only for failures before the counter reset. A throw from the success notification is retried without bound.
- HealthMonitor.MaxRenders: `parseInt` of the attribute text is abstracted to a count, a missing attribute, or NaN.
- RenderDiagnostic.ReasonFor: the reason's text, which includes `JSON.stringify` of the old and new values, is represented by the list of changed indices. `!==` is `!=` on the dependency values, so `NaN !== NaN` is not represented.
- ErrorBoundary.ErrorId: the random suffix is a parameter, so the contract states only the prefix.

## Findings

| source | as written | input that shows it | evidently intended | confidence | as-written member | corrected member |
|---|---|---|---|---|---|---|
| web-ui/src/components/Consciousness/ConsciousnessChat.tsx:241-258 | Each decoded chunk is split into lines on its own. A `data:` line cut by a chunk boundary is read as two lines, and the part after the boundary is dropped because it does not start with `data:`. | The stream `data:ab` arriving as chunks `data:a` and `b`, with a payload that is not JSON, yields `a\n` instead of `ab\n`. | Carry the unfinished last line of each chunk into the next, so the text depends only on the stream, not on how it was cut. | medium, not executed | ConsciousnessChat.SplitDataLineLost | ConsciousnessChat.BufferedStreamFillsPlaceholder |

=== FILE: app_recovery.dfy ===
/**
 * The application-level recovery hook: a retry counter guarded against
 * re-entry, bounded by `maxRetries`, incremented before each attempt and
 * reset by a successful one; a failed attempt reschedules itself while the
 * bound allows. The attempt's own work (saving the snapshot, waiting,
 * cleaning up) is summarised by its outcome, given as a parameter.
 */
module AppRecovery {
  import opened Wrappers
  import opened Json
  import opened Storage
  import opened RestartTypes
  import AppStateManager
  import Text

  /** `{ ...DEFAULT_RESTART_CONFIG, ...userConfig }`. */
  function MergeConfig(user: ConfigPatch): (c: RestartConfig)
    ensures c.autoRestart == user.autoRestart.GetOr(DEFAULT_RESTART_CONFIG.autoRestart)
    ensures c.maxRetries == user.maxRetries.GetOr(DEFAULT_RESTART_CONFIG.maxRetries)
    ensures c.retryDelay == user.retryDelay.GetOr(DEFAULT_RESTART_CONFIG.retryDelay)
    ensures c.healthCheckInterval == user.healthCheckInterval.GetOr(DEFAULT_RESTART_CONFIG.healthCheckInterval)
    ensures c.saveStateOnRestart == user.saveStateOnRestart.GetOr(DEFAULT_RESTART_CONFIG.saveStateOnRestart)
    ensures c.notifyUser == user.notifyUser.GetOr(DEFAULT_RESTART_CONFIG.notifyUser)
  {
    RestartConfig(
      user.autoRestart.GetOr(DEFAULT_RESTART_CONFIG.autoRestart),
      user.maxRetries.GetOr(DEFAULT_RESTART_CONFIG.maxRetries),
      user.retryDelay.GetOr(DEFAULT_RESTART_CONFIG.retryDelay),
      user.healthCheckInterval.GetOr(DEFAULT_RESTART_CONFIG.healthCheckInterval),
      user.saveStateOnRestart.GetOr(DEFAULT_RESTART_CONFIG.saveStateOnRestart),
      user.notifyUser.GetOr(DEFAULT_RESTART_CONFIG.notifyUser))
  }

  const NO_CONFIG := ConfigPatch(None, None, None, None, None, None)

  /** Without user fields the effective configuration is the default one. */
  lemma MergeEmptyIsDefault()
    ensures MergeConfig(NO_CONFIG) == DEFAULT_RESTART_CONFIG
  {
  }

  /** The hook's state: the `isRecovering` flag, the retry counter, the error count, the last event. */
  datatype RecoveryState = RecoveryState(
    isRecovering: bool,
    retryCount: int,
    errorCount: int,
    lastRecovery: Option<RestartEvent>)

  const INITIAL := RecoveryState(false, 0, 0, None)

  /**
   * How an attempt ends. Completed runs the whole `try` block; the others
   * stand for an exception thrown by the foreign code in it: the progress
   * notification before the snapshot is saved, the timers after it, the
   * `onRestart` callback after the clean-up, or the success notification
   * after the counter and the error count were reset.
   */
  datatype Attempt = Completed | ThrewBeforeSave | ThrewAfterSave | ThrewAfterCleanup | ThrewAfterReset

  /** The surroundings of one attempt: storage, location, clock readings, outcome. */
  datatype AttemptEnv = AttemptEnv(
    store: Store,
    hash: string,
    start: int,      // Date.now() when the attempt starts
    cleanupAt: int,  // Date.now() during the clean-up
    end: int,        // Date.now() when the attempt ends
    idSuffix: string,
    writable: bool,  // localStorage.setItem succeeds
    outcome: Attempt)

  datatype RecoveryResult = RecoveryResult(
    state: RecoveryState,
    store: Store,
    result: bool,
    event: Option<RestartEvent>,  // the event emitted, if an attempt was made
    retryAfter: Option<int>)      // the delay of a rescheduled attempt, if any

  function EventId(now: int, suffix: string): string {
    "recovery_" + Text.IntToString(now) + "_" + suffix
  }

  /** The store an attempt leaves: the snapshot saved (when configured) and the clean-up, as far as the attempt got. */
  function AttemptStore(cfg: RestartConfig, env: AttemptEnv): Store {
    var saved := if cfg.saveStateOnRestart && env.outcome != ThrewBeforeSave
                 then AppStateManager.SaveState(env.store, env.hash, env.start, EMPTY_PATCH, env.writable).0
                 else env.store;
    if env.outcome == Completed || env.outcome == ThrewAfterCleanup || env.outcome == ThrewAfterReset
    then AppStateManager.Cleaned(saved, env.cleanupAt)
    else saved
  }

  /**
   * `performRecovery(reason)`. A call while recovering, or with the counter
   * at the bound, returns false and changes nothing. Otherwise the counter is
   * incremented, one event carrying that count is emitted, and the flag is
   * cleared again; success resets the counter and the error count and records
   * whether `saveState()` reported the snapshot written, failure reschedules
   * an attempt after `retryDelay` while the counter is below the bound. A
   * throw after the reset is a failure with the counter already at 0, so it
   * is always rescheduled (when the bound is positive). In
   * storage an attempt may write the snapshot and the clean-up may remove
   * entries under the snapshot key's prefix; nothing else changes.
   */
  function PerformRecovery(s: RecoveryState, cfg: RestartConfig, reason: RestartReason, env: AttemptEnv): (r: RecoveryResult)
    ensures s.isRecovering || s.retryCount >= cfg.maxRetries ==>
              r == RecoveryResult(s, env.store, false, None, None)
    ensures !s.isRecovering && s.retryCount < cfg.maxRetries ==>
              && r.event.Some?
              && r.event.value.retryCount == (if env.outcome == ThrewAfterReset then 0 else s.retryCount + 1)
              && r.event.value.reason == reason
              && r.event.value.id == EventId(env.start, env.idSuffix)
              && r.event.value.duration == env.end - env.start
              && !r.event.value.stateRestored
              && r.state.lastRecovery == r.event
              && !r.state.isRecovering
              && (r.result <==> env.outcome == Completed)
              && r.event.value.success == r.result
    ensures r.result ==> r.state.retryCount == 0 && r.state.errorCount == 0 && r.retryAfter.None?
                         && r.event.value.stateSaved == (cfg.saveStateOnRestart && env.writable)
    ensures r.event.Some? && !r.result ==>
              && !r.event.value.stateSaved
              && r.state.retryCount == r.event.value.retryCount
              && (r.retryAfter.Some? <==> r.state.retryCount < cfg.maxRetries)
              && (r.retryAfter.Some? ==> r.retryAfter.value == cfg.retryDelay)
    ensures r.event.Some? && !r.result && env.outcome != ThrewAfterReset ==>
              r.state.retryCount == s.retryCount + 1 && r.state.errorCount == s.errorCount
    ensures r.event.Some? && env.outcome == ThrewAfterReset ==> r.state.retryCount == 0 && r.state.errorCount == 0
    ensures forall k :: k in r.store && k != APP_STATE_KEY ==> k in env.store && r.store[k] == env.store[k]
    ensures forall k :: k in env.store && !Text.StartsWith(k, APP_STATE_KEY) ==> k in r.store
    ensures r.event.Some? && env.outcome == ThrewBeforeSave ==> r.store == env.store
  {
    if s.isRecovering || s.retryCount >= cfg.maxRetries then
      RecoveryResult(s, env.store, false, None, None)
    else
      var count := s.retryCount + 1;
      var store := AttemptStore(cfg, env);
      var id := EventId(env.start, env.idSuffix);
      var duration := env.end - env.start;
      if env.outcome == Completed then
        var stateSaved := cfg.saveStateOnRestart && env.writable;
        var event := RestartEvent(id, reason, stateSaved, false, duration, true, count);
        RecoveryResult(RecoveryState(false, 0, 0, Some(event)), store, true, Some(event), None)
      else if env.outcome == ThrewAfterReset then
        var event := RestartEvent(id, reason, false, false, duration, false, 0);
        RecoveryResult(RecoveryState(false, 0, 0, Some(event)), store, false, Some(event),
                       if 0 < cfg.maxRetries then Some(cfg.retryDelay) else None)
      else
        var event := RestartEvent(id, reason, false, false, duration, false, count);
        RecoveryResult(RecoveryState(false, count, s.errorCount, Some(event)), store, false, Some(event),
                       if count < cfg.maxRetries then Some(cfg.retryDelay) else None)
  }

  /**
   * An attempt that saves the snapshot leaves one that the next restore
   * within 24 hours gives back, the clean-up notwithstanding (it runs within
   * 7 days of the save).
   */
  lemma RecoverySavesSnapshot(s: RecoveryState, cfg: RestartConfig, reason: RestartReason, env: AttemptEnv, now: int)
    requires !s.isRecovering && s.retryCount < cfg.maxRetries
    requires cfg.saveStateOnRestart && env.writable && env.outcome != ThrewBeforeSave
    requires env.cleanupAt - env.start <= AppStateManager.MAX_STORED_AGE
    requires now - env.start <= AppStateManager.MAX_SNAPSHOT_AGE
    ensures var r := PerformRecovery(s, cfg, reason, env);
      AppStateManager.RestoreState(r.store, now, true).state
      == Some(AppStateJson(AppStateManager.Snapshot(env.store, env.hash, env.start, EMPTY_PATCH)))
  {
    var snap := AppStateManager.Snapshot(env.store, env.hash, env.start, EMPTY_PATCH);
    var saved := AppStateManager.SaveState(env.store, env.hash, env.start, EMPTY_PATCH, true).0;
    var r := PerformRecovery(s, cfg, reason, env);
    if env.outcome == Completed || env.outcome == ThrewAfterCleanup || env.outcome == ThrewAfterReset {
      AppStateManager.CleanupKeepsRecentSnapshot(env.store, env.hash, env.start, env.cleanupAt);
      assert r.store == AppStateManager.Cleaned(saved, env.cleanupAt);
    }
    assert APP_STATE_KEY in r.store && r.store[APP_STATE_KEY] == Doc(AppStateJson(snap));
    AppStateManager.RestoreStored(r.store, snap, now);
  }

  /**
   * The number of attempts made when every attempt fails before the reset
   * and each rescheduled attempt runs as soon as it is due.
   */
  function FailingAttempts(s: RecoveryState, cfg: RestartConfig, reason: RestartReason, env: AttemptEnv): nat
    requires env.outcome != Completed && env.outcome != ThrewAfterReset
    decreases cfg.maxRetries - s.retryCount
  {
    var r := PerformRecovery(s, cfg, reason, env);
    if r.event.None? then 0
    else if r.retryAfter.Some? then 1 + FailingAttempts(r.state, cfg, reason, env.(store := r.store))
    else 1
  }

  /**
   * A recovery failing before the reset retries until the counter reaches
   * the bound: starting from counter `c`, exactly `maxRetries - c` attempts
   * are made (none when the bound is already reached).
   */
  lemma {:induction false} FailingAttemptsBounded(s: RecoveryState, cfg: RestartConfig, reason: RestartReason, env: AttemptEnv)
    requires env.outcome != Completed && env.outcome != ThrewAfterReset && !s.isRecovering
    ensures FailingAttempts(s, cfg, reason, env) == if s.retryCount < cfg.maxRetries then cfg.maxRetries - s.retryCount else 0
    decreases cfg.maxRetries - s.retryCount
  {
    var r := PerformRecovery(s, cfg, reason, env);
    if r.event.Some? && r.retryAfter.Some? {
      FailingAttemptsBounded(r.state, cfg, reason, env.(store := r.store));
    }
  }

  /** From the initial state a recovery failing before the reset makes at most `maxRetries` attempts. */
  lemma FailingRecoveryFromStart(cfg: RestartConfig, reason: RestartReason, env: AttemptEnv)
    requires env.outcome != Completed && env.outcome != ThrewAfterReset
    ensures FailingAttempts(INITIAL, cfg, reason, env) <= if cfg.maxRetries < 0 then 0 else cfg.maxRetries
  {
    FailingAttemptsBounded(INITIAL, cfg, reason, env);
  }

  /**
   * The attempts made, counting at most `n`, when each rescheduled attempt
   * runs as soon as it is due and ends as `env.outcome` says.
   */
  function AttemptsUpTo(s: RecoveryState, cfg: RestartConfig, reason: RestartReason, env: AttemptEnv, n: nat): nat
    decreases n
  {
    if n == 0 then 0
    else
      var r := PerformRecovery(s, cfg, reason, env);
      if r.event.None? then 0
      else if r.retryAfter.Some? then 1 + AttemptsUpTo(r.state, cfg, reason, env.(store := r.store), n - 1)
      else 1
  }

  /**
   * A recovery whose success notification keeps throwing never stops: the
   * counter was reset before the throw, so every failure is rescheduled and
   * any number `n` of attempts is reached.
   */
  lemma {:induction false} FailureAfterResetNeverStops(s: RecoveryState, cfg: RestartConfig, reason: RestartReason, env: AttemptEnv, n: nat)
    requires env.outcome == ThrewAfterReset && !s.isRecovering && s.retryCount < cfg.maxRetries && 0 < cfg.maxRetries
    ensures AttemptsUpTo(s, cfg, reason, env, n) == n
    decreases n
  {
    if n > 0 {
      var r := PerformRecovery(s, cfg, reason, env);
      FailureAfterResetNeverStops(r.state, cfg, reason, env.(store := r.store), n - 1);
    }
  }

  /**
   * `handleError(error)`: counts the error and, when automatic restart is on,
   * starts a recovery for an error reason of high severity.
   */
  function HandleError(s: RecoveryState, cfg: RestartConfig, message: string, now: int, env: AttemptEnv): (r: RecoveryResult)
    ensures !cfg.autoRestart ==> r == RecoveryResult(s.(errorCount := s.errorCount + 1), env.store, false, None, None)
    ensures cfg.autoRestart ==>
              r == PerformRecovery(s.(errorCount := s.errorCount + 1), cfg, ErrorReasonFor(message, now), env)
    ensures r.event.Some? ==> r.event.value.reason.kind == ErrorReason && r.event.value.reason.severity == High
    ensures r.result || (r.event.Some? && env.outcome == ThrewAfterReset) || r.state.errorCount == s.errorCount + 1
  {
    var counted := s.(errorCount := s.errorCount + 1);
    if cfg.autoRestart then PerformRecovery(counted, cfg, ErrorReasonFor(message, now), env)
    else RecoveryResult(counted, env.store, false, None, None)
  }

  function ErrorReasonFor(message: string, now: int): (r: RestartReason)
    ensures r.kind == ErrorReason && r.severity == High
    ensures message != "" ==> r.message == message
    ensures message == "" ==> r.message == "Erreur inconnue"
  {
    RestartReason(ErrorReason, if message != "" then message else "Erreur inconnue", now, High)
  }

  /** `triggerRecovery(reason?)`: a manual recovery of medium severity. */
  function ManualReason(text: Option<string>, now: int): (r: RestartReason)
    ensures r.kind == Manual && r.severity == Medium && r.timestamp == now
    ensures text.Some? && text.value != "" ==> r.message == text.value
    ensures text.None? || text == Some("") ==> r.message == "Récupération manuelle déclenchée"
  {
    RestartReason(Manual, if text.Some? && text.value != "" then text.value else "Récupération manuelle déclenchée", now, Medium)
  }

  function TriggerRecovery(s: RecoveryState, cfg: RestartConfig, text: Option<string>, now: int, env: AttemptEnv): (r: RecoveryResult)
    ensures r == PerformRecovery(s, cfg, ManualReason(text, now), env)
    ensures r.event.Some? ==> r.event.value.reason.kind == Manual && r.event.value.reason.severity == Medium
    ensures r.event.Some? && text.Some? && text.value != "" ==> r.event.value.reason.message == text.value
  {
    PerformRecovery(s, cfg, ManualReason(text, now), env)
  }

  /** What the mount effect does: the store it leaves and the route it navigates to, if any. */
  datatype MountResult = MountResult(store: Store, navigateTo: Option<Json>)

  /**
   * Restoring on mount: when a snapshot is saved and restores, navigate to
   * its route when that is truthy and differs from the current hash.
   * `writable` says whether the restore's write-back is accepted.
   */
  function RestoreOnMount(st: Store, hash: string, now: int, writable: bool): (r: MountResult)
    ensures !AppStateManager.HasSavedState(st) ==> r == MountResult(st, None)
    ensures AppStateManager.HasSavedState(st) ==> r.store == AppStateManager.RestoreState(st, now, writable).store
    ensures r.navigateTo.Some? <==>
              && AppStateManager.RestoreState(st, now, writable).state.Some?
              && Truthy(Field(AppStateManager.RestoreState(st, now, writable).state.value, "currentRoute"))
              && Field(AppStateManager.RestoreState(st, now, writable).state.value, "currentRoute") != Some(JStr(hash))
    ensures r.navigateTo.Some? ==>
              r.navigateTo == Field(AppStateManager.RestoreState(st, now, writable).state.value, "currentRoute")
  {
    if !AppStateManager.HasSavedState(st) then MountResult(st, None)
    else
      var restored := AppStateManager.RestoreState(st, now, writable);
      if restored.state.None? then MountResult(restored.store, None)
      else
        var route := Field(restored.state.value, "currentRoute");
        if Truthy(route) && route != Some(JStr(hash)) then MountResult(restored.store, route)
        else MountResult(restored.store, None)
  }

  /**
   * After a crash at route `saved` the next mount within 24 hours navigates
   * back to it, unless the location is already there.
   */
  lemma MountReturnsToSavedRoute(st: Store, saved: string, t: int, hash: string, now: int)
    requires saved != "" && saved != hash
    requires now - t <= AppStateManager.MAX_SNAPSHOT_AGE
    ensures RestoreOnMount(AppStateManager.SaveState(st, saved, t, EMPTY_PATCH, true).0, hash, now, true).navigateTo
            == Some(JStr(saved))
  {
    AppStateManager.SaveRestoreRoundTrip(st, saved, t, EMPTY_PATCH, now);
  }
}

=== FILE: app_state_manager.dfy ===
/**
 * The crash-recovery snapshot store: the application snapshot kept under
 * APP_STATE_KEY, per-component state under APP_STATE_KEY + "_" + name, and
 * the expiry rules (24 hours for the snapshot, a per-call limit for
 * component state, 7 days in the periodic clean-up). Every operation takes
 * the store and the current time and returns the new store.
 */
module AppStateManager {
  import opened Wrappers
  import opened Json
  import opened Storage
  import opened RestartTypes
  import Text

  const HOUR_MS := 60 * 60 * 1000
  /** A snapshot older than this is discarded by RestoreState. */
  const MAX_SNAPSHOT_AGE := 24 * HOUR_MS
  /** A saved entry older than this is removed by CleanupOldStates. */
  const MAX_STORED_AGE := 7 * 24 * HOUR_MS
  /** The default `maxAge` of RestoreComponentState. */
  const DEFAULT_COMPONENT_MAX_AGE := 3600000

  /** `parseJsonSafely(localStorage.getItem(key))`: null unless the key holds a JSON document. */
  function ParseJsonSafely(st: Store, key: string): (r: Json)
    ensures !Present(st, key) ==> r == JNull
    ensures key in st && st[key].Text? ==> r == JNull
    ensures key in st && st[key].Doc? ==> r == st[key].v
  {
    match ReadJson(st, key)
    case Parsed(v) => v
    case _ => JNull
  }

  /** `localStorage.getItem(key) || fallback` for a string-valued key. */
  function ItemOr(st: Store, key: string, fallback: string): (r: string)
    ensures !Present(st, key) ==> r == fallback
    ensures Present(st, key) ==> Some(r) == GetItem(st, key)
  {
    if Present(st, key) then GetItem(st, key).value else fallback
  }

  /** The snapshot `saveState` builds before the caller's fields are spread over it. */
  function DefaultSnapshot(st: Store, hash: string, now: int): AppState {
    AppState(
      currentRoute := if hash == "" then "/" else hash,
      userSession := UserSession(
        isAuthenticated := Present(st, "token"),
        user := ParseJsonSafely(st, "user"),
        token := if Present(st, "token") then GetItem(st, "token") else None),
      uiState := UiState(
        sidebarOpen := Some(ParseJsonSafely(st, "sidebar_open")),
        theme := Some(ItemOr(st, "theme", "dark")),
        notifications := Some(Or(Some(ParseJsonSafely(st, "notifications")), JArr([]))),
        lastError := None),
      timestamp := now)
  }

  /** The snapshot `saveState(patch)` stores at time `now` with location hash `hash`. */
  function Snapshot(st: Store, hash: string, now: int, patch: StatePatch): AppState {
    ApplyPatch(DefaultSnapshot(st, hash, now), patch)
  }

  lemma DefaultSnapshotFacts(st: Store, hash: string, now: int)
    ensures var s := DefaultSnapshot(st, hash, now);
      && (hash == "" ==> s.currentRoute == "/")
      && (hash != "" ==> s.currentRoute == hash)
      && (!Present(st, "theme") ==> s.uiState.theme == Some("dark"))
      && (!Present(st, "notifications") ==> s.uiState.notifications == Some(JArr([])))
      && (s.userSession.isAuthenticated <==> s.userSession.token.Some?)
      && s.timestamp == now
  {
  }

  /**
   * `saveState(additionalData)`: writes one entry, under APP_STATE_KEY, and
   * reports success. Fields of the patch replace the defaults as a whole.
   * `writable` is false when `setItem` throws (storage full or disabled):
   * the error is caught, nothing is written and false is returned.
   */
  function SaveState(st: Store, hash: string, now: int, patch: StatePatch, writable: bool): (r: (Store, bool))
    ensures r.1 == writable
    ensures !writable ==> r.0 == st
    ensures writable ==> r.0.Keys == st.Keys + {APP_STATE_KEY}
    ensures forall k :: k in st && k != APP_STATE_KEY ==> r.0[k] == st[k]
    ensures writable ==> r.0[APP_STATE_KEY] == Doc(AppStateJson(Snapshot(st, hash, now, patch)))
  {
    if !writable then (st, false)
    else (st[APP_STATE_KEY := Doc(AppStateJson(Snapshot(st, hash, now, patch)))], true)
  }

  /** `clearSavedState()`. */
  function ClearSavedState(st: Store): (r: Store)
    ensures APP_STATE_KEY !in r
    ensures forall k :: k != APP_STATE_KEY ==> (k in r <==> k in st) && (k in st ==> r[k] == st[k])
  {
    st - {APP_STATE_KEY}
  }

  /** `hasSavedState()`: the snapshot key holds a non-empty string. */
  function HasSavedState(st: Store): (r: bool)
    ensures r <==> GetItem(st, APP_STATE_KEY).Some? && GetItem(st, APP_STATE_KEY).value != ""
  {
    Present(st, APP_STATE_KEY)
  }

  /** What `restoreState()` returns (the parsed snapshot, or null) and the store it leaves. */
  datatype Restored = Restored(store: Store, state: Option<Json>)

  /**
   * `restoreState()`: the saved snapshot when it exists, parses and is at
   * most 24 hours old, after writing its token, user and theme back to their
   * own keys. A corrupt or stale snapshot is cleared, as is one whose
   * `userSession` or `uiState` cannot be read (the TypeError is caught);
   * writes made before such a TypeError stay. When `writable` is false the
   * first `setItem` of the write-back throws: the catch clears the snapshot
   * and null is returned.
   */
  function RestoreState(st: Store, now: int, writable: bool): (r: Restored)
    ensures !Present(st, APP_STATE_KEY) ==> r == Restored(st, None)
    ensures Present(st, APP_STATE_KEY) && st[APP_STATE_KEY].Text? ==> r == Restored(ClearSavedState(st), None)
    ensures APP_STATE_KEY in st && st[APP_STATE_KEY].Doc?
            && OlderThan(now, Field(st[APP_STATE_KEY].v, "timestamp"), MAX_SNAPSHOT_AGE)
            ==> r == Restored(ClearSavedState(st), None)
    ensures r.state.Some? ==> APP_STATE_KEY in st && st[APP_STATE_KEY] == Doc(r.state.value)
                              && !OlderThan(now, Field(r.state.value, "timestamp"), MAX_SNAPSHOT_AGE)
                              && APP_STATE_KEY in r.store && r.store[APP_STATE_KEY] == st[APP_STATE_KEY]
    ensures r.state.None? && Present(st, APP_STATE_KEY) ==> APP_STATE_KEY !in r.store
    ensures forall k :: k != APP_STATE_KEY && k != "token" && k != "user" && k != "theme" ==>
              (k in r.store <==> k in st) && (k in st ==> r.store[k] == st[k])
    ensures !writable ==> r.store == st || r.store == ClearSavedState(st)
    ensures !writable && r.state.Some? ==>
              !Truthy(SnapshotToken(r.state.value)) && !Truthy(SnapshotUser(r.state.value)) && !Truthy(SnapshotTheme(r.state.value))
  {
    match ReadJson(st, APP_STATE_KEY)
    case Absent => Restored(st, None)
    case Unparsable => Restored(ClearSavedState(st), None)
    case Parsed(v) => RestoreParsed(st, v, now, writable)
  }

  /** The steps of `restoreState` after the snapshot `v` parsed. */
  function RestoreParsed(st: Store, v: Json, now: int, writable: bool): (r: Restored)
    requires APP_STATE_KEY in st && st[APP_STATE_KEY] == Doc(v)
    ensures OlderThan(now, Field(v, "timestamp"), MAX_SNAPSHOT_AGE) ==> r == Restored(ClearSavedState(st), None)
    ensures r.state.Some? ==> r.state.value == v && !OlderThan(now, Field(v, "timestamp"), MAX_SNAPSHOT_AGE)
                              && APP_STATE_KEY in r.store && r.store[APP_STATE_KEY] == st[APP_STATE_KEY]
    ensures r.state.None? ==> APP_STATE_KEY !in r.store
    ensures forall k :: k != APP_STATE_KEY && k != "token" && k != "user" && k != "theme" ==>
              (k in r.store <==> k in st) && (k in st ==> r.store[k] == st[k])
    ensures !writable ==> r.store == st || r.store == ClearSavedState(st)
    ensures !writable && r.state.Some? ==>
              !Truthy(SnapshotToken(v)) && !Truthy(SnapshotUser(v)) && !Truthy(SnapshotTheme(v))
  {
    match Get(Some(v), "timestamp")
    case Failure(_) => Restored(ClearSavedState(st), None)
    case Success(ts) =>
      if OlderThan(now, ts, MAX_SNAPSHOT_AGE) then Restored(ClearSavedState(st), None)
      else
        var session := Field(v, "userSession");
        match Get(session, "token")
        case Failure(_) => Restored(ClearSavedState(st), None)
        case Success(token) =>
          var user := Field(session.value, "user");
          if !writable && (Truthy(token) || Truthy(user)) then Restored(ClearSavedState(st), None)
          else
            var st2 := PutIf(PutIf(st, "token", Truthy(token), Coerce(token)), "user", Truthy(user), Doc(user.GetOr(JNull)));
            match Get(Field(v, "uiState"), "theme")
            case Failure(_) => Restored(ClearSavedState(st2), None)
            case Success(theme) =>
              if !writable && Truthy(theme) then Restored(ClearSavedState(st2), None)
              else Restored(PutIf(st2, "theme", Truthy(theme), Coerce(theme)), Some(v))
  }

  /** `if (value) localStorage.setItem(key, …)`: one key written when `cond` holds, nothing else touched. */
  function PutIf(st: Store, key: string, cond: bool, e: Entry): (r: Store)
    ensures cond ==> key in r && r[key] == e
    ensures !cond ==> r == st
    ensures forall k :: k != key ==> (k in r <==> k in st) && (k in st ==> r[k] == st[k])
  {
    if cond then st[key := e] else st
  }

  /** The token, user and theme fields a snapshot document carries. */
  function SnapshotToken(v: Json): Option<Json> {
    var session := Field(v, "userSession");
    if session.Some? then Field(session.value, "token") else None
  }

  function SnapshotUser(v: Json): Option<Json> {
    var session := Field(v, "userSession");
    if session.Some? then Field(session.value, "user") else None
  }

  function SnapshotTheme(v: Json): Option<Json> {
    var ui := Field(v, "uiState");
    if ui.Some? then Field(ui.value, "theme") else None
  }

  /**
   * On a successful restore the token, user and theme are written back
   * exactly when the snapshot holds a truthy value for them; otherwise the
   * key keeps what it held.
   */
  lemma RestoreWritesBack(st: Store, now: int, writable: bool)
    requires RestoreState(st, now, writable).state.Some?
    ensures var r := RestoreState(st, now, writable);
      var v := r.state.value;
      && (Truthy(SnapshotToken(v)) ==> "token" in r.store && r.store["token"] == Coerce(SnapshotToken(v)))
      && (!Truthy(SnapshotToken(v)) ==> ("token" in r.store <==> "token" in st)
                                        && ("token" in st ==> r.store["token"] == st["token"]))
      && (Truthy(SnapshotUser(v)) ==> "user" in r.store && r.store["user"] == Doc(SnapshotUser(v).value))
      && (!Truthy(SnapshotUser(v)) ==> ("user" in r.store <==> "user" in st)
                                       && ("user" in st ==> r.store["user"] == st["user"]))
      && (Truthy(SnapshotTheme(v)) ==> "theme" in r.store && r.store["theme"] == Coerce(SnapshotTheme(v)))
      && (!Truthy(SnapshotTheme(v)) ==> ("theme" in r.store <==> "theme" in st)
                                        && ("theme" in st ==> r.store["theme"] == st["theme"]))
  {
  }

  /** The token part of the write-back alone. */
  lemma RestoreWritesToken(st: Store, now: int, writable: bool)
    requires RestoreState(st, now, writable).state.Some?
    ensures var r := RestoreState(st, now, writable);
      Truthy(SnapshotToken(r.state.value)) ==> "token" in r.store && r.store["token"] == Coerce(SnapshotToken(r.state.value))
  {
    RestoreWritesBack(st, now, writable);
  }

  /**
   * A snapshot document whose timestamp is fresh and whose `userSession` and
   * `uiState` are objects is restored in full, when storage accepts the
   * write-back.
   */
  lemma RestoreAcceptsWellFormed(st: Store, v: Json, now: int)
    requires APP_STATE_KEY in st && st[APP_STATE_KEY] == Doc(v)
    requires Field(v, "timestamp").Some? && Field(v, "timestamp").value.JNum?
    requires now - Field(v, "timestamp").value.n <= MAX_SNAPSHOT_AGE
    requires Field(v, "userSession").Some? && Field(v, "userSession").value.JObj?
    requires Field(v, "uiState").Some? && Field(v, "uiState").value.JObj?
    ensures RestoreState(st, now, true).state == Some(v)
  {
    assert ReadJson(st, APP_STATE_KEY) == Parsed(v);
  }

  /**
   * A failed write-back: a snapshot that would be restored and has a truthy
   * token, user or theme to write back is instead cleared, and null is
   * returned, when `setItem` throws.
   */
  lemma FailedWriteBackClears(st: Store, now: int)
    requires RestoreState(st, now, true).state.Some?
    requires var v := RestoreState(st, now, true).state.value;
      Truthy(SnapshotToken(v)) || Truthy(SnapshotUser(v)) || Truthy(SnapshotTheme(v))
    ensures RestoreState(st, now, false) == Restored(ClearSavedState(st), None)
  {
  }

  /** With nothing to write back, a restore does not depend on whether storage accepts writes. */
  lemma NothingToWriteBack(st: Store, now: int)
    requires RestoreState(st, now, true).state.Some?
    requires var v := RestoreState(st, now, true).state.value;
      !Truthy(SnapshotToken(v)) && !Truthy(SnapshotUser(v)) && !Truthy(SnapshotTheme(v))
    ensures RestoreState(st, now, false) == RestoreState(st, now, true)
  {
  }

  /** The theme field of a stored snapshot is the snapshot's theme, when it has one. */
  lemma SnapshotThemeOf(snap: AppState)
    requires snap.uiState.theme.Some?
    ensures SnapshotTheme(AppStateJson(snap)) == Some(JStr(snap.uiState.theme.value))
  {
    var u := snap.uiState;
    var before := OptField("sidebarOpen", u.sidebarOpen);
    var after := OptField("notifications", u.notifications)
                 + OptField("lastError", if u.lastError.Some? then Some(ErrorDetailsJson(u.lastError.value)) else None);
    var fields := before + [("theme", JStr(u.theme.value))] + after;
    assert UiStateJson(u) == JObj(fields);
    assert forall k :: |before| < k < |fields| ==> fields[k].0 != "theme";
    LookupLast(fields, |before|);
  }

  /**
   * A default snapshot always carries a theme (`getItem('theme') || 'dark'`),
   * so restoring it while storage refuses writes always fails: the snapshot
   * is cleared and null is returned.
   */
  lemma ReadOnlyRestoreDropsSnapshot(st: Store, hash: string, saved: int, now: int)
    requires now - saved <= MAX_SNAPSHOT_AGE
    ensures var st1 := SaveState(st, hash, saved, EMPTY_PATCH, true).0;
      RestoreState(st1, now, false) == Restored(ClearSavedState(st1), None)
  {
    var snap := Snapshot(st, hash, saved, EMPTY_PATCH);
    var st1 := SaveState(st, hash, saved, EMPTY_PATCH, true).0;
    RestoreStored(st1, snap, now);
    assert snap.uiState.theme == Some(ItemOr(st, "theme", "dark"));
    assert ItemOr(st, "theme", "dark") != "";
    SnapshotThemeOf(snap);
    FailedWriteBackClears(st1, now);
  }

  /** The token field of a stored snapshot is the session's token, when it has one. */
  lemma SnapshotTokenOf(snap: AppState)
    ensures SnapshotToken(AppStateJson(snap)) == OptStr(snap.userSession.token)
  {
    var u := snap.userSession;
    var fields := [("isAuthenticated", JBool(u.isAuthenticated)), ("user", u.user)]
                  + OptField("token", OptStr(u.token));
    assert UserSessionJson(u) == JObj(fields);
    if u.token.Some? {
      assert fields[2] == ("token", JStr(u.token.value));
      LookupLast(fields, 2);
    } else {
      assert !HasKey(fields, "token");
    }
  }

  /**
   * Saving a snapshot and restoring it within 24 hours gives back exactly the
   * saved snapshot, and writes back its token when it has a non-empty one.
   */
  lemma SaveRestoreRoundTrip(st: Store, hash: string, saved: int, patch: StatePatch, now: int)
    requires now - Snapshot(st, hash, saved, patch).timestamp <= MAX_SNAPSHOT_AGE
    ensures var snap := Snapshot(st, hash, saved, patch);
      var r := RestoreState(SaveState(st, hash, saved, patch, true).0, now, true);
      && r.state == Some(AppStateJson(snap))
      && (snap.userSession.token.Some? && snap.userSession.token.value != "" ==>
            "token" in r.store && r.store["token"] == Text(snap.userSession.token.value))
  {
    var snap := Snapshot(st, hash, saved, patch);
    var st1 := SaveState(st, hash, saved, patch, true).0;
    RestoreStored(st1, snap, now);
    if snap.userSession.token.Some? && snap.userSession.token.value != "" {
      RestoreStoredToken(st1, snap, now);
    }
  }

  /** A stored snapshot document restores as itself while fresh. */
  lemma RestoreStored(st: Store, snap: AppState, now: int)
    requires APP_STATE_KEY in st && st[APP_STATE_KEY] == Doc(AppStateJson(snap))
    requires now - snap.timestamp <= MAX_SNAPSHOT_AGE
    ensures RestoreState(st, now, true).state == Some(AppStateJson(snap))
  {
    RestoreAcceptsWellFormed(st, AppStateJson(snap), now);
  }

  /** Restoring a stored snapshot writes back its token, when it is a non-empty string. */
  lemma RestoreStoredToken(st: Store, snap: AppState, now: int)
    requires RestoreState(st, now, true).state == Some(AppStateJson(snap))
    requires snap.userSession.token.Some? && snap.userSession.token.value != ""
    ensures var r := RestoreState(st, now, true);
      "token" in r.store && r.store["token"] == Text(snap.userSession.token.value)
  {
    assert SnapshotToken(AppStateJson(snap)) == Some(JStr(snap.userSession.token.value)) by {
      SnapshotTokenOf(snap);
    }
    RestoreWritesToken(st, now, true);
  }


  /** A snapshot exactly 24 hours old is still restored; one millisecond older is not. */
  lemma SnapshotAgeBoundary(st: Store, hash: string, saved: int)
    ensures RestoreState(SaveState(st, hash, saved, EMPTY_PATCH, true).0, saved + MAX_SNAPSHOT_AGE, true).state.Some?
    ensures RestoreState(SaveState(st, hash, saved, EMPTY_PATCH, true).0, saved + MAX_SNAPSHOT_AGE + 1, true).state.None?
  {
    var st1 := SaveState(st, hash, saved, EMPTY_PATCH, true).0;
    assert RestoreState(st1, saved + MAX_SNAPSHOT_AGE, true).state.Some? by {
      SaveRestoreRoundTrip(st, hash, saved, EMPTY_PATCH, saved + MAX_SNAPSHOT_AGE);
    }
    var v := AppStateJson(Snapshot(st, hash, saved, EMPTY_PATCH));
    assert st1[APP_STATE_KEY] == Doc(v) && Field(v, "timestamp") == Some(JNum(saved));
  }

  /** `getSavedStateInfo()`: whether a readable snapshot exists, its timestamp and age. */
  datatype SavedInfo = NoSavedState | SavedState(timestamp: Option<Json>, age: Option<int>)

  function GetSavedStateInfo(st: Store, now: int): (r: SavedInfo)
    ensures r.SavedState? <==> APP_STATE_KEY in st && st[APP_STATE_KEY].Doc? && st[APP_STATE_KEY].v != JNull
    ensures r.SavedState? ==> r.timestamp == Field(st[APP_STATE_KEY].v, "timestamp")
    ensures r.SavedState? && r.timestamp.Some? && r.timestamp.value.JNum? ==> r.age == Some(now - r.timestamp.value.n)
    ensures r.SavedState? && r.timestamp.None? ==> r.age.None?
  {
    match ReadJson(st, APP_STATE_KEY)
    case Parsed(v) =>
      (match Get(Some(v), "timestamp")
       case Success(ts) =>
         var t := ToNumber(ts);
         SavedState(ts, if t.Some? then Some(now - t.value) else None)
       case Failure(_) => NoSavedState)
    case _ => NoSavedState
  }

  /** After a save, the info reports the snapshot's own timestamp and its age at `now`. */
  lemma SavedInfoAfterSave(st: Store, hash: string, saved: int, patch: StatePatch, now: int)
    ensures var t := Snapshot(st, hash, saved, patch).timestamp;
      GetSavedStateInfo(SaveState(st, hash, saved, patch, true).0, now) == SavedState(Some(JNum(t)), Some(now - t))
  {
    var v := AppStateJson(Snapshot(st, hash, saved, patch));
    assert Field(v, "timestamp") == Some(JNum(Snapshot(st, hash, saved, patch).timestamp));
  }

  /** A document written under a key is what `parseJsonSafely` reads back from it. */
  lemma ParseAfterWrite(st: Store, key: string, v: Json)
    ensures ParseJsonSafely(st[key := Doc(v)], key) == v
  {
  }

  /** The key of a component's saved state. */
  function ComponentKey(name: string): (k: string)
    ensures Text.StartsWith(k, APP_STATE_KEY)
    ensures k != APP_STATE_KEY
  {
    APP_STATE_KEY + "_" + name
  }

  lemma ComponentKeyInjective(a: string, b: string)
    requires ComponentKey(a) == ComponentKey(b)
    ensures a == b
  {
    var n := |APP_STATE_KEY + "_"|;
    assert a == ComponentKey(a)[n..];
    assert b == ComponentKey(b)[n..];
  }

  /** The record `saveComponentState` writes: the data and the time of saving. */
  function ComponentRecord(data: Json, now: int): Json {
    JObj([("data", data), ("timestamp", JNum(now))])
  }

  /**
   * `saveComponentState(name, data)`: one entry, under the component's key;
   * when `setItem` throws (`writable` false) nothing is written and false is
   * returned.
   */
  function SaveComponentState(st: Store, name: string, data: Json, now: int, writable: bool): (r: (Store, bool))
    ensures r.1 == writable
    ensures !writable ==> r.0 == st
    ensures writable ==> r.0.Keys == st.Keys + {ComponentKey(name)}
    ensures forall k :: k in st && k != ComponentKey(name) ==> r.0[k] == st[k]
    ensures writable ==> r.0[ComponentKey(name)] == Doc(ComponentRecord(data, now))
  {
    if !writable then (st, false)
    else (st[ComponentKey(name) := Doc(ComponentRecord(data, now))], true)
  }

  /**
   * `restoreComponentState(name, maxAge)`: the saved data, JNull standing for
   * both the null and the undefined the source returns. A record older than
   * `maxAge` is removed; nothing else changes the store (a corrupt record is
   * left in place).
   */
  function RestoreComponentState(st: Store, name: string, maxAge: int, now: int): (r: (Store, Json))
    ensures !Present(st, ComponentKey(name)) ==> r == (st, JNull)
    ensures Present(st, ComponentKey(name)) && st[ComponentKey(name)].Text? ==> r == (st, JNull)
    ensures r.0 == st || r.0 == st - {ComponentKey(name)}
    ensures r.0 != st ==> r.1 == JNull
  {
    var key := ComponentKey(name);
    match ReadJson(st, key)
    case Parsed(p) =>
      (match Get(Some(p), "timestamp")
       case Failure(_) => (st, JNull)
       case Success(ts) =>
         if OlderThan(now, ts, maxAge) then (st - {key}, JNull)
         else (st, Field(p, "data").GetOr(JNull)))
    case _ => (st, JNull)
  }

  /**
   * Component-state round trip: data saved at `saved` and restored at `now`
   * with `now - saved <= maxAge` comes back unchanged and the store keeps the
   * record; restored later, null comes back and the record is gone.
   */
  lemma ComponentRoundTrip(st: Store, name: string, data: Json, saved: int, maxAge: int, now: int)
    ensures var st1 := SaveComponentState(st, name, data, saved, true).0;
      var r := RestoreComponentState(st1, name, maxAge, now);
      && (now - saved <= maxAge ==> r == (st1, data))
      && (now - saved > maxAge ==> r == (st1 - {ComponentKey(name)}, JNull))
  {
    var fields := [("data", data), ("timestamp", JNum(saved))];
    LookupLast(fields, 0);
    LookupLast(fields, 1);
  }

  /** A record saved with null data restores as null, however old it is. */
  lemma NullRecordRestoresNull(st: Store, name: string, saved: int, maxAge: int, now: int)
    requires ComponentKey(name) in st && st[ComponentKey(name)] == Doc(ComponentRecord(JNull, saved))
    ensures RestoreComponentState(st, name, maxAge, now).1 == JNull
  {
  }


  /**
   * Whether the clean-up removes an entry: a non-empty string that is not
   * JSON (corrupt), a JSON null (reading its timestamp throws), or a record
   * with a truthy timestamp more than 7 days old.
   */
  predicate Discarded(e: Entry, now: int) {
    match e
    case Text(s) => s != ""
    case Doc(v) =>
      v == JNull || (Truthy(Field(v, "timestamp")) && OlderThan(now, Field(v, "timestamp"), MAX_STORED_AGE))
  }

  /** The store `cleanupOldStates()` leaves, stated key by key. */
  function Cleaned(st: Store, now: int): Store {
    map k | k in st && !(Text.StartsWith(k, APP_STATE_KEY) && Discarded(st[k], now)) :: st[k]
  }

  /**
   * `cleanupOldStates()`: visits every key and removes the discarded entries
   * among those under the APP_STATE_KEY prefix; no other key is touched and
   * no value is changed.
   */
  method CleanupOldStates(st: Store, now: int) returns (r: Store)
    ensures r == Cleaned(st, now)
    ensures forall k :: !Text.StartsWith(k, APP_STATE_KEY) ==> (k in r <==> k in st)
    ensures forall k :: k in r ==> k in st && r[k] == st[k]
  {
    var keys := st.Keys;
    r := st;
    while keys != {}
      invariant keys <= st.Keys
      invariant r.Keys <= st.Keys
      invariant forall k :: k in r ==> r[k] == st[k]
      invariant forall k :: k in keys ==> k in r
      invariant forall k :: k in st && k !in keys ==>
                  (k in r <==> !(Text.StartsWith(k, APP_STATE_KEY) && Discarded(st[k], now)))
      decreases keys
    {
      var k :| k in keys;
      if Text.StartsWith(k, APP_STATE_KEY) && Discarded(st[k], now) {
        r := r - {k};
      }
      keys := keys - {k};
    }
    assert r.Keys == Cleaned(st, now).Keys;
  }

  /** Cleaning twice removes nothing more than cleaning once. */
  lemma CleanupIdempotent(st: Store, now: int)
    ensures Cleaned(Cleaned(st, now), now) == Cleaned(st, now)
  {
    var once := Cleaned(st, now);
    assert Cleaned(once, now).Keys == once.Keys;
  }

  /** A snapshot saved within the last 7 days survives the clean-up. */
  lemma CleanupKeepsRecentSnapshot(st: Store, hash: string, saved: int, now: int)
    requires now - saved <= MAX_STORED_AGE
    ensures APP_STATE_KEY in Cleaned(SaveState(st, hash, saved, EMPTY_PATCH, true).0, now)
  {
    var snap := Snapshot(st, hash, saved, EMPTY_PATCH);
    assert Field(AppStateJson(snap), "timestamp") == Some(JNum(saved));
  }
}

=== FILE: auth.dfy ===
/**
 * The authentication hook: the session kept in localStorage under `token`
 * and `user`, restored when the hook mounts, written by a successful login
 * and removed by logout.
 */
module Auth {
  import opened Wrappers
  import opened Json
  import opened Storage

  const TOKEN_KEY := "token"
  const USER_KEY := "user"

  /** The hook's state: the user (None for undefined, `JNull` for null) and the loading flag. */
  datatype AuthState = AuthState(user: Option<Json>, loading: bool)

  const INITIAL := AuthState(Some(JNull), true)

  /** `isAuthenticated`: `!!user`. */
  predicate IsAuthenticated(s: AuthState) {
    Truthy(s.user)
  }

  /** Storage without `token` and `user`. */
  function DropSession(st: Store): (r: Store)
    ensures TOKEN_KEY !in r && USER_KEY !in r
    ensures forall k :: k != TOKEN_KEY && k != USER_KEY ==> (k in r <==> k in st) && (k in r ==> r[k] == st[k])
  {
    st - {TOKEN_KEY, USER_KEY}
  }

  /**
   * The mount effect: with both a token and user data present, the user data
   * parsed becomes the user, and unparsable user data removes both keys; with
   * either missing nothing changes. Loading is off afterwards.
   */
  function Mount(s: AuthState, st: Store): (r: (AuthState, Store))
    ensures !r.0.loading
    ensures !(Present(st, TOKEN_KEY) && Present(st, USER_KEY)) ==> r == (s.(loading := false), st)
    ensures Present(st, TOKEN_KEY) && Present(st, USER_KEY) && st[USER_KEY].Doc? ==>
              r == (AuthState(Some(st[USER_KEY].v), false), st)
    ensures Present(st, TOKEN_KEY) && Present(st, USER_KEY) && st[USER_KEY].Text? ==>
              r == (s.(loading := false), DropSession(st))
  {
    if !(Present(st, TOKEN_KEY) && Present(st, USER_KEY)) then (s.(loading := false), st)
    else match ReadJson(st, USER_KEY)
      case Parsed(v) => (AuthState(Some(v), false), st)
      case _ => (s.(loading := false), DropSession(st))
  }

  /** The login request's outcome: a non-ok answer, a rejection (network or body decoding), or the decoded body. */
  datatype LoginAnswer = NotOk | Rejected | Body(data: Json)

  /** The state and storage after `login`, and whether it threw. */
  datatype LoginResult = LoginResult(state: AuthState, store: Store, threw: bool)

  /**
   * `login`: on a decoded body, `data.token` is stored as a string and
   * `data.user` as its JSON text, and the user is set; a failed request (or a
   * null body, whose `token` cannot be read) throws with storage and user as
   * they were. `accepted` is how many `setItem` calls storage lets through
   * before one throws: a throw on the token leaves storage as it was, a throw
   * on the user leaves the token written; either way the user is not set and
   * the error is rethrown. Loading is off afterwards.
   */
  function Login(s: AuthState, st: Store, answer: LoginAnswer, accepted: nat): (r: LoginResult)
    ensures !r.state.loading
    ensures r.threw <==> !answer.Body? || answer.data.JNull? || accepted < 2
    ensures r.threw ==> r.state.user == s.user
    ensures r.threw && (!answer.Body? || answer.data.JNull? || accepted == 0) ==> r.store == st
    ensures answer.Body? && !answer.data.JNull? && accepted == 1 ==>
              r.store == st[TOKEN_KEY := Coerce(Field(answer.data, "token"))]
    ensures !r.threw ==>
              && r.state.user == Field(answer.data, "user")
              && r.store == st[TOKEN_KEY := Coerce(Field(answer.data, "token"))]
                              [USER_KEY := if Field(answer.data, "user").Some? then Doc(Field(answer.data, "user").value)
                                           else Text("undefined")]
  {
    if !answer.Body? then LoginResult(s.(loading := false), st, true)
    else match Get(Some(answer.data), "token")
      case Failure(_) => LoginResult(s.(loading := false), st, true)
      case Success(token) =>
        if accepted == 0 then LoginResult(s.(loading := false), st, true)
        else
          var st1 := st[TOKEN_KEY := Coerce(token)];
          if accepted == 1 then LoginResult(s.(loading := false), st1, true)
          else
            var user := Field(answer.data, "user");
            var userEntry := if user.Some? then Doc(user.value) else Text("undefined");
            LoginResult(AuthState(user, false), st1[USER_KEY := userEntry], false)
  }

  /** `logout`: both keys removed and the user null. */
  function Logout(s: AuthState, st: Store): (r: (AuthState, Store))
    ensures r.0.user == Some(JNull) && !IsAuthenticated(r.0) && r.0.loading == s.loading
    ensures r.1 == DropSession(st)
  {
    (s.(user := Some(JNull)), DropSession(st))
  }

  /**
   * A session survives a reload: after a login whose token is a non-empty
   * string and whose user is present, mounting the hook again restores the
   * same user.
   */
  lemma LoginThenReloadRestoresUser(s: AuthState, st: Store, data: Json, mounted: AuthState, accepted: nat)
    requires Field(data, "token").Some? && Field(data, "token").value.JStr? && Field(data, "token").value.s != ""
    requires Field(data, "user").Some?
    requires accepted >= 2
    ensures var l := Login(s, st, Body(data), accepted);
      !l.threw && Mount(mounted, l.store).0.user == l.state.user
  {
    var l := Login(s, st, Body(data), accepted);
    assert l.store[USER_KEY] == Doc(Field(data, "user").value);
    assert l.store[TOKEN_KEY] == Text(Field(data, "token").value.s);
  }

  /**
   * A login whose user write throws leaves a token without user data: a
   * reload finds no session, keeps the user it had and leaves storage alone.
   */
  lemma HalfWrittenLoginNotRestored(s: AuthState, st: Store, data: Json, mounted: AuthState)
    requires !data.JNull? && USER_KEY !in st
    ensures var l := Login(s, st, Body(data), 1);
      l.threw && TOKEN_KEY in l.store && Mount(mounted, l.store) == (mounted.(loading := false), l.store)
  {
    var l := Login(s, st, Body(data), 1);
    assert USER_KEY !in l.store;
  }

  /** After a logout, a reload finds no session and leaves the user null. */
  lemma LogoutThenReloadSignedOut(s: AuthState, st: Store)
    ensures var (a, st1) := Logout(s, st);
      var (b, st2) := Mount(INITIAL, st1);
      !IsAuthenticated(b) && st2 == st1
  {
  }
}

=== FILE: capped.dfy ===
/**
 * Newest-first lists of bounded length, as `[item, ...list].slice(0, cap)`
 * builds them: the restart history, the event-stream buffer and the render
 * history all work this way.
 */
module Capped {

  /** `s.slice(0, n)`. */
  function Take<T>(s: seq<T>, n: nat): (r: seq<T>)
    ensures |r| == if |s| < n then |s| else n
    ensures r == s[..|r|]
  {
    if |s| <= n then s else s[..n]
  }

  /** `[item, ...list].slice(0, cap)`. */
  function Push<T>(list: seq<T>, item: T, cap: nat): (r: seq<T>)
    requires cap > 0
    ensures |r| == if |list| < cap then |list| + 1 else cap
    ensures r[0] == item
    ensures r[1..] == list[..|r| - 1]
  {
    Take([item] + list, cap)
  }

  /** The list after pushing `items` one by one, the first item first. */
  function PushAll<T>(list: seq<T>, items: seq<T>, cap: nat): seq<T>
    requires cap > 0
    decreases |items|
  {
    if |items| == 0 then list else PushAll(Push(list, items[0], cap), items[1..], cap)
  }

  function Reverse<T>(s: seq<T>): (r: seq<T>)
    ensures |r| == |s|
    ensures forall k :: 0 <= k < |s| ==> r[k] == s[|s| - 1 - k]
  {
    if |s| == 0 then [] else Reverse(s[1..]) + [s[0]]
  }

  /** The reverse of a non-empty sequence ends with its first element. */
  lemma ReverseCons<T>(s: seq<T>)
    requires |s| > 0
    ensures Reverse(s) == Reverse(s[1..]) + [s[0]]
  {
  }

  lemma ConcatAssoc<T>(a: seq<T>, b: seq<T>, c: seq<T>)
    ensures (a + b) + c == a + (b + c)
  {
  }

  lemma TakeOfTake<T>(a: seq<T>, b: seq<T>, n: nat)
    ensures Take(a + Take(b, n), n) == Take(a + b, n)
  {
    var l := Take(a + Take(b, n), n);
    var r := Take(a + b, n);
    assert |l| == |r|;
    forall k | 0 <= k < |l| ensures l[k] == r[k] {
      if k >= |a| {
        assert (a + Take(b, n))[k] == Take(b, n)[k - |a|];
      }
    }
  }

  /** Pushing items one by one is prepending them in reverse and cutting at `cap`. */
  lemma {:induction false} PushAllClosedForm<T>(list: seq<T>, items: seq<T>, cap: nat)
    requires cap > 0 && |list| <= cap
    ensures PushAll(list, items, cap) == Take(Reverse(items) + list, cap)
    decreases |items|
  {
    if |items| > 0 {
      var x := items[0];
      var rest := items[1..];
      calc {
        PushAll(list, items, cap);
        PushAll(Push(list, x, cap), rest, cap);
        { PushAllClosedForm(Push(list, x, cap), rest, cap); }
        Take(Reverse(rest) + Take([x] + list, cap), cap);
        { TakeOfTake(Reverse(rest), [x] + list, cap); }
        Take(Reverse(rest) + ([x] + list), cap);
        { ReverseCons(items);
          ConcatAssoc(Reverse(rest), [x], list); }
        Take(Reverse(items) + list, cap);
      }
    }
  }

  /**
   * Whatever is pushed, the list holds at most `cap` entries: the newest
   * items, newest first, then what the list held before.
   */
  lemma NewestFirst<T>(list: seq<T>, items: seq<T>, cap: nat)
    requires cap > 0 && |list| <= cap
    ensures var r := PushAll(list, items, cap);
      && |r| == (if |items| + |list| < cap then |items| + |list| else cap)
      && (forall k :: 0 <= k < |r| && k < |items| ==> r[k] == items[|items| - 1 - k])
      && (forall k :: |items| <= k < |r| ==> r[k] == list[k - |items|])
  {
    PushAllClosedForm(list, items, cap);
    var r := PushAll(list, items, cap);
    PrefixOfReversed(r, Reverse(items), items, list);
  }

  /** The elements of a prefix of `rev + list`, where `rev` lists `items` backwards. */
  lemma PrefixOfReversed<T>(r: seq<T>, rev: seq<T>, items: seq<T>, list: seq<T>)
    requires |rev| == |items| && forall k :: 0 <= k < |rev| ==> rev[k] == items[|items| - 1 - k]
    requires |r| <= |rev| + |list| && r == (rev + list)[..|r|]
    ensures forall k :: 0 <= k < |r| && k < |items| ==> r[k] == items[|items| - 1 - k]
    ensures forall k :: |items| <= k < |r| ==> r[k] == list[k - |items|]
  {
    forall k | 0 <= k < |r| && k < |items| ensures r[k] == items[|items| - 1 - k] {
      assert r[k] == rev[k];
    }
    forall k | |items| <= k < |r| ensures r[k] == list[k - |items|] {
      assert r[k] == (rev + list)[k];
    }
  }
}

=== FILE: chat.dfy ===
/**
 * The consciousness chat: the send handler and the mapping of a processed
 * reply to a message, the streamed test reply accumulated from `data:` lines
 * into one placeholder message, and the welcome message.
 */
module ConsciousnessChat {
  import opened Wrappers
  import opened Json
  import Text

  datatype Sender = UserSender | Consciousness

  /**
   * The emotional state a reply's message carries: the reply's own value when
   * `typeof` calls it an object (null and arrays included), otherwise a state
   * whose primary emotion is the value as text, with intensity 0.5 and zero
   * valence and arousal.
   */
  datatype Emotion = Kept(v: Json) | Wrapped(primaryEmotion: string)

  /** The creativity and empathy scores of a reply's metrics. */
  datatype Metrics = Metrics(creativity: Json, empathy: Json)

  datatype Message = Message(
    id: string,
    content: string,
    sender: Sender,
    emotion: Option<Emotion>,
    metrics: Option<Metrics>)

  /** The fields of a decoded `ConsciousnessResponse` the message is built from. */
  datatype Response = Response(
    requestId: string,
    content: string,
    emotionalState: Option<Json>,
    creativityScore: Option<Json>,
    empathyScore: Option<Json>)

  /** `String(v)` for a value that is not an object. */
  function PrimitiveString(v: Json): (r: string)
    requires !v.JArr? && !v.JObj?
    ensures v.JStr? ==> r == v.s
    ensures v.JNum? ==> r == Text.IntToString(v.n)
    ensures v.JBool? ==> r == (if v.b then "true" else "false")
    ensures v.JNull? ==> r == "null"
  {
    match v
    case JNull => "null"
    case JBool(b) => if b then "true" else "false"
    case JNum(n) => Text.IntToString(n)
    case JStr(s) => s
  }

  /** `typeof v === 'object' ? v : { primaryEmotion: String(v || 'neutral'), … }`. */
  function EmotionOf(v: Option<Json>): (e: Emotion)
    ensures v.Some? && (v.value.JNull? || v.value.JArr? || v.value.JObj?) ==> e == Kept(v.value)
    ensures v.None? || v == Some(JStr("")) || v == Some(JNum(0)) || v == Some(JBool(false)) ==>
              e == Wrapped("neutral")
    ensures v.Some? && v.value.JStr? && v.value.s != "" ==> e == Wrapped(v.value.s)
    ensures v.Some? && v.value.JNum? && v.value.n != 0 ==> e == Wrapped(Text.IntToString(v.value.n))
    ensures v == Some(JBool(true)) ==> e == Wrapped("true")
  {
    if v.Some? && (v.value.JNull? || v.value.JArr? || v.value.JObj?) then Kept(v.value)
    else Wrapped(PrimitiveString(Or(v, JStr("neutral"))))
  }

  /** `onSuccess`: the reply as a message from the engine, its id the request's id, missing scores as 0. */
  function ReplyMessage(data: Response): (m: Message)
    ensures m.id == data.requestId && m.content == data.content && m.sender == Consciousness
    ensures m.emotion == Some(EmotionOf(data.emotionalState))
    ensures m.metrics.Some?
    ensures !Truthy(data.creativityScore) ==> m.metrics.value.creativity == JNum(0)
    ensures Truthy(data.creativityScore) ==> m.metrics.value.creativity == data.creativityScore.value
    ensures !Truthy(data.empathyScore) ==> m.metrics.value.empathy == JNum(0)
    ensures Truthy(data.empathyScore) ==> m.metrics.value.empathy == data.empathyScore.value
  {
    Message(data.requestId, data.content, Consciousness, Some(EmotionOf(data.emotionalState)),
            Some(Metrics(Or(data.creativityScore, JNum(0)), Or(data.empathyScore, JNum(0)))))
  }

  datatype Chat = Chat(
    messages: seq<Message>,
    input: string,
    isProcessing: bool,
    isStreaming: bool)

  /**
   * `handleSendMessage` with the request's outcome `reply` (None when the
   * request failed): nothing for a blank input or while a request is being
   * processed; otherwise the user's message, stamped `Date.now()`, is
   * appended, then the reply's message when there is one. The input is
   * cleared only after a success: a failed request rejects the awaited
   * mutation before the input is reset.
   */
  function HandleSendMessage(c: Chat, now: int, reply: Option<Response>): (r: Chat)
    ensures Text.Trim(c.input) == [] || c.isProcessing ==> r == c
    ensures Text.Trim(c.input) != [] && !c.isProcessing ==>
              && !r.isProcessing && r.isStreaming == c.isStreaming
              && |r.messages| == |c.messages| + (if reply.Some? then 2 else 1)
              && r.messages[..|c.messages|] == c.messages
              && r.messages[|c.messages|] == Message(Text.IntToString(now), c.input, UserSender, None, None)
              && (reply.Some? ==> r.messages[|c.messages| + 1] == ReplyMessage(reply.value) && r.input == "")
              && (reply.None? ==> r.input == c.input)
  {
    if Text.Trim(c.input) == [] || c.isProcessing then c
    else
      var sent := c.messages + [Message(Text.IntToString(now), c.input, UserSender, None, None)];
      match reply
      case Some(data) => c.(messages := sent + [ReplyMessage(data)], input := "", isProcessing := false)
      case None => c.(messages := sent, isProcessing := false)
  }

  /**
   * A send that succeeds adds exactly two messages: the user's, then the
   * engine's reply under the request's id, whose emotion is "neutral" when
   * the reply carries none; the input is cleared.
   */
  lemma SuccessfulSendAddsReply(c: Chat, now: int, data: Response)
    requires Text.Trim(c.input) != [] && !c.isProcessing
    ensures var r := HandleSendMessage(c, now, Some(data));
      var n := |c.messages|;
      && |r.messages| == n + 2 && r.messages[..n] == c.messages
      && r.messages[n].sender == UserSender && r.messages[n].content == c.input
      && r.messages[n + 1].sender == Consciousness
      && r.messages[n + 1].id == data.requestId && r.messages[n + 1].content == data.content
      && (data.emotionalState.None? ==> r.messages[n + 1].emotion == Some(Wrapped("neutral")))
      && r.input == ""
  {
  }

  /**
   * A send that fails keeps the typed text and adds only the user's message,
   * so the same text can be sent again at once.
   */
  lemma FailedSendCanBeRetried(c: Chat, now: int, later: int, reply: Option<Response>)
    requires Text.Trim(c.input) != [] && !c.isProcessing
    ensures var r := HandleSendMessage(c, now, None);
      && |r.messages| == |c.messages| + 1 && r.messages[|c.messages|].sender == UserSender
      && r.input == c.input
      && |HandleSendMessage(r, later, reply).messages| == |r.messages| + (if reply.Some? then 2 else 1)
  {
  }

  // ---- The streamed reply ----

  /** `prev.map(m => m.id === id ? { ...m, content } : m)`. */
  function SetContent(ms: seq<Message>, id: string, content: string): (r: seq<Message>)
    ensures |r| == |ms|
    ensures forall k :: 0 <= k < |r| && ms[k].id == id ==> r[k] == ms[k].(content := content)
    ensures forall k :: 0 <= k < |r| && ms[k].id != id ==> r[k] == ms[k]
  {
    seq(|ms|, k requires 0 <= k < |ms| => if ms[k].id == id then ms[k].(content := content) else ms[k])
  }

  predicate IsDataLine(line: string) {
    Text.StartsWith(line, "data:")
  }

  /** `line.slice(5).trim()`. */
  function Payload(line: string): string
    requires IsDataLine(line)
  {
    Text.Trim(line[5..])
  }

  /** The parsed value has a string `content` (`typeof json?.content === 'string'`). */
  predicate HasStringContent(j: Json) {
    Field(j, "content").Some? && Field(j, "content").value.JStr?
  }

  /**
   * What a `data:` payload adds to the text: the `content` of a JSON value
   * whose `content` is a string, nothing for any other JSON value, and the
   * payload and a line break when it is not JSON.
   */
  function Contribution(payload: string, parse: string -> Option<Json>): (r: string)
    ensures parse(payload).None? ==> r == payload + "\n"
    ensures parse(payload).Some? && HasStringContent(parse(payload).value) ==>
              r == Field(parse(payload).value, "content").value.s
    ensures parse(payload).Some? && !HasStringContent(parse(payload).value) ==> r == ""
  {
    match parse(payload)
    case None => payload + "\n"
    case Some(j) =>
      match Field(j, "content")
      case Some(JStr(s)) => s
      case _ => ""
  }

  function DataLineCount(lines: seq<string>): nat {
    if |lines| == 0 then 0 else (if IsDataLine(lines[0]) then 1 else 0) + DataLineCount(lines[1..])
  }

  /** The text the `data:` lines of `lines` add up to, in order. */
  function DataContent(lines: seq<string>, parse: string -> Option<Json>): (r: string)
    ensures DataLineCount(lines) == 0 ==> r == ""
  {
    if |lines| == 0 then ""
    else (if IsDataLine(lines[0]) then Contribution(Payload(lines[0]), parse) else "")
         + DataContent(lines[1..], parse)
  }

  /** The messages and the accumulated text while the stream is read. */
  datatype StreamState = StreamState(messages: seq<Message>, acc: string)

  /** One line of a chunk: a `data:` line extends the text and writes it into the message `id`. */
  function FeedLine(s: StreamState, id: string, line: string, parse: string -> Option<Json>): StreamState {
    if IsDataLine(line) then
      var acc := s.acc + Contribution(Payload(line), parse);
      StreamState(SetContent(s.messages, id, acc), acc)
    else s
  }

  function FeedLines(s: StreamState, id: string, lines: seq<string>, parse: string -> Option<Json>): StreamState
    decreases |lines|
  {
    if |lines| == 0 then s else FeedLines(FeedLine(s, id, lines[0], parse), id, lines[1..], parse)
  }

  /** One line: the text grows by the line's contribution and only messages with id `id` are rewritten. */
  lemma FeedLineEffect(s: StreamState, id: string, line: string, parse: string -> Option<Json>)
    ensures var r := FeedLine(s, id, line, parse);
      && r.acc == s.acc + DataContent([line], parse)
      && |r.messages| == |s.messages|
      && (forall k :: 0 <= k < |r.messages| && s.messages[k].id != id ==> r.messages[k] == s.messages[k])
      && (forall k :: 0 <= k < |r.messages| && s.messages[k].id == id ==>
            r.messages[k] == s.messages[k].(content := if IsDataLine(line) then r.acc else s.messages[k].content))
  {
    assert [line][1..] == [];
  }

  /**
   * Feeding lines extends the text by their data content and touches only
   * the messages whose id is `id`, each of which ends up holding the whole
   * text once any data line was seen.
   */
  lemma {:induction false} FeedLinesEffect(s: StreamState, id: string, lines: seq<string>, parse: string -> Option<Json>)
    ensures var r := FeedLines(s, id, lines, parse);
      && r.acc == s.acc + DataContent(lines, parse)
      && |r.messages| == |s.messages|
      && (forall k :: 0 <= k < |r.messages| && s.messages[k].id != id ==> r.messages[k] == s.messages[k])
      && (forall k :: 0 <= k < |r.messages| && s.messages[k].id == id ==>
            r.messages[k] == s.messages[k].(content := if DataLineCount(lines) > 0 then r.acc else s.messages[k].content))
    decreases |lines|
  {
    if |lines| > 0 {
      var s1 := FeedLine(s, id, lines[0], parse);
      FeedLineEffect(s, id, lines[0], parse);
      FeedLinesEffect(s1, id, lines[1..], parse);
      var r := FeedLines(s, id, lines, parse);
      assert r == FeedLines(s1, id, lines[1..], parse);
      assert DataContent(lines, parse) == DataContent([lines[0]], parse) + DataContent(lines[1..], parse) by {
        assert [lines[0]][1..] == [];
      }
      assert r.acc == s.acc + DataContent(lines, parse);
      assert DataLineCount(lines) > 0 <==> IsDataLine(lines[0]) || DataLineCount(lines[1..]) > 0;
      forall k | 0 <= k < |r.messages| && s.messages[k].id == id
        ensures r.messages[k] == s.messages[k].(content := if DataLineCount(lines) > 0 then r.acc else s.messages[k].content)
      {
        assert s1.messages[k].id == id;
      }
    } else {
      assert s.acc + "" == s.acc;
    }
  }

  lemma {:induction false} FeedLinesAppend(s: StreamState, id: string, a: seq<string>, b: seq<string>, parse: string -> Option<Json>)
    ensures FeedLines(s, id, a + b, parse) == FeedLines(FeedLines(s, id, a, parse), id, b, parse)
    decreases |a|
  {
    if |a| > 0 {
      assert (a + b)[1..] == a[1..] + b;
      FeedLinesAppend(FeedLine(s, id, a[0], parse), id, a[1..], b, parse);
    } else {
      assert a + b == b;
    }
  }

  function Concat(chunks: seq<string>): string {
    if |chunks| == 0 then "" else chunks[0] + Concat(chunks[1..])
  }

  /**
   * The read loop as written: every chunk is split into lines on its own, so
   * a line cut by a chunk boundary is read as two lines.
   */
  function FeedChunksAsWritten(s: StreamState, id: string, chunks: seq<string>, parse: string -> Option<Json>): StreamState
    decreases |chunks|
  {
    if |chunks| == 0 then s
    else FeedChunksAsWritten(FeedLines(s, id, Text.SplitLines(chunks[0]), parse), id, chunks[1..], parse)
  }

  /**
   * Chunks that all end on a line boundary are read as written exactly as
   * the whole stream would be.
   */
  lemma {:induction false} AsWrittenAgreesOnWholeLines(s: StreamState, id: string, chunks: seq<string>, parse: string -> Option<Json>)
    requires forall j :: 0 <= j < |chunks| ==> |chunks[j]| > 0 && chunks[j][|chunks[j]| - 1] == '\n'
    ensures FeedChunksAsWritten(s, id, chunks, parse) == FeedLines(s, id, Text.SplitLines(Concat(chunks)), parse)
    decreases |chunks|
  {
    if |chunks| == 0 {
      assert Text.SplitLines("") == [""];
    } else {
      var c := chunks[0];
      var lc := Text.SplitLines(c);
      var init := lc[..|lc| - 1];
      Text.SplitEndsWithNewline(c);
      assert lc == init + [""];
      FeedLinesAppend(s, id, init, [""], parse);
      AsWrittenAgreesOnWholeLines(FeedLines(s, id, lc, parse), id, chunks[1..], parse);
      Text.SplitConcat(c, Concat(chunks[1..]));
      assert "" + Concat(chunks[1..]) == Concat(chunks[1..]);
      FeedLinesAppend(s, id, init, Text.SplitLines(Concat(chunks[1..])), parse);
    }
  }

  /** A single `data:` line with no line break adds its payload's contribution. */
  lemma FeedOneDataLine(s: StreamState, id: string, line: string, parse: string -> Option<Json>)
    requires IsDataLine(line)
    requires Text.NoNewline(line)
    ensures FeedLines(s, id, Text.SplitLines(line), parse).acc == s.acc + Contribution(Payload(line), parse)
  {
    Text.SplitNoNewline(line);
    assert [line][1..] == [];
  }

  /** The stream "data:ab", read in one piece, adds "ab\n" when "ab" is not JSON. */
  lemma WholeDataLineKept(s: StreamState, id: string, parse: string -> Option<Json>)
    requires parse("ab").None?
    ensures FeedLines(s, id, Text.SplitLines("data:ab"), parse).acc == s.acc + "ab\n"
  {
    DataAbPayload();
    FeedOneDataLine(s, id, "data:ab", parse);
  }

  lemma DataAbPayload()
    ensures IsDataLine("data:ab") && Text.NoNewline("data:ab")
    ensures Payload("data:ab") == "ab"
  {
    var whole: string := "data:ab";
    assert whole[..5] == "data:";
    assert whole[5..] == "ab";
    Text.TrimPlain("ab");
  }

  lemma TwoChunksJoin()
    ensures Concat(["data:a", "b"]) == "data:ab"
  {
    assert Concat(["b"]) == "b";
  }

  /**
   * A `data:` line cut by a chunk boundary loses its tail: with a parser that
   * rejects "a" and "ab", as JSON.parse does, the stream "data:ab" read as the
   * chunks "data:a" and "b" yields "a\n" instead of the "ab\n" the whole
   * stream gives.
   */
  lemma SplitDataLineLost(s: StreamState, id: string, parse: string -> Option<Json>)
    requires parse("a").None? && parse("ab").None?
    ensures FeedChunksAsWritten(s, id, ["data:a", "b"], parse).acc == s.acc + "a\n"
    ensures FeedLines(s, id, Text.SplitLines(Concat(["data:a", "b"])), parse).acc == s.acc + "ab\n"
  {
    var first: string := "data:a";
    assert first[5..] == "a";
    Text.TrimPlain("a");
    assert Text.NoNewline(first);
    FeedOneDataLine(s, id, first, parse);
    var s1 := FeedLines(s, id, Text.SplitLines(first), parse);
    assert Text.NoNewline("b");
    Text.SplitNoNewline("b");
    assert FeedLines(s1, id, Text.SplitLines("b"), parse) == s1 by {
      assert !IsDataLine("b");
      assert ["b"][1..] == [];
    }
    assert FeedChunksAsWritten(s, id, ["data:a", "b"], parse) == FeedChunksAsWritten(s1, id, ["b"], parse);
    assert FeedChunksAsWritten(s1, id, ["b"], parse) == FeedChunksAsWritten(s1, id, [], parse);
    WholeDataLineKept(s, id, parse);
    TwoChunksJoin();
  }

  /**
   * The read loop with the tail of each chunk carried over: only complete
   * lines are fed, the unfinished last one waits for the next chunk, and it
   * is fed when the stream ends.
   */
  function FeedBuffered(s: StreamState, id: string, pending: string, chunks: seq<string>, parse: string -> Option<Json>): StreamState
    decreases |chunks|
  {
    if |chunks| == 0 then FeedLines(s, id, [pending], parse)
    else
      var lines := Text.SplitLines(pending + chunks[0]);
      FeedBuffered(FeedLines(s, id, lines[..|lines| - 1], parse), id, lines[|lines| - 1], chunks[1..], parse)
  }

  /**
   * With the tail carried over, the result depends only on the text of the
   * stream, not on where the chunks were cut.
   */
  lemma {:induction false} BufferedReadsWholeStream(s: StreamState, id: string, pending: string, chunks: seq<string>, parse: string -> Option<Json>)
    requires Text.NoNewline(pending)
    ensures FeedBuffered(s, id, pending, chunks, parse) == FeedLines(s, id, Text.SplitLines(pending + Concat(chunks)), parse)
    decreases |chunks|
  {
    if |chunks| == 0 {
      assert pending + Concat(chunks) == pending;
      Text.SplitNoNewline(pending);
    } else {
      var x := pending + chunks[0];
      var lines := Text.SplitLines(x);
      var last := lines[|lines| - 1];
      var s1 := FeedLines(s, id, lines[..|lines| - 1], parse);
      assert FeedBuffered(s, id, pending, chunks, parse) == FeedBuffered(s1, id, last, chunks[1..], parse);
      Text.LastLineNoNewline(x);
      BufferedReadsWholeStream(s1, id, last, chunks[1..], parse);
      BufferedJoin(s, id, pending, chunks, parse);
    }
  }

  /** Feeding the complete lines of the first chunk, then the rest of the stream after its tail, feeds the whole stream. */
  lemma BufferedJoin(s: StreamState, id: string, pending: string, chunks: seq<string>, parse: string -> Option<Json>)
    requires |chunks| > 0
    ensures var lines := Text.SplitLines(pending + chunks[0]);
      var rest := Concat(chunks[1..]);
      FeedLines(FeedLines(s, id, lines[..|lines| - 1], parse), id, Text.SplitLines(lines[|lines| - 1] + rest), parse)
        == FeedLines(s, id, Text.SplitLines(pending + Concat(chunks)), parse)
  {
    var x := pending + chunks[0];
    var rest := Concat(chunks[1..]);
    var lines := Text.SplitLines(x);
    var init := lines[..|lines| - 1];
    var last := lines[|lines| - 1];
    calc {
      FeedLines(FeedLines(s, id, init, parse), id, Text.SplitLines(last + rest), parse);
      { FeedLinesAppend(s, id, init, Text.SplitLines(last + rest), parse); }
      FeedLines(s, id, init + Text.SplitLines(last + rest), parse);
      { Text.SplitConcat(x, rest); }
      FeedLines(s, id, Text.SplitLines(x + rest), parse);
      { assert pending + Concat(chunks) == x + rest by {
          assert Concat(chunks) == chunks[0] + rest;
        } }
      FeedLines(s, id, Text.SplitLines(pending + Concat(chunks)), parse);
    }
  }

  /** The corrected read loop, starting with nothing carried over. */
  function FeedChunks(s: StreamState, id: string, chunks: seq<string>, parse: string -> Option<Json>): StreamState {
    FeedBuffered(s, id, "", chunks, parse)
  }

  /** Any two cuttings of the same stream give the same messages and text. */
  lemma ChunkingIrrelevant(s: StreamState, id: string, a: seq<string>, b: seq<string>, parse: string -> Option<Json>)
    requires Concat(a) == Concat(b)
    ensures FeedChunks(s, id, a, parse) == FeedChunks(s, id, b, parse)
    ensures FeedChunks(s, id, a, parse) == FeedLines(s, id, Text.SplitLines(Concat(a)), parse)
  {
    BufferedReadsWholeStream(s, id, "", a, parse);
    BufferedReadsWholeStream(s, id, "", b, parse);
    assert "" + Concat(a) == Concat(a);
    assert "" + Concat(b) == Concat(b);
  }

  /** The stream endpoint's answer: refused (not ok, or no body), or the chunks read before it ended or broke. */
  datatype StreamResponse = Refused | Body(chunks: seq<string>)

  function StreamId(now: int): string {
    "sse-" + Text.IntToString(now)
  }

  /** The lines the loop as written reads: each chunk's own lines, chunk after chunk. */
  function ChunkLines(chunks: seq<string>): seq<string> {
    if |chunks| == 0 then [] else Text.SplitLines(chunks[0]) + ChunkLines(chunks[1..])
  }

  /** The loop as written reads exactly the chunks' own lines, in order. */
  lemma {:induction false} AsWrittenReadsChunkLines(s: StreamState, id: string, chunks: seq<string>, parse: string -> Option<Json>)
    ensures FeedChunksAsWritten(s, id, chunks, parse) == FeedLines(s, id, ChunkLines(chunks), parse)
    decreases |chunks|
  {
    if |chunks| > 0 {
      var lc := Text.SplitLines(chunks[0]);
      AsWrittenReadsChunkLines(FeedLines(s, id, lc, parse), id, chunks[1..], parse);
      FeedLinesAppend(s, id, lc, ChunkLines(chunks[1..]), parse);
    }
  }

  /** The placeholder appended for a stream, empty and from the engine. */
  function Placeholder(now: int): (m: Message)
    ensures m.id == StreamId(now) && m.content == "" && m.sender == Consciousness
  {
    Message(StreamId(now), "", Consciousness, None, None)
  }

  /**
   * `testStream`: the early return while a stream is being read and a refused
   * request change no message; otherwise an empty placeholder message is
   * appended and filled from the stream, each chunk split into lines on its
   * own. Both returns sit inside the `try`, so its `finally` turns streaming
   * off in every case.
   */
  function TestStream(c: Chat, now: int, resp: StreamResponse, parse: string -> Option<Json>): (r: Chat)
    ensures !r.isStreaming && r.input == c.input && r.isProcessing == c.isProcessing
    ensures c.isStreaming || resp.Refused? ==> r == c.(isStreaming := false)
  {
    if c.isStreaming then c.(isStreaming := false)
    else match resp
      case Refused => c.(isStreaming := false)
      case Body(chunks) =>
        var fed := FeedChunksAsWritten(StreamState(c.messages + [Placeholder(now)], ""), StreamId(now), chunks, parse);
        c.(messages := fed.messages, isStreaming := false)
  }

  /**
   * `testStream` with the corrected reader, which carries the unfinished
   * tail of each chunk into the next.
   */
  function TestStreamBuffered(c: Chat, now: int, resp: StreamResponse, parse: string -> Option<Json>): (r: Chat)
    ensures !r.isStreaming && r.input == c.input && r.isProcessing == c.isProcessing
    ensures c.isStreaming || resp.Refused? ==> r == c.(isStreaming := false)
  {
    if c.isStreaming then c.(isStreaming := false)
    else match resp
      case Refused => c.(isStreaming := false)
      case Body(chunks) =>
        var fed := FeedChunks(StreamState(c.messages + [Placeholder(now)], ""), StreamId(now), chunks, parse);
        c.(messages := fed.messages, isStreaming := false)
  }

  /**
   * A stream read to its end leaves one new message, from the engine, holding
   * the data content of the chunks' own lines; messages with another id are
   * untouched.
   */
  lemma StreamFillsPlaceholder(c: Chat, now: int, chunks: seq<string>, parse: string -> Option<Json>)
    requires !c.isStreaming
    ensures var r := TestStream(c, now, Body(chunks), parse);
      && |r.messages| == |c.messages| + 1
      && r.messages[|c.messages|] == Message(StreamId(now), DataContent(ChunkLines(chunks), parse), Consciousness, None, None)
      && (forall k :: 0 <= k < |c.messages| && c.messages[k].id != StreamId(now) ==> r.messages[k] == c.messages[k])
  {
    var id := StreamId(now);
    var start := StreamState(c.messages + [Placeholder(now)], "");
    AsWrittenReadsChunkLines(start, id, chunks, parse);
    FeedLinesEffect(start, id, ChunkLines(chunks), parse);
    assert start.messages[|c.messages|].id == id;
  }

  /**
   * When every chunk ends on a line break, the message is filled with the
   * data content of the whole stream's lines.
   */
  lemma WholeLineStreamFillsPlaceholder(c: Chat, now: int, chunks: seq<string>, parse: string -> Option<Json>)
    requires !c.isStreaming
    requires forall j :: 0 <= j < |chunks| ==> |chunks[j]| > 0 && chunks[j][|chunks[j]| - 1] == '\n'
    ensures var r := TestStream(c, now, Body(chunks), parse);
      && |r.messages| == |c.messages| + 1
      && r.messages[|c.messages|] == Message(StreamId(now), DataContent(Text.SplitLines(Concat(chunks)), parse), Consciousness, None, None)
  {
    var id := StreamId(now);
    var start := StreamState(c.messages + [Placeholder(now)], "");
    AsWrittenAgreesOnWholeLines(start, id, chunks, parse);
    FeedLinesEffect(start, id, Text.SplitLines(Concat(chunks)), parse);
    assert start.messages[|c.messages|].id == id;
  }

  /**
   * With the corrected reader, a stream read to its end fills the placeholder
   * with the data content of the whole stream's lines, however it was cut.
   */
  lemma BufferedStreamFillsPlaceholder(c: Chat, now: int, chunks: seq<string>, parse: string -> Option<Json>)
    requires !c.isStreaming
    ensures var r := TestStreamBuffered(c, now, Body(chunks), parse);
      && |r.messages| == |c.messages| + 1
      && r.messages[|c.messages|] == Message(StreamId(now), DataContent(Text.SplitLines(Concat(chunks)), parse), Consciousness, None, None)
      && (forall k :: 0 <= k < |c.messages| && c.messages[k].id != StreamId(now) ==> r.messages[k] == c.messages[k])
  {
    var id := StreamId(now);
    var start := StreamState(c.messages + [Placeholder(now)], "");
    var lines := Text.SplitLines(Concat(chunks));
    ChunkingIrrelevant(start, id, chunks, chunks, parse);
    FeedLinesEffect(start, id, lines, parse);
    assert start.messages[|c.messages|].id == id;
  }

  // ---- Welcome ----

  const WELCOME_ID := "welcome"

  /**
   * The welcome's emotional state `{ primaryEmotion: 'welcoming', … }`; its
   * fractional intensity, valence and arousal are not represented.
   */
  const WELCOME_EMOTION: Emotion := Kept(JObj([("primaryEmotion", JStr("welcoming"))]))

  /** On mount, the welcome message is put in an empty list; a non-empty list is left alone. */
  function Welcome(ms: seq<Message>, text: string): (r: seq<Message>)
    ensures |ms| == 0 ==> |r| == 1 && r[0].id == WELCOME_ID && r[0].sender == Consciousness && r[0].content == text
    ensures |ms| == 0 ==> r[0].emotion.Some? && r[0].emotion.value.Kept?
                          && Field(r[0].emotion.value.v, "primaryEmotion") == Some(JStr("welcoming"))
    ensures |ms| > 0 ==> r == ms
  {
    if |ms| == 0 then [Message(WELCOME_ID, text, Consciousness, Some(WELCOME_EMOTION), None)] else ms
  }

  /**
   * After the welcome effect, the messages from the engine are those the list
   * already had, or, in an empty list, just the welcome message carrying its
   * text.
   */
  lemma WelcomeOnlyEngineMessage(ms: seq<Message>, text: string)
    ensures var r := Welcome(ms, text);
      && (|ms| == 0 ==> forall k :: 0 <= k < |r| && r[k].sender == Consciousness ==>
            k == 0 && r[k].content == text && r[k].id == WELCOME_ID && r[k].emotion == Some(WELCOME_EMOTION))
      && (|ms| == 0 ==> exists k :: 0 <= k < |r| && r[k].sender == Consciousness)
      && (forall k :: 0 <= k < |ms| ==> r[k] == ms[k])
      && |r| >= |ms|
  {
    if |ms| == 0 {
      assert Welcome(ms, text)[0].sender == Consciousness;
    }
  }

  /** The welcome effect is idempotent: a second run, with any text, changes nothing. */
  lemma WelcomeIdempotent(ms: seq<Message>, text: string, other: string)
    ensures Welcome(Welcome(ms, text), other) == Welcome(ms, text)
  {
  }
}

=== FILE: error_boundary.dfy ===
/**
 * The error boundary's retry machine. Catching an error shows the error
 * screen and, when automatic recovery is on and retries remain, schedules one
 * recovery; the recovery clears the error and counts one retry. A soft
 * restart clears the error without counting.
 */
module ErrorBoundary {
  import opened Wrappers
  import opened Json
  import opened Storage
  import opened RestartTypes
  import AppStateManager
  import Text

  datatype BoundaryState = BoundaryState(
    hasError: bool,
    error: Option<string>,  // the message of the caught error
    errorId: string,
    retryCount: int,
    isRecovering: bool)

  datatype Props = Props(
    maxRetries: Option<int>,
    autoRecover: bool,
    recoveryDelay: Option<int>,
    hasFallback: bool)  // a truthy `fallback` prop

  const INITIAL := BoundaryState(false, None, "", 0, false)

  lemma InitialState()
    ensures !INITIAL.hasError && INITIAL.retryCount == 0 && !INITIAL.isRecovering
  {
  }

  /** `props.maxRetries || 3`: an absent or zero limit means 3. */
  function MaxRetries(p: Props): (m: int)
    ensures p.maxRetries.None? || p.maxRetries == Some(0) ==> m == 3
    ensures p.maxRetries.Some? && p.maxRetries.value != 0 ==> m == p.maxRetries.value
  {
    if p.maxRetries.Some? && p.maxRetries.value != 0 then p.maxRetries.value else 3
  }

  /** `props.recoveryDelay || 5000`: an absent or zero delay means 5000 ms. */
  function RecoveryDelay(p: Props): (d: int)
    ensures d != 0
    ensures p.recoveryDelay.None? || p.recoveryDelay == Some(0) ==> d == 5000
    ensures p.recoveryDelay.Some? && p.recoveryDelay.value != 0 ==> d == p.recoveryDelay.value
  {
    if p.recoveryDelay.Some? && p.recoveryDelay.value != 0 then p.recoveryDelay.value else 5000
  }

  /** `error_${Date.now()}_${suffix}`, the random suffix given. */
  function ErrorId(now: int, suffix: string): (id: string)
    ensures Text.StartsWith(id, "error_") && |id| > |"error_"|
  {
    "error_" + Text.IntToString(now) + "_" + suffix
  }

  /** `getDerivedStateFromError`: marks the error; the retry count and recovery flag are kept. */
  function GetDerivedStateFromError(s: BoundaryState, message: string, errorId: string): (r: BoundaryState)
    ensures r.hasError && r.error == Some(message) && r.errorId == errorId
    ensures r.retryCount == s.retryCount && r.isRecovering == s.isRecovering
  {
    s.(hasError := true, error := Some(message), errorId := errorId)
  }

  /** What `componentDidCatch` reads from its surroundings. */
  datatype CatchContext = CatchContext(
    store: Store,
    hash: string,            // window.location.hash
    now: int,                // Date.now()
    isoTime: string,         // new Date().toISOString()
    message: string,         // error.message
    stack: Option<string>,   // error.stack
    errorCount: int,         // window.__appErrorCount, 0 when unset
    idSuffix: string,        // the random part of the error id
    writable: bool)          // localStorage.setItem succeeds

  /**
   * The snapshot fields `componentDidCatch` passes to `saveState`. Its
   * `uiState` holds only the error, so the spread drops the other UI fields.
   */
  function CatchPatch(ctx: CatchContext): StatePatch {
    StatePatch(
      currentRoute := Some(ctx.hash),
      userSession := Some(UserSession(
        isAuthenticated := Present(ctx.store, "token"),
        user := AppStateManager.ParseJsonSafely(ctx.store, "user"),
        token := if Present(ctx.store, "token") then GetItem(ctx.store, "token") else None)),
      uiState := Some(UiState(None, None, None, Some(ErrorDetails(ctx.message, ctx.stack, ctx.isoTime)))),
      timestamp := Some(ctx.now))
  }

  datatype CatchOutcome = CatchOutcome(
    state: BoundaryState,
    store: Store,
    errorCount: int,
    recoveryDelay: Option<int>)  // the delay of the scheduled recovery, if any

  /**
   * An error thrown by a child: `getDerivedStateFromError` followed by
   * `componentDidCatch`, which bumps the global error counter, saves a
   * snapshot, and schedules a recovery when automatic recovery is on and the
   * retry count is below the limit.
   */
  function Catch(s: BoundaryState, p: Props, ctx: CatchContext): (o: CatchOutcome)
    ensures o.state.hasError && o.state.errorId == ErrorId(ctx.now, ctx.idSuffix)
    ensures o.state.retryCount == s.retryCount
    ensures o.errorCount == ctx.errorCount + 1
    ensures o.recoveryDelay.Some? <==> p.autoRecover && s.retryCount < MaxRetries(p)
    ensures o.recoveryDelay.Some? ==> o.recoveryDelay.value == RecoveryDelay(p) && o.state.isRecovering
    ensures o.recoveryDelay.None? ==> o.state.isRecovering == s.isRecovering
    ensures ctx.writable ==>
              && APP_STATE_KEY in o.store
              && o.store[APP_STATE_KEY] == Doc(AppStateJson(AppStateManager.Snapshot(ctx.store, ctx.hash, ctx.now, CatchPatch(ctx))))
    ensures !ctx.writable ==> o.store == ctx.store
    ensures forall k :: k != APP_STATE_KEY ==> (k in o.store <==> k in ctx.store) && (k in ctx.store ==> o.store[k] == ctx.store[k])
  {
    var derived := GetDerivedStateFromError(s, ctx.message, ErrorId(ctx.now, ctx.idSuffix));
    var store := AppStateManager.SaveState(ctx.store, ctx.hash, ctx.now, CatchPatch(ctx), ctx.writable).0;
    if p.autoRecover && derived.retryCount < MaxRetries(p) then
      CatchOutcome(ScheduleRecovery(derived), store, ctx.errorCount + 1, Some(RecoveryDelay(p)))
    else
      CatchOutcome(derived, store, ctx.errorCount + 1, None)
  }

  /**
   * The snapshot saved on a catch keeps the hash verbatim as the route (an
   * empty hash is not replaced by "/"), records the error, and carries none of
   * the other UI fields.
   */
  lemma CatchSnapshot(ctx: CatchContext)
    ensures var snap := AppStateManager.Snapshot(ctx.store, ctx.hash, ctx.now, CatchPatch(ctx));
      && snap.currentRoute == ctx.hash
      && snap.timestamp == ctx.now
      && snap.uiState.lastError == Some(ErrorDetails(ctx.message, ctx.stack, ctx.isoTime))
      && snap.uiState.theme.None? && snap.uiState.sidebarOpen.None? && snap.uiState.notifications.None?
      && (snap.userSession.isAuthenticated <==> Present(ctx.store, "token"))
  {
  }

  /** `scheduleRecovery`: marks the recovery as pending. */
  function ScheduleRecovery(s: BoundaryState): (r: BoundaryState)
    ensures r.isRecovering
    ensures r.hasError == s.hasError && r.retryCount == s.retryCount && r.errorId == s.errorId
  {
    s.(isRecovering := true)
  }

  /** `handleRecovery`: the error is cleared and exactly one retry is counted. */
  function HandleRecovery(s: BoundaryState): (r: BoundaryState)
    ensures !r.hasError && r.error.None? && !r.isRecovering
    ensures r.retryCount == s.retryCount + 1
    ensures r.errorId == s.errorId
  {
    s.(hasError := false, error := None, retryCount := s.retryCount + 1, isRecovering := false)
  }

  /** `handleSoftRestart`: the error and its id are cleared; the retry count is kept. */
  function HandleSoftRestart(s: BoundaryState): (r: BoundaryState)
    ensures !r.hasError && r.error.None? && r.errorId == "" && !r.isRecovering
    ensures r.retryCount == s.retryCount
  {
    s.(hasError := false, error := None, errorId := "", isRecovering := false)
  }

  /**
   * `handleManualRestart`: saves a default snapshot (the page reload
   * follows); a failed write leaves the store as it was.
   */
  function HandleManualRestart(st: Store, hash: string, now: int, writable: bool): (r: Store)
    ensures writable ==>
              && AppStateManager.HasSavedState(r)
              && r[APP_STATE_KEY] == Doc(AppStateJson(AppStateManager.Snapshot(st, hash, now, EMPTY_PATCH)))
    ensures !writable ==> r == st
    ensures forall k :: k != APP_STATE_KEY ==> (k in r <==> k in st) && (k in st ==> r[k] == st[k])
  {
    AppStateManager.SaveState(st, hash, now, EMPTY_PATCH, writable).0
  }

  /** What the boundary renders. */
  datatype View =
    | Children
    | Fallback
    | ErrorScreen(retryCount: int, maxRetries: int, recovering: bool, exhausted: bool, buttonsEnabled: bool)

  function Render(s: BoundaryState, p: Props): (v: View)
    ensures v.Children? <==> !s.hasError
    ensures v.Fallback? <==> s.hasError && p.hasFallback
    ensures v.ErrorScreen? ==> v.maxRetries == MaxRetries(p) && v.retryCount == s.retryCount
                               && (v.exhausted <==> s.retryCount >= MaxRetries(p))
                               && (v.buttonsEnabled <==> !s.isRecovering)
  {
    if !s.hasError then Children
    else if p.hasFallback then Fallback
    else ErrorScreen(s.retryCount, MaxRetries(p), s.isRecovering, s.retryCount >= MaxRetries(p), !s.isRecovering)
  }

  /**
   * What the user sees around a recovery: after a catch without a fallback
   * the error screen shows the retry count, its buttons disabled exactly
   * while a recovery is pending; once the recovery has run the children
   * render again.
   */
  lemma RenderAroundRecovery(s: BoundaryState, p: Props, ctx: CatchContext)
    requires !p.hasFallback
    ensures var caught := Catch(s, p, ctx).state;
      var v := Render(caught, p);
      && v.ErrorScreen? && v.retryCount == s.retryCount
      && (v.buttonsEnabled <==> !s.isRecovering && !(p.autoRecover && s.retryCount < MaxRetries(p)))
      && Render(HandleRecovery(caught), p) == Children
  {
  }

  // ---- The machine over a sequence of events ----

  /**
   * What can happen to a mounted boundary: a child throws (only while the
   * children are rendered), the pending recovery timer fires, or the user
   * presses the soft-restart button (shown on the error screen, disabled
   * while a recovery is pending).
   */
  datatype Event = Throw(ctx: CatchContext) | TimerFires | SoftRestartClicked

  predicate Enabled(s: BoundaryState, e: Event) {
    match e
    case Throw(_) => !s.hasError
    case TimerFires => s.isRecovering
    case SoftRestartClicked => s.hasError && !s.isRecovering
  }

  function Step(s: BoundaryState, p: Props, e: Event): BoundaryState {
    match e
    case Throw(ctx) => Catch(s, p, ctx).state
    case TimerFires => HandleRecovery(s)
    case SoftRestartClicked => HandleSoftRestart(s)
  }

  /** The state after the events, skipping those that cannot happen in the state reached. */
  function Run(s: BoundaryState, p: Props, events: seq<Event>): BoundaryState
    decreases |events|
  {
    if |events| == 0 then s
    else
      var next := if Enabled(s, events[0]) then Step(s, p, events[0]) else s;
      Run(next, p, events[1..])
  }

  /**
   * The machine's invariant: the retry count never passes the limit, and a
   * pending recovery belongs to a shown error and still has a retry left.
   */
  predicate Inv(s: BoundaryState, p: Props) {
    && 0 <= s.retryCount
    && (s.retryCount <= MaxRetries(p) || s.retryCount == 0)
    && (s.isRecovering ==> s.hasError && s.retryCount < MaxRetries(p))
  }

  lemma StepPreservesInv(s: BoundaryState, p: Props, e: Event)
    requires Inv(s, p) && Enabled(s, e)
    ensures Inv(Step(s, p, e), p)
  {
  }

  /**
   * From the initial state, whatever happens, the retry count stays within
   * `maxRetries || 3` (and at 0 when that limit is negative).
   */
  lemma {:induction false} RetriesBounded(p: Props, events: seq<Event>)
    ensures Inv(Run(INITIAL, p, events), p)
    ensures 0 <= Run(INITIAL, p, events).retryCount <= (if MaxRetries(p) < 0 then 0 else MaxRetries(p))
  {
    RunPreservesInv(INITIAL, p, events);
  }

  lemma {:induction false} RunPreservesInv(s: BoundaryState, p: Props, events: seq<Event>)
    requires Inv(s, p)
    ensures Inv(Run(s, p, events), p)
    decreases |events|
  {
    if |events| > 0 {
      var next := if Enabled(s, events[0]) then Step(s, p, events[0]) else s;
      if Enabled(s, events[0]) {
        StepPreservesInv(s, p, events[0]);
      }
      RunPreservesInv(next, p, events[1..]);
    }
  }
}

=== FILE: event_console.dfy ===
/**
 * The event console's stream metrics, computed from the hook's buffer
 * (newest first): message and token counts, when the stream started and
 * ended, its duration, and a 20-bucket sparkline of tokens per second.
 * Times are integer milliseconds.
 */
module EventConsole {
  import opened Wrappers
  import opened Json
  import Text
  import Capped
  import EventSource

  /**
   * What the metrics read from a message: its `type`, and the time of its
   * timestamp when that is truthy (`new Date(timestamp).getTime()`).
   */
  datatype Evt = Evt(kind: Option<Json>, time: Option<int>)

  /** The view of a decoded message; `dateOf` is the date parsing of a timestamp. */
  function ViewOf(m: EventSource.EventMessage, dateOf: Json -> int): (e: Evt)
    ensures e.kind == m.kind
    ensures e.time.Some? <==> Truthy(m.timestamp)
  {
    Evt(m.kind, if Truthy(m.timestamp) then Some(dateOf(m.timestamp.value)) else None)
  }

  /** `m.type === kind` for one of the given kinds. */
  predicate IsKind(e: Evt, kinds: set<string>) {
    e.kind.Some? && e.kind.value.JStr? && e.kind.value.s in kinds
  }

  /** `all.find(...)`: the index of the first event of one of the kinds. */
  function FindKind(all: seq<Evt>, kinds: set<string>): (r: Option<nat>)
    ensures r.Some? ==> r.value < |all| && IsKind(all[r.value], kinds)
    ensures r.Some? ==> forall j :: 0 <= j < r.value ==> !IsKind(all[j], kinds)
    ensures r.None? ==> forall j :: 0 <= j < |all| ==> !IsKind(all[j], kinds)
  {
    if |all| == 0 then None
    else if IsKind(all[0], kinds) then Some(0)
    else
      var r := FindKind(all[1..], kinds);
      if r.Some? then Some(r.value + 1) else None
  }

  /** The number of events of a kind. */
  function CountKind(all: seq<Evt>, kind: string): (n: nat)
    ensures n <= |all|
  {
    if |all| == 0 then 0
    else (if IsKind(all[0], {kind}) then 1 else 0) + CountKind(all[1..], kind)
  }

  /** `all.filter(m => m.type === kind)`. */
  function FilterKind(all: seq<Evt>, kind: string): (r: seq<Evt>)
    ensures |r| == CountKind(all, kind)
    ensures forall i :: 0 <= i < |r| ==> IsKind(r[i], {kind}) && r[i] in all
  {
    if |all| == 0 then []
    else
      var rest := FilterKind(all[1..], kind);
      assert forall i :: 0 <= i < |rest| ==> rest[i] in all[1..];
      if IsKind(all[0], {kind}) then [all[0]] + rest else rest
  }

  lemma {:induction false} CountKindAppend(a: seq<Evt>, b: seq<Evt>, kind: string)
    ensures CountKind(a + b, kind) == CountKind(a, kind) + CountKind(b, kind)
    decreases |a|
  {
    if |a| == 0 {
      assert a + b == b;
    } else {
      assert (a + b)[1..] == a[1..] + b;
      CountKindAppend(a[1..], b, kind);
    }
  }

  /** Counting in oldest-first order gives the same count as in the buffer's order. */
  lemma {:induction false} CountKindReverse(s: seq<Evt>, kind: string)
    ensures CountKind(Capped.Reverse(s), kind) == CountKind(s, kind)
    decreases |s|
  {
    if |s| > 0 {
      CountKindReverse(s[1..], kind);
      assert Capped.Reverse(s) == Capped.Reverse(s[1..]) + [s[0]];
      CountKindAppend(Capped.Reverse(s[1..]), [s[0]], kind);
      assert CountKind([s[0]], kind) == if IsKind(s[0], {kind}) then 1 else 0 by {
        assert [s[0]][1..] == [];
      }
    }
  }

  // ---- Sparkline ----

  const SPAN_SEC := 20

  function Zeros(n: nat): (r: seq<int>)
    ensures |r| == n && forall i :: 0 <= i < n ==> r[i] == 0
  {
    seq(n, _ => 0)
  }

  /** `SPAN_SEC - 1 - Math.floor((end - t) / 1000)`: newer times to the right. */
  function BucketIndex(end: int, t: int): int {
    SPAN_SEC - 1 - (end - t) / 1000
  }

  /** A token event is counted when its time is set, non-zero, and within the last 20 seconds. */
  predicate Lands(e: Evt, end: int) {
    e.time.Some? && e.time.value != 0 && 0 <= BucketIndex(end, e.time.value) < SPAN_SEC
  }

  /** The buckets after counting `tokens` in order. */
  function SparkOf(tokens: seq<Evt>, end: int): (r: seq<int>)
    ensures |r| == SPAN_SEC
    decreases |tokens|
  {
    if |tokens| == 0 then Zeros(SPAN_SEC)
    else
      var b := SparkOf(tokens[..|tokens| - 1], end);
      var e := tokens[|tokens| - 1];
      if Lands(e, end) then
        var i := BucketIndex(end, e.time.value);
        b[i := b[i] + 1]
      else b
  }

  function Sum(s: seq<int>): int {
    if |s| == 0 then 0 else s[0] + Sum(s[1..])
  }

  /** The number of token events that land in some bucket. */
  function Landing(tokens: seq<Evt>, end: int): (n: nat)
    ensures n <= |tokens|
    decreases |tokens|
  {
    if |tokens| == 0 then 0
    else Landing(tokens[..|tokens| - 1], end) + (if Lands(tokens[|tokens| - 1], end) then 1 else 0)
  }

  lemma {:induction false} SumZeros(n: nat)
    ensures Sum(Zeros(n)) == 0
    decreases n
  {
    if n > 0 {
      assert Zeros(n)[1..] == Zeros(n - 1);
      SumZeros(n - 1);
    }
  }

  lemma {:induction false} SumIncrement(s: seq<int>, i: nat)
    requires i < |s|
    ensures Sum(s[i := s[i] + 1]) == Sum(s) + 1
    decreases |s|
  {
    if i > 0 {
      assert s[i := s[i] + 1][1..] == s[1..][i - 1 := s[1..][i - 1] + 1];
      SumIncrement(s[1..], i - 1);
    } else {
      assert s[i := s[i] + 1][1..] == s[1..];
    }
  }

  /** Every bucket count is a landed token: the buckets add up to the landed tokens, at most `tokens`. */
  lemma {:induction false} SparkSum(tokens: seq<Evt>, end: int)
    ensures Sum(SparkOf(tokens, end)) == Landing(tokens, end)
    ensures Sum(SparkOf(tokens, end)) <= |tokens|
    decreases |tokens|
  {
    if |tokens| == 0 {
      SumZeros(SPAN_SEC);
    } else {
      var init := tokens[..|tokens| - 1];
      SparkSum(init, end);
      var e := tokens[|tokens| - 1];
      if Lands(e, end) {
        SumIncrement(SparkOf(init, end), BucketIndex(end, e.time.value));
      }
    }
  }

  /** The number of token events whose time falls in bucket `i`. */
  function CountAt(tokens: seq<Evt>, end: int, i: int): nat
    decreases |tokens|
  {
    if |tokens| == 0 then 0
    else
      var e := tokens[|tokens| - 1];
      CountAt(tokens[..|tokens| - 1], end, i) + (if Lands(e, end) && BucketIndex(end, e.time.value) == i then 1 else 0)
  }

  /** Bucket `i` counts exactly the token events whose time falls in it. */
  lemma {:induction false} SparkCounts(tokens: seq<Evt>, end: int)
    ensures forall i :: 0 <= i < SPAN_SEC ==> SparkOf(tokens, end)[i] == CountAt(tokens, end, i)
    decreases |tokens|
  {
    if |tokens| > 0 {
      SparkCounts(tokens[..|tokens| - 1], end);
    }
  }

  /** The bucketing loop of the console, counting one landed token at a time. */
  method Sparkline(tokens: seq<Evt>, end: int) returns (buckets: seq<int>)
    ensures buckets == SparkOf(tokens, end)
    ensures |buckets| == SPAN_SEC
    ensures forall i :: 0 <= i < SPAN_SEC ==> buckets[i] >= 0
  {
    buckets := Zeros(SPAN_SEC);
    var k := 0;
    while k < |tokens|
      invariant 0 <= k <= |tokens|
      invariant buckets == SparkOf(tokens[..k], end)
      invariant forall i :: 0 <= i < SPAN_SEC ==> buckets[i] >= 0
    {
      var e := tokens[k];
      assert tokens[..k + 1][..k] == tokens[..k];
      if e.time.Some? && e.time.value != 0 {
        var idx := BucketIndex(end, e.time.value);
        if 0 <= idx < SPAN_SEC {
          buckets := buckets[idx := buckets[idx] + 1];
        }
      }
      k := k + 1;
    }
    assert tokens[..k] == tokens;
  }

  // ---- Metrics ----

  datatype Metrics = Metrics(
    total: nat,
    tokens: nat,
    startedAt: Option<int>,
    endedAt: Option<int>,
    durationMs: int,
    lastType: Option<Json>,
    spark: seq<int>)

  const EMPTY_METRICS := Metrics(0, 0, None, None, 0, None, [])

  /** `startedAt`: the first start event's time, else the oldest message's time. */
  function StartedAt(all: seq<Evt>): (r: Option<int>)
    requires |all| > 0
  {
    var s := FindKind(all, {"start"});
    if s.Some? && all[s.value].time.Some? then all[s.value].time else all[0].time
  }

  /** `endedAt`: the time of the first complete or end event. */
  function EndedAt(all: seq<Evt>): (r: Option<int>) {
    var e := FindKind(all, {"complete", "end"});
    if e.Some? then all[e.value].time else None
  }

  /**
   * The console's `metrics` for the buffer `msgs` (newest first) at time
   * `now`: all zero for an empty buffer; otherwise the counts, the start and
   * end, a non-negative duration (0 without a start), the newest message's
   * type, and 20 buckets that hold no more than the token count.
   */
  function ComputeMetrics(msgs: seq<Evt>, now: int): (m: Metrics)
    ensures |msgs| == 0 ==> m == EMPTY_METRICS
    ensures |msgs| > 0 ==> |m.spark| == SPAN_SEC && m.lastType == msgs[0].kind
    ensures m.total == |msgs|
    ensures m.tokens == CountKind(msgs, "token")
    ensures m.durationMs >= 0
    ensures m.startedAt.None? ==> m.durationMs == 0
    ensures Sum(m.spark) <= m.tokens
    ensures |msgs| > 0 ==> m.startedAt == StartedAt(Capped.Reverse(msgs)) && m.endedAt == EndedAt(Capped.Reverse(msgs))
    ensures m.startedAt.None? ==> forall i :: 0 <= i < |m.spark| ==> m.spark[i] == 0
    ensures |msgs| > 0 && m.startedAt.Some? ==>
              forall i :: 0 <= i < SPAN_SEC ==>
                m.spark[i] == CountAt(FilterKind(Capped.Reverse(msgs), "token"), EndedAt(Capped.Reverse(msgs)).GetOr(now), i)
  {
    if |msgs| == 0 then
      assert Sum([]) == 0;
      EMPTY_METRICS
    else
      var all := Capped.Reverse(msgs);
      var startedAt := StartedAt(all);
      var endedAt := EndedAt(all);
      var endTime := endedAt.GetOr(now);
      var duration := if startedAt.Some? then (if endTime - startedAt.value > 0 then endTime - startedAt.value else 0) else 0;
      var tokenEvents := FilterKind(all, "token");
      CountKindReverse(msgs, "token");
      var spark := if startedAt.Some? then SparkOf(tokenEvents, endTime) else Zeros(SPAN_SEC);
      SparkSum(tokenEvents, endTime);
      SparkCounts(tokenEvents, endTime);
      SumZeros(SPAN_SEC);
      Metrics(|msgs|, |tokenEvents|, startedAt, endedAt, duration, all[|all| - 1].kind, spark)
  }

  /** A start event with a time fixes `startedAt`, whatever else the buffer holds. */
  lemma StartEventWins(msgs: seq<Evt>, now: int, k: nat)
    requires k < |msgs| && IsKind(msgs[k], {"start"}) && msgs[k].time.Some?
    requires forall j :: k < j < |msgs| ==> !IsKind(msgs[j], {"start"})
    ensures ComputeMetrics(msgs, now).startedAt == msgs[k].time
  {
    var all := Capped.Reverse(msgs);
    var f := FindKind(all, {"start"});
    assert all[|msgs| - 1 - k] == msgs[k];
    assert f.Some? && f.value == |msgs| - 1 - k by {
      forall j | 0 <= j < |msgs| - 1 - k ensures !IsKind(all[j], {"start"}) {
        assert all[j] == msgs[|msgs| - 1 - j];
      }
    }
  }

  // ---- Topic filter ----

  datatype FilterState = FilterState(topic: string, currentTopic: Option<string>)

  /** `applyFilter`: the trimmed input, or no topic when it is blank; the input itself is kept. */
  function ApplyFilter(f: FilterState): (r: FilterState)
    ensures r.topic == f.topic
    ensures r.currentTopic.None? <==> Text.AllWhitespace(f.topic)
    ensures r.currentTopic.Some? ==> r.currentTopic.value == Text.Trim(f.topic) && |r.currentTopic.value| > 0
  {
    var t := Text.Trim(f.topic);
    FilterState(f.topic, if t == "" then None else Some(t))
  }

  /** `clearFilter`: both the input and the topic are cleared. */
  function ClearFilter(f: FilterState): (r: FilterState)
    ensures r.topic == "" && r.currentTopic.None?
  {
    FilterState("", None)
  }

  /** Applying a filter and then clearing it is the same as clearing it. */
  lemma ClearAfterApply(f: FilterState)
    ensures ClearFilter(ApplyFilter(f)) == ClearFilter(f)
  {
  }

  /** Against an absolute base, the topic a filter selects reaches the stream's URL exactly when it is non-blank. */
  lemma FilterReachesUrl(f: FilterState, path: string, base: string)
    requires EventSource.SchemeEnd(base).Some?
    ensures EventSource.BuildUrl(path, base, ApplyFilter(f).currentTopic).Some?
    ensures EventSource.BuildUrl(path, base, ApplyFilter(f).currentTopic).value.topicParam.Some?
            <==> !Text.AllWhitespace(f.topic)
  {
  }
}

=== FILE: event_source.dfy ===
/**
 * The server-sent-events hook: where the API lives, which URL is opened, how
 * a message is decoded, the rolling buffer of the 200 newest messages, and
 * the connection life cycle (one open source at a time).
 */
module EventSource {
  import opened Wrappers
  import opened Json
  import Text
  import Capped

  /**
   * `resolveApiBase()`: the configured base, trimmed, without one trailing
   * '/'; the page's origin when the configured base is unset or blank.
   */
  function ResolveApiBase(configured: Option<string>, origin: string): (r: string)
    ensures var t := Text.Trim(configured.GetOr(""));
      && (t == [] ==> r == origin)
      && (t != [] && t[|t| - 1] == '/' ==> r + "/" == t)
      && (t != [] && t[|t| - 1] != '/' ==> r == t)
  {
    var t := Text.Trim(configured.GetOr(""));
    if t == [] then origin
    else if t[|t| - 1] == '/' then t[..|t| - 1]
    else t
  }

  /** A base of a single '/' resolves to the empty string, not to the origin. */
  lemma LoneSlashBase(origin: string)
    ensures ResolveApiBase(Some("/"), origin) == ""
  {
    Text.TrimPlain("/");
  }

  /** Only one trailing '/' goes: a base ending in "//" keeps one. */
  lemma DoubleSlashBase(t: string, origin: string)
    requires |t| > 0 && !Text.IsWhitespace(t[0])
    ensures ResolveApiBase(Some(t + "//"), origin) == t + "/"
  {
    Text.TrimPlain(t + "//");
  }

  // ---- `new URL(path, base)` ----

  predicate IsAlpha(ch: char) { 'a' <= ch <= 'z' || 'A' <= ch <= 'Z' }

  /** A character that may follow the first letter of a URL scheme. */
  predicate IsSchemeChar(ch: char) { IsAlpha(ch) || '0' <= ch <= '9' || ch == '+' || ch == '-' || ch == '.' }

  /** `s` starts with a scheme whose closing ':' is at index `c`. */
  predicate SchemeAt(s: string, c: nat) {
    0 < c < |s| && s[c] == ':' && IsAlpha(s[0]) && forall j :: 0 < j < c ==> IsSchemeChar(s[j])
  }

  /** The first ':' at or after `i` reached over scheme characters only. */
  function ColonFrom(s: string, i: nat): (r: Option<nat>)
    requires 0 < i <= |s|
    ensures r.Some? ==> i <= r.value < |s| && s[r.value] == ':' && forall j :: i <= j < r.value ==> IsSchemeChar(s[j])
    ensures r.None? ==> forall c :: i <= c < |s| && s[c] == ':' ==> exists j :: i <= j < c && !IsSchemeChar(s[j])
    decreases |s| - i
  {
    if i == |s| then None
    else if s[i] == ':' then Some(i)
    else if IsSchemeChar(s[i]) then ColonFrom(s, i + 1)
    else None
  }

  /** Where the scheme of `s` ends; None exactly when `s` is not an absolute URL. */
  function SchemeEnd(s: string): (r: Option<nat>)
    ensures r.Some? ==> SchemeAt(s, r.value)
    ensures r.None? <==> forall c: nat :: !SchemeAt(s, c)
  {
    var r := if |s| > 0 && IsAlpha(s[0]) then ColonFrom(s, 1) else None;
    assert r.None? ==> forall c: nat :: !SchemeAt(s, c) by {
      if r.None? {
        forall c: nat | SchemeAt(s, c) ensures false {
        }
      }
    }
    r
  }

  /** The first index at or after `i` holding one of `stops`, or |s|. */
  function FirstOf(s: string, i: nat, stops: set<char>): (r: nat)
    requires i <= |s|
    ensures i <= r <= |s| && (r < |s| ==> s[r] in stops)
    ensures forall j :: i <= j < r ==> s[j] !in stops
    decreases |s| - i
  {
    if i == |s| || s[i] in stops then i else FirstOf(s, i + 1, stops)
  }

  /** The last '/' in `s[lo..hi]`, if any. */
  function LastSlash(s: string, lo: nat, hi: nat): (r: Option<nat>)
    requires lo <= hi <= |s|
    ensures r.Some? ==> lo <= r.value < hi && s[r.value] == '/' && forall j :: r.value < j < hi ==> s[j] != '/'
    ensures r.None? ==> forall j :: lo <= j < hi ==> s[j] != '/'
    decreases hi - lo
  {
    if hi == lo then None
    else if s[hi - 1] == '/' then Some(hi - 1)
    else LastSlash(s, lo, hi - 1)
  }

  /** Where the base's path starts: after `scheme://authority`, or right after `scheme:`. */
  function PathStart(base: string, c: nat): (r: nat)
    requires SchemeAt(base, c)
    ensures c < r <= |base|
    ensures Text.StartsWith(base[c + 1..], "//") ==>
              && c + 3 <= r
              && (forall j :: c + 3 <= j < r ==> base[j] !in {'/', '?', '#'})
              && (r < |base| ==> base[r] in {'/', '?', '#'})
    ensures !Text.StartsWith(base[c + 1..], "//") ==> r == c + 1
  {
    if Text.StartsWith(base[c + 1..], "//") then FirstOf(base, c + 3, {'/', '?', '#'}) else c + 1
  }

  /** Where the base's path ends: at its query or fragment, or at its end. */
  function PathEnd(base: string, c: nat): (r: nat)
    requires SchemeAt(base, c)
    ensures PathStart(base, c) <= r <= |base|
    ensures r < |base| ==> base[r] in {'?', '#'}
    ensures forall j :: PathStart(base, c) <= j < r ==> base[j] !in {'?', '#'}
  {
    FirstOf(base, PathStart(base, c), {'?', '#'})
  }

  /**
   * The base's directory: the base up to and including the last '/' of its
   * path, or its scheme and authority followed by '/' when its path has none.
   */
  function Directory(base: string, c: nat): (d: string)
    requires SchemeAt(base, c)
    ensures var p, q := PathStart(base, c), PathEnd(base, c);
      && base[..p] <= d && |d| > p && d[|d| - 1] == '/'
      && ((exists k :: p <= k < q && base[k] == '/') ==> d <= base && |d| <= q && forall j :: |d| <= j < q ==> base[j] != '/')
      && ((forall k :: p <= k < q ==> base[k] != '/') ==> d == base[..p] + "/")
  {
    var p, q := PathStart(base, c), PathEnd(base, c);
    match LastSlash(base, p, q)
    case Some(k) => base[..k + 1]
    case None => base[..p] + "/"
  }

  /**
   * `new URL(path, base).href`: None when the constructor throws, which it
   * does whenever the base is not an absolute URL. A path with a scheme of
   * its own stands alone; a path starting with '/' replaces the base's path;
   * any other path replaces the last segment of the base's path.
   */
  function Resolve(path: string, base: string): (r: Option<string>)
    ensures r.None? <==> SchemeEnd(base).None?
    ensures r.Some? && SchemeEnd(path).Some? ==> r.value == path
    ensures SchemeEnd(base).Some? && SchemeEnd(path).None? && Text.StartsWith(path, "/") ==>
              r == Some(base[..PathStart(base, SchemeEnd(base).value)] + path)
    ensures SchemeEnd(base).Some? && SchemeEnd(path).None? && !Text.StartsWith(path, "/") ==>
              r == Some(Directory(base, SchemeEnd(base).value) + path)
  {
    match SchemeEnd(base)
    case None => None
    case Some(c) =>
      if SchemeEnd(path).Some? then Some(path)
      else if Text.StartsWith(path, "/") then Some(base[..PathStart(base, c)] + path)
      else Some(Directory(base, c) + path)
  }

  /**
   * Against a bare origin (`scheme://host[:port]`, which is what the page's
   * origin is), a path starting with '/' is simply appended.
   */
  lemma ResolveAgainstOrigin(path: string, base: string, c: nat)
    requires SchemeAt(base, c) && Text.StartsWith(base[c + 1..], "//")
    requires forall j :: c + 3 <= j < |base| ==> base[j] !in {'/', '?', '#'}
    requires SchemeEnd(path).None? && Text.StartsWith(path, "/")
    ensures Resolve(path, base) == Some(base + path)
  {
    assert SchemeEnd(base) == Some(c);
    assert base[..PathStart(base, c)] == base;
  }

  /** The URL the hook opens: the resolved `href` and the `topic` query parameter, set when a topic is given. */
  datatype Url = Url(href: string, topicParam: Option<string>)

  /** `useMemo` building the URL; None when `new URL` throws during render. */
  function BuildUrl(path: string, base: string, topic: Option<string>): (u: Option<Url>)
    ensures u.None? <==> SchemeEnd(base).None?
    ensures u.Some? ==> Resolve(path, base) == Some(u.value.href)
    ensures u.Some? ==> (u.value.topicParam.Some? <==> topic.Some? && topic.value != "")
    ensures u.Some? && u.value.topicParam.Some? ==> u.value.topicParam == topic
  {
    match Resolve(path, base)
    case None => None
    case Some(href) => Some(Url(href, if topic.Some? && topic.value != "" then topic else None))
  }

  /**
   * A configured base of a single '/' resolves to the empty string, which is
   * not an absolute URL: building the stream's URL throws.
   */
  lemma LoneSlashBaseThrows(path: string, origin: string, topic: Option<string>)
    ensures BuildUrl(path, ResolveApiBase(Some("/"), origin), topic).None?
  {
    LoneSlashBase(origin);
  }

  /** A decoded message: the raw text always, the fields only when the text parsed as JSON. */
  datatype EventMessage = EventMessage(
    raw: string,
    json: Option<Json>,
    topic: Option<Json>,
    kind: Option<Json>,  // the `type` field
    timestamp: Option<Json>)

  /** `handleMessage`: `JSON.parse` is the `parse` parameter, None when it throws. */
  function DecodeMessage(raw: string, parse: string -> Option<Json>): (m: EventMessage)
    ensures m.raw == raw && m.json == parse(raw)
    ensures parse(raw).None? ==> m.topic.None? && m.kind.None? && m.timestamp.None?
    ensures parse(raw).Some? ==>
              m.topic == Field(parse(raw).value, "topic")
              && m.kind == Field(parse(raw).value, "type")
              && m.timestamp == Field(parse(raw).value, "timestamp")
  {
    var parsed := parse(raw);
    EventMessage(raw, parsed, GetOpt(parsed, "topic"), GetOpt(parsed, "type"), GetOpt(parsed, "timestamp"))
  }

  const BUFFER_LIMIT := 200

  /** `[msg, ...prev].slice(0, 200)`. */
  function PushMessage(buffer: seq<EventMessage>, m: EventMessage): (r: seq<EventMessage>)
    ensures |r| == if |buffer| < BUFFER_LIMIT then |buffer| + 1 else BUFFER_LIMIT
    ensures r[0] == m
    ensures r[1..] == buffer[..|r| - 1]
  {
    Capped.Push(buffer, m, BUFFER_LIMIT)
  }

  // ---- Connection life cycle ----

  datatype Source = Source(url: Url, closed: bool)

  /**
   * The hook's state: every source it created (in creation order), the index
   * of the current one, the connected flag and the buffer.
   */
  datatype HookState = HookState(
    sources: seq<Source>,
    current: Option<nat>,
    connected: bool,
    messages: seq<EventMessage>)

  const INITIAL := HookState([], None, false, [])

  /** What reaches the hook: its effect (re)running for a URL, unmounting, or an event of one of its sources. */
  datatype Input =
    | Connect(url: Url)
    | Unmount
    | Opened(src: nat)
    | Failed(src: nat)
    | Message(src: nat, raw: string)

  function CloseAt(sources: seq<Source>, i: Option<nat>): (r: seq<Source>)
    ensures |r| == |sources|
    ensures forall k :: 0 <= k < |r| ==> r[k].url == sources[k].url
    ensures forall k :: 0 <= k < |r| ==> (r[k].closed <==> sources[k].closed || i == Some(k))
  {
    if i.Some? && i.value < |sources| then sources[i.value := sources[i.value].(closed := true)] else sources
  }

  /** A source's events reach the hook only while it is open (closing removes the listeners). */
  predicate Live(s: HookState, src: nat) {
    src < |s.sources| && !s.sources[src].closed
  }

  function Step(s: HookState, input: Input, parse: string -> Option<Json>): HookState {
    match input
    case Connect(url) =>
      var sources := CloseAt(s.sources, s.current) + [Source(url, false)];
      s.(sources := sources, current := Some(|sources| - 1))
    case Unmount => s.(sources := CloseAt(s.sources, s.current), current := None)
    case Opened(src) => if Live(s, src) then s.(connected := true) else s
    case Failed(src) => if Live(s, src) then s.(connected := false) else s
    case Message(src, raw) =>
      if Live(s, src) then s.(messages := PushMessage(s.messages, DecodeMessage(raw, parse))) else s
  }

  function Run(s: HookState, inputs: seq<Input>, parse: string -> Option<Json>): HookState
    decreases |inputs|
  {
    if |inputs| == 0 then s else Run(Step(s, inputs[0], parse), inputs[1..], parse)
  }

  /** At most one source is open, it is the current one, and the buffer is within its bound. */
  predicate Inv(s: HookState) {
    && (s.current.Some? ==> s.current.value < |s.sources| && !s.sources[s.current.value].closed)
    && (forall k :: 0 <= k < |s.sources| && !s.sources[k].closed ==> s.current == Some(k))
    && |s.messages| <= BUFFER_LIMIT
  }

  lemma StepPreservesInv(s: HookState, input: Input, parse: string -> Option<Json>)
    requires Inv(s)
    ensures Inv(Step(s, input, parse))
  {
  }

  /**
   * Whatever happens, a previous source is closed before a new one is
   * opened, so at most one source is ever open, and the buffer never holds
   * more than 200 messages.
   */
  lemma {:induction false} OneOpenSource(s: HookState, inputs: seq<Input>, parse: string -> Option<Json>)
    requires Inv(s)
    ensures Inv(Run(s, inputs, parse))
    decreases |inputs|
  {
    if |inputs| > 0 {
      StepPreservesInv(s, inputs[0], parse);
      OneOpenSource(Step(s, inputs[0], parse), inputs[1..], parse);
    }
  }

  /** `connected` follows the open source's last open or error event. */
  lemma ConnectedFlag(s: HookState, parse: string -> Option<Json>)
    requires Inv(s) && s.current.Some?
    ensures Step(s, Opened(s.current.value), parse).connected
    ensures !Step(s, Failed(s.current.value), parse).connected
  {
  }

  /** A message on the open source lands at the head of the buffer. */
  lemma MessageAtHead(s: HookState, raw: string, parse: string -> Option<Json>)
    requires Inv(s) && s.current.Some?
    ensures Step(s, Message(s.current.value, raw), parse).messages[0] == DecodeMessage(raw, parse)
  {
  }
}

=== FILE: fetch_retry.dfy ===
/**
 * The production shell's API client: a fetch retried a bounded number of
 * times, with a linear back-off after a network exception and none after an
 * HTTP error status, and the chat's send handler built on it.
 */
module FetchRetry {
  import opened Wrappers
  import Text

  /** `API_CONFIG.retryDelay` in milliseconds. */
  const RETRY_DELAY := 1000
  /** The default `retries` argument. */
  const DEFAULT_RETRIES := 3

  /** What one call of `fetch` gives: an ok response, a non-ok one, or a rejection (the abort on timeout included). */
  datatype Outcome =
    | Ok(body: string)
    | HttpErr(status: int, statusText: string)
    | Exn(message: Option<string>)  // the message when the rejection is an Error, None otherwise

  /** What `fetchWithRetry` throws. */
  datatype FetchError =
    | HttpFailure(status: int, statusText: string)  // `new Error(\`HTTP ${status}: ${statusText}\`)`
    | Rethrown(message: Option<string>)             // the last attempt's rejection, as is
    | MaxRetriesExceeded                            // `new Error('Max retries exceeded')`

  /** The error the final attempt's failure becomes. */
  function FinalError(o: Outcome): (e: FetchError)
    requires !o.Ok?
    ensures o.HttpErr? <==> e.HttpFailure?
    ensures o.HttpErr? ==> e == HttpFailure(o.status, o.statusText)
    ensures o.Exn? ==> e == Rethrown(o.message)
  {
    match o
    case HttpErr(status, text) => HttpFailure(status, text)
    case Exn(m) => Rethrown(m)
  }

  /** The message an `Error` thrown by `fetchWithRetry` carries, None when what was thrown is not an `Error`. */
  function ErrorMessage(e: FetchError): (m: Option<string>)
    ensures e.HttpFailure? ==> m == Some("HTTP " + Text.IntToString(e.status) + ": " + e.statusText)
    ensures e.Rethrown? ==> m == e.message
    ensures e.MaxRetriesExceeded? ==> m == Some("Max retries exceeded")
  {
    match e
    case HttpFailure(status, text) => Some("HTTP " + Text.IntToString(status) + ": " + text)
    case Rethrown(m) => m
    case MaxRetriesExceeded => Some("Max retries exceeded")
  }

  /**
   * One call of `fetchWithRetry`: the attempt index of the response returned
   * or the error thrown, and for each attempt made the pause taken after it
   * (None when the next attempt, or the end, followed at once).
   */
  datatype Fetch = Fetch(result: Result<nat, FetchError>, pauses: seq<Option<int>>)

  /** The pause after attempt `j` of `retries`: a sleep of `delay*(j+1)` after a rejection that is not the last. */
  function PauseAfter(net: nat -> Outcome, retries: int, delay: int, j: nat): (p: Option<int>)
    ensures p.Some? <==> j < retries - 1 && net(j).Exn?
    ensures p.Some? ==> p.value == delay * (j + 1)
  {
    if j < retries - 1 && net(j).Exn? then Some(delay * (j + 1)) else None
  }

  /**
   * The result of `fetchWithRetry` counted from attempt `i`: the first ok
   * attempt, the error of a failed last attempt, or "Max retries exceeded"
   * when no attempt is left.
   */
  function ResultFrom(net: nat -> Outcome, retries: int, i: nat): Result<nat, FetchError>
    decreases retries - i
  {
    if i >= retries then Failure(MaxRetriesExceeded)
    else if net(i).Ok? then Success(i)
    else if i == retries - 1 then Failure(FinalError(net(i)))
    else ResultFrom(net, retries, i + 1)
  }

  /**
   * From attempt `i` of `retries`, the call succeeds exactly when some
   * remaining attempt is answered ok, and otherwise throws the last
   * attempt's error.
   */
  lemma {:induction false} ResultFromSpec(net: nat -> Outcome, retries: int, i: nat)
    requires i < retries
    ensures ResultFrom(net, retries, i).Success? <==> exists j :: i <= j < retries && net(j).Ok?
    ensures ResultFrom(net, retries, i).Failure? ==> ResultFrom(net, retries, i).error == FinalError(net(retries - 1))
    ensures ResultFrom(net, retries, i).Success? ==>
              i <= ResultFrom(net, retries, i).value < retries && net(ResultFrom(net, retries, i).value).Ok?
    decreases retries - i
  {
    if !net(i).Ok? && i < retries - 1 {
      ResultFromSpec(net, retries, i + 1);
      if exists j :: i <= j < retries && net(j).Ok? {
        var j :| i <= j < retries && net(j).Ok?;
        assert i + 1 <= j;
      }
    }
  }

  /**
   * `fetchWithRetry(url, options, retries)` with the outcome of attempt `i`
   * given by `net(i)`: returns the first ok response within `retries`
   * attempts; a failed last attempt throws its own error; `retries <= 0`
   * throws "Max retries exceeded" without any attempt.
   */
  method FetchWithRetry(net: nat -> Outcome, retries: int, retryDelay: int) returns (r: Fetch)
    ensures retries <= 0 ==> r.result == Failure(MaxRetriesExceeded) && r.pauses == []
    ensures retries > 0 ==> 1 <= |r.pauses| <= retries
    ensures forall j :: 0 <= j < |r.pauses| - 1 ==> !net(j).Ok?
    ensures r.result.Success? ==> r.result.value == |r.pauses| - 1 && net(r.result.value).Ok?
    ensures retries > 0 && r.result.Failure? ==>
              |r.pauses| == retries && !net(retries - 1).Ok? && r.result.error == FinalError(net(retries - 1))
    ensures forall j :: 0 <= j < |r.pauses| ==> r.pauses[j] == PauseAfter(net, retries, retryDelay, j)
    ensures r.result == ResultFrom(net, retries, 0)
  {
    var i: nat := 0;
    var pauses: seq<Option<int>> := [];
    while i < retries
      invariant retries > 0 ==> i < retries
      invariant ResultFrom(net, retries, i) == ResultFrom(net, retries, 0)
      invariant retries <= 0 ==> i == 0
      invariant |pauses| == i
      invariant forall j :: 0 <= j < i ==> !net(j).Ok?
      invariant forall j :: 0 <= j < i ==> pauses[j] == PauseAfter(net, retries, retryDelay, j)
    {
      var o := net(i);
      if o.Ok? {
        return Fetch(Success(i), pauses + [None]);
      }
      if i == retries - 1 {
        return Fetch(Failure(FinalError(o)), pauses + [None]);
      }
      if o.Exn? {
        pauses := pauses + [Some(retryDelay * (i + 1))];
      } else {
        pauses := pauses + [None];
      }
      i := i + 1;
    }
    return Fetch(Failure(MaxRetriesExceeded), pauses);
  }

  /** The time spent sleeping over a call. */
  function TotalWait(pauses: seq<Option<int>>): int
    decreases |pauses|
  {
    if |pauses| == 0 then 0 else TotalWait(pauses[..|pauses| - 1]) + pauses[|pauses| - 1].GetOr(0)
  }

  /** `1 + 2 + … + n`. */
  function Triangle(n: nat): nat {
    if n == 0 then 0 else n + Triangle(n - 1)
  }

  /**
   * The back-off is linear: after `n` attempts no more than
   * `delay * (1 + 2 + … + n)` milliseconds were spent asleep.
   */
  lemma {:induction false} WaitBounded(net: nat -> Outcome, retries: int, delay: int, pauses: seq<Option<int>>)
    requires delay >= 0
    requires forall j :: 0 <= j < |pauses| ==> pauses[j] == PauseAfter(net, retries, delay, j)
    ensures 0 <= TotalWait(pauses) <= delay * Triangle(|pauses|)
    decreases |pauses|
  {
    if |pauses| > 0 {
      var n := |pauses|;
      WaitBounded(net, retries, delay, pauses[..n - 1]);
      assert pauses[n - 1].GetOr(0) <= delay * n;
      assert delay * Triangle(n) == delay * Triangle(n - 1) + delay * n;
    }
  }

  /** HTTP error statuses are retried at once: a call that meets no rejection never sleeps. */
  lemma {:induction false} HttpErrorsNeverWait(net: nat -> Outcome, retries: int, delay: int, pauses: seq<Option<int>>)
    requires forall j :: 0 <= j < |pauses| ==> !net(j).Exn?
    requires forall j :: 0 <= j < |pauses| ==> pauses[j] == PauseAfter(net, retries, delay, j)
    ensures TotalWait(pauses) == 0
    decreases |pauses|
  {
    if |pauses| > 0 {
      HttpErrorsNeverWait(net, retries, delay, pauses[..|pauses| - 1]);
    }
  }

  // ---- The hook and the send handler ----

  datatype Role = User | Ai

  datatype ChatMessage = ChatMessage(id: string, content: string, role: Role)

  /** The fields of the chat that the send handler touches, with the API hook's loading flag and error. */
  datatype Chat = Chat(
    messages: seq<ChatMessage>,
    input: string,
    isLoading: bool,
    error: Option<string>,
    current: Option<ChatMessage>)

  /** The part of a decoded `ConsciousnessResponse` the chat uses. */
  datatype Reply = Reply(id: string, content: string)

  /**
   * `processThought`'s error: the thrown `Error`'s message, or "Processing
   * failed" when what was thrown is not an `Error`.
   */
  function ProcessError(e: FetchError): (m: string)
    ensures ErrorMessage(e).Some? ==> m == ErrorMessage(e).value
    ensures ErrorMessage(e).None? ==> m == "Processing failed"
  {
    ErrorMessage(e).GetOr("Processing failed")
  }

  /**
   * `handleSendMessage`: nothing happens for a blank input or while a request
   * is in flight; otherwise the user's message (the input as typed) is
   * appended and the input cleared. A reply that decodes to a truthy value is
   * appended and becomes the current response; a falsy one (a JSON null
   * body) adds nothing and shows no error; a failed request shows its error.
   * `stamp` is `Date.now()` as text.
   */
  function HandleSendMessage(c: Chat, stamp: string, fetched: Result<Option<Reply>, FetchError>): (r: Chat)
    ensures Text.Trim(c.input) == [] || c.isLoading ==> r == c
    ensures Text.Trim(c.input) != [] && !c.isLoading ==>
              && r.input == "" && !r.isLoading
              && |r.messages| == |c.messages| + (if fetched.Success? && fetched.value.Some? then 2 else 1)
              && r.messages[..|c.messages|] == c.messages
              && r.messages[|c.messages|] == ChatMessage(stamp, c.input, User)
              && (fetched.Success? ==> r.error.None?)
              && (fetched.Success? && fetched.value.Some? ==>
                    && r.messages[|c.messages| + 1] == ChatMessage(fetched.value.value.id, fetched.value.value.content, Ai)
                    && r.current == Some(r.messages[|c.messages| + 1]))
              && (fetched.Success? && fetched.value.None? ==> r.current == c.current)
              && (fetched.Failure? ==> r.error == Some(ProcessError(fetched.error)) && r.current == c.current)
  {
    if Text.Trim(c.input) == [] || c.isLoading then c
    else
      var sent := c.(messages := c.messages + [ChatMessage(stamp, c.input, User)], input := "");
      match fetched
      case Success(Some(reply)) =>
        var ai := ChatMessage(reply.id, reply.content, Ai);
        sent.(messages := sent.messages + [ai], current := Some(ai), isLoading := false, error := None)
      case Success(None) => sent.(isLoading := false, error := None)
      case Failure(e) => sent.(isLoading := false, error := Some(ProcessError(e)))
  }

  /** A send that goes through adds the user's message once and only once, whatever the request gives. */
  lemma SendAddsOneUserMessage(c: Chat, stamp: string, fetched: Result<Option<Reply>, FetchError>)
    requires Text.Trim(c.input) != [] && !c.isLoading
    ensures var r := HandleSendMessage(c, stamp, fetched);
      |set k | |c.messages| <= k < |r.messages| && r.messages[k].role == User| == 1
  {
    var r := HandleSendMessage(c, stamp, fetched);
    var n := |c.messages|;
    var added := set k | n <= k < |r.messages| && r.messages[k].role == User;
    assert added == {n};
  }

  /** The connection flags `checkConnection` leaves, with the health check's outcome. */
  datatype Connection = Connection(isConnected: bool, isLoading: bool, error: Option<string>)

  /**
   * `checkConnection`: `checkHealth()` fetches with retries and decodes the
   * ok response's body with `response.json()`; `parseError(body)` is the
   * message of the `SyntaxError` that decoding throws, None when the body is
   * JSON. Connected exactly when both steps went through; otherwise the
   * error is the thrown `Error`'s message, or "Connection failed" for
   * anything else.
   */
  function CheckConnection(fetched: Result<nat, FetchError>, net: nat -> Outcome, parseError: string -> Option<string>): (r: Connection)
    requires fetched.Success? ==> net(fetched.value).Ok?
    ensures !r.isLoading
    ensures r.isConnected <==> fetched.Success? && parseError(net(fetched.value).body).None?
    ensures r.error.None? <==> r.isConnected
    ensures fetched.Failure? ==> r.error == Some(ErrorMessage(fetched.error).GetOr("Connection failed"))
    ensures fetched.Success? && !r.isConnected ==> r.error == parseError(net(fetched.value).body)
  {
    match fetched
    case Success(j) =>
      if parseError(net(j).body).None? then Connection(true, false, None)
      else Connection(false, false, parseError(net(j).body))
    case Failure(e) => Connection(false, false, Some(ErrorMessage(e).GetOr("Connection failed")))
  }

  /**
   * `checkConnection` over `fetchWithRetry`: connected exactly when one of
   * the attempts is answered ok and the first such answer's body is JSON;
   * when no attempt is ok the error shown is the message of the last
   * attempt's error, or "Connection failed" when that was not an `Error`.
   */
  lemma ConnectionFollowsNetwork(net: nat -> Outcome, retries: int, parseError: string -> Option<string>)
    requires retries > 0
    ensures ResultFrom(net, retries, 0).Success? ==> net(ResultFrom(net, retries, 0).value).Ok?
    ensures var fetched := ResultFrom(net, retries, 0);
      var c := CheckConnection(fetched, net, parseError);
      && (c.isConnected <==> exists j :: 0 <= j < retries && net(j).Ok? && parseError(net(j).body).None?
                                            && forall i :: 0 <= i < j ==> !net(i).Ok?)
      && ((forall j :: 0 <= j < retries ==> !net(j).Ok?) ==>
            c.error == Some(ErrorMessage(FinalError(net(retries - 1))).GetOr("Connection failed")))
  {
    ResultFromSpec(net, retries, 0);
    var fetched := ResultFrom(net, retries, 0);
    if fetched.Success? {
      FirstOk(net, retries, 0);
      var j := fetched.value;
      forall j' | 0 <= j' < retries && net(j').Ok? && forall i :: 0 <= i < j' ==> !net(i).Ok?
        ensures j' == j
      {
      }
    }
  }

  /** The attempt `ResultFrom` succeeds on is the first ok one from `i`. */
  lemma {:induction false} FirstOk(net: nat -> Outcome, retries: int, i: nat)
    requires ResultFrom(net, retries, i).Success?
    ensures forall k :: i <= k < ResultFrom(net, retries, i).value ==> !net(k).Ok?
    decreases retries - i
  {
    if !net(i).Ok? {
      FirstOk(net, retries, i + 1);
    }
  }
}

=== FILE: health_monitor.dfy ===
/**
 * The health monitor: render-count and error-count thresholds classify the
 * frontend, each backend service is probed once, and the two are combined
 * into an overall status.
 */
module HealthMonitor {
  import opened Wrappers
  import opened RestartTypes

  // ---- Frontend ----

  /**
   * The `data-render-count` attribute of one element as `parseInt(attr || '0')`
   * reads it: missing (or empty, read as 0), a number, or NaN.
   */
  datatype RenderAttr = Missing | Count(n: int) | NotANumber

  /** The number an attribute contributes, None standing for NaN. */
  function AttrValue(a: RenderAttr): Option<int> {
    match a
    case Missing => Some(0)
    case Count(n) => Some(n)
    case NotANumber => None
  }

  predicate AnyNaN(attrs: seq<RenderAttr>) {
    exists i :: 0 <= i < |attrs| && attrs[i].NotANumber?
  }

  /** `totalRenders`: the sum of the counts; NaN as soon as one count is NaN. */
  function TotalRenders(attrs: seq<RenderAttr>): (r: Option<int>)
    ensures r.None? <==> AnyNaN(attrs)
    decreases |attrs|
  {
    if |attrs| == 0 then Some(0)
    else
      var init := attrs[..|attrs| - 1];
      var rest := TotalRenders(init);
      assert AnyNaN(attrs) <==> AnyNaN(init) || attrs[|attrs| - 1].NotANumber? by {
        if AnyNaN(init) {
          var i :| 0 <= i < |init| && init[i].NotANumber?;
          assert attrs[i] == init[i];
        }
        if AnyNaN(attrs) {
          var i :| 0 <= i < |attrs| && attrs[i].NotANumber?;
          if i < |init| { assert init[i] == attrs[i]; }
        }
      }
      var v := AttrValue(attrs[|attrs| - 1]);
      if rest.Some? && v.Some? then Some(rest.value + v.value) else None
  }

  /**
   * `maxRenders`: `Math.max` of 0 and the counts, NaN as soon as one count
   * is NaN. Otherwise it is at least every count and is 0 or one of them.
   */
  function MaxRenders(attrs: seq<RenderAttr>): (r: Option<int>)
    ensures r.None? <==> AnyNaN(attrs)
    ensures r.Some? ==> r.value >= 0
    ensures r.Some? ==> forall i :: 0 <= i < |attrs| ==> r.value >= AttrValue(attrs[i]).value
    ensures r.Some? && r.value != 0 ==> exists i :: 0 <= i < |attrs| && AttrValue(attrs[i]) == r
    decreases |attrs|
  {
    if |attrs| == 0 then Some(0)
    else
      var init := attrs[..|attrs| - 1];
      var last := attrs[|attrs| - 1];
      var rest := MaxRenders(init);
      assert AnyNaN(attrs) <==> AnyNaN(init) || last.NotANumber? by {
        if AnyNaN(init) {
          var i :| 0 <= i < |init| && init[i].NotANumber?;
          assert attrs[i] == init[i];
        }
        if AnyNaN(attrs) {
          var i :| 0 <= i < |attrs| && attrs[i].NotANumber?;
          if i < |init| { assert init[i] == attrs[i]; }
        }
      }
      var v := AttrValue(last);
      if rest.Some? && v.Some? then
        var m := if v.value > rest.value then v.value else rest.value;
        assert forall i :: 0 <= i < |init| ==> attrs[i] == init[i];
        if m != 0 && m == rest.value then
          var i :| 0 <= i < |init| && AttrValue(init[i]) == rest;
          assert AttrValue(attrs[i]) == Some(m);
          Some(m)
        else Some(m)
      else None
  }

  /** The frontend classification: more than 20 renders or 5 errors is unhealthy, more than 10 or 2 degraded. */
  function ClassifyFrontend(maxRenders: Option<int>, errorCount: int): (h: FrontendStatus)
    ensures h == Unhealthy <==> (maxRenders.Some? && maxRenders.value > 20) || errorCount > 5
    ensures h == Degraded <==> !((maxRenders.Some? && maxRenders.value > 20) || errorCount > 5)
                               && ((maxRenders.Some? && maxRenders.value > 10) || errorCount > 2)
    ensures h == Healthy <==> !((maxRenders.Some? && maxRenders.value > 10) || errorCount > 2)
  {
    if (maxRenders.Some? && maxRenders.value > 20) || errorCount > 5 then Unhealthy
    else if (maxRenders.Some? && maxRenders.value > 10) || errorCount > 2 then Degraded
    else Healthy
  }

  /** Severity order of health values (Unknown ranks with Healthy). */
  function Rank(h: Health): nat {
    match h
    case Unhealthy => 2
    case Degraded => 1
    case _ => 0
  }

  /** More renders or more errors never make the frontend look healthier. */
  lemma ClassifyMonotone(m1: int, e1: int, m2: int, e2: int)
    requires m1 <= m2 && e1 <= e2
    ensures Rank(ClassifyFrontend(Some(m1), e1)) <= Rank(ClassifyFrontend(Some(m2), e2))
  {
  }

  /** `checkFrontendHealth()`, given the elements' attributes and the global error count. */
  function CheckFrontendHealth(attrs: seq<RenderAttr>, errorCount: int): (f: FrontendHealth)
    ensures f.status == ClassifyFrontend(MaxRenders(attrs), errorCount)
    ensures f.renderCount == TotalRenders(attrs)
    ensures f.errorCount == errorCount
    ensures !AnyNaN(attrs) && errorCount <= 2 && (forall i :: 0 <= i < |attrs| ==> AttrValue(attrs[i]).value <= 10)
            ==> f.status == Healthy
  {
    FrontendHealth(ClassifyFrontend(MaxRenders(attrs), errorCount), TotalRenders(attrs), errorCount)
  }

  // ---- Services ----

  /** A service to probe. */
  datatype Target = Target(name: string, url: string)

  const SERVICES: seq<Target> := [
    Target("API Gateway", "/api/v1/health"),
    Target("Consciousness Engine", "/api/v1/consciousness/health"),
    Target("Agent Orchestrator", "/api/v1/agents/health")]

  /** How the probe of one service settled: a response with its `ok` flag, an exception, or a rejected promise. */
  datatype Probe = Responded(ok: bool) | Threw | Rejected

  /** `checkServiceHealth(name, url)` for a probe that did not reject. */
  function CheckServiceHealth(t: Target, p: Probe, now: int): (s: ServiceStatus)
    ensures s.name == t.name && s.url == Some(t.url) && s.lastCheck == now
    ensures s.status == Running <==> p == Responded(true)
    ensures s.status != Running ==> s.status == ServiceError
  {
    ServiceStatus(t.name, if p == Responded(true) then Running else ServiceError, now, Some(t.url))
  }

  /**
   * A service on its own drives the overall status: alongside a healthy
   * frontend, its entry makes the check healthy exactly when its probe
   * answered ok, and unhealthy otherwise; its chip is green exactly then.
   */
  lemma ServiceDecidesOverall(t: Target, p: Probe, now: int)
    ensures var s := CheckServiceHealth(t, p, now);
      && (Aggregate(Healthy, [s.status]) == Healthy <==> p == Responded(true))
      && (Aggregate(Healthy, [s.status]) == Unhealthy <==> p != Responded(true))
      && (GetStatusColor(ServiceStateName(s.status)) == "success" <==> p == Responded(true))
  {
  }

  /** Probing again later changes only the time of the check. */
  lemma RecheckMovesOnlyTime(t: Target, p: Probe, now: int, later: int)
    ensures CheckServiceHealth(t, p, later) == CheckServiceHealth(t, p, now).(lastCheck := later)
  {
  }

  /** The entry for one target: a rejected probe gives an error entry with the target's name and url. */
  function ServiceEntry(t: Target, p: Probe, now: int): (s: ServiceStatus)
    ensures s.name == t.name && s.url == Some(t.url)
    ensures s.status == Running <==> p == Responded(true)
    ensures s.status == Running || s.status == ServiceError
  {
    if p == Rejected then ServiceStatus(t.name, ServiceError, now, Some(t.url))
    else CheckServiceHealth(t, p, now)
  }

  /** The entries of a check: one per target, in order. */
  function ServiceResults(targets: seq<Target>, probe: nat -> Probe, now: int): (r: seq<ServiceStatus>)
    ensures |r| == |targets|
    ensures forall i :: 0 <= i < |r| ==> r[i] == ServiceEntry(targets[i], probe(i), now)
  {
    seq(|targets|, i requires 0 <= i < |targets| => ServiceEntry(targets[i], probe(i), now))
  }

  /**
   * With no NaN and no negative count, the total is at least the largest
   * count.
   */
  lemma {:induction false} TotalAtLeastMax(attrs: seq<RenderAttr>)
    requires !AnyNaN(attrs)
    requires forall i :: 0 <= i < |attrs| ==> AttrValue(attrs[i]).value >= 0
    ensures TotalRenders(attrs).value >= MaxRenders(attrs).value
    decreases |attrs|
  {
    if |attrs| > 0 {
      var init := attrs[..|attrs| - 1];
      assert forall i :: 0 <= i < |init| ==> init[i] == attrs[i];
      assert !AnyNaN(init);
      TotalAtLeastMax(init);
      assert AttrValue(attrs[|attrs| - 1]).value >= 0;
    }
  }

  /**
   * The overall status: unhealthy when the frontend is or a service is in
   * error, else degraded when the frontend is or a service is stopped, else
   * healthy.
   */
  function Aggregate(frontend: FrontendStatus, statuses: seq<ServiceState>): (h: Health)
    ensures h != Unknown
    ensures h == Unhealthy <==> frontend == Unhealthy || ServiceError in statuses
    ensures h == Degraded <==> !(frontend == Unhealthy || ServiceError in statuses)
                               && (frontend == Degraded || Stopped in statuses)
    ensures h == Healthy <==> frontend == Healthy && ServiceError !in statuses && Stopped !in statuses
  {
    if frontend == Unhealthy || ServiceError in statuses then Unhealthy
    else if frontend == Degraded || Stopped in statuses then Degraded
    else Healthy
  }

  function Statuses(services: seq<ServiceStatus>): (r: seq<ServiceState>)
    ensures |r| == |services| && forall i :: 0 <= i < |r| ==> r[i] == services[i].status
  {
    seq(|services|, i requires 0 <= i < |services| => services[i].status)
  }

  /** The result before the first check: overall unknown, no services, a healthy frontend. */
  function InitialHealth(now: int): (h: HealthCheckResult)
    ensures h.overall == Unknown && h.services == [] && h.frontend.status == Healthy
  {
    HealthCheckResult(Unknown, [], FrontendHealth(Healthy, Some(0), 0), now)
  }

  /** `performHealthCheck()` over the fixed service list. */
  function PerformHealthCheck(probe: nat -> Probe, attrs: seq<RenderAttr>, errorCount: int, now: int): (h: HealthCheckResult)
    ensures h.overall != Unknown
    ensures h.services == ServiceResults(SERVICES, probe, now)
    ensures h.frontend == CheckFrontendHealth(attrs, errorCount)
    ensures h.overall == Unhealthy <==>
              h.frontend.status == Unhealthy || exists i :: 0 <= i < |SERVICES| && probe(i) != Responded(true)
    ensures h.overall == Healthy <==>
              h.frontend.status == Healthy && forall i :: 0 <= i < |SERVICES| ==> probe(i) == Responded(true)
  {
    var services := ServiceResults(SERVICES, probe, now);
    var frontend := CheckFrontendHealth(attrs, errorCount);
    var statuses := Statuses(services);
    assert ServiceError in statuses <==> exists i :: 0 <= i < |SERVICES| && probe(i) != Responded(true) by {
      if ServiceError in statuses {
        var i :| 0 <= i < |statuses| && statuses[i] == ServiceError;
        assert probe(i) != Responded(true);
      }
      if exists i :: 0 <= i < |SERVICES| && probe(i) != Responded(true) {
        var i :| 0 <= i < |SERVICES| && probe(i) != Responded(true);
        assert statuses[i] == ServiceError;
      }
    }
    assert Stopped !in statuses;
    HealthCheckResult(Aggregate(frontend.status, statuses), services, frontend, now)
  }

  // ---- Display ----

  function HealthName(h: Health): string {
    match h
    case Healthy => "healthy"
    case Degraded => "degraded"
    case Unhealthy => "unhealthy"
    case Unknown => "unknown"
  }

  function ServiceStateName(s: ServiceState): string {
    match s
    case Running => "running"
    case Stopped => "stopped"
    case ServiceError => "error"
    case ServiceUnknown => "unknown"
  }

  /** `getStatusColor(status)`. */
  function GetStatusColor(status: string): (c: string)
    ensures c in {"success", "warning", "error", "default"}
  {
    if status == "running" || status == "healthy" then "success"
    else if status == "degraded" then "warning"
    else if status == "error" || status == "unhealthy" then "error"
    else "default"
  }

  /** The colours of the statuses the monitor produces. */
  lemma StatusColors()
    ensures GetStatusColor(HealthName(Healthy)) == "success" && GetStatusColor(ServiceStateName(Running)) == "success"
    ensures GetStatusColor(HealthName(Degraded)) == "warning"
    ensures GetStatusColor(HealthName(Unhealthy)) == "error" && GetStatusColor(ServiceStateName(ServiceError)) == "error"
    ensures GetStatusColor(HealthName(Unknown)) == "default" && GetStatusColor(ServiceStateName(Stopped)) == "default"
    ensures GetStatusColor(ServiceStateName(ServiceUnknown)) == "default"
  {
  }

  /** The colour of a health value reflects its severity. */
  lemma ColorBySeverity(h: Health)
    ensures GetStatusColor(HealthName(h)) == (match Rank(h) case 2 => "error" case 1 => "warning"
                                              case _ => if h == Unknown then "default" else "success")
  {
  }
}

=== FILE: json.dfy ===
/**
 * JSON values as the application sees them after `JSON.parse`, together with
 * the JavaScript semantics of reading them: property access (which throws a
 * TypeError on null and undefined), truthiness, numeric coercion, and the text
 * `JSON.stringify` produces. Numbers are integers; fractional numbers are not
 * part of this model.
 */
module Json {
  import opened Wrappers
  import Text

  datatype Json =
    | JNull
    | JBool(b: bool)
    | JNum(n: int)
    | JStr(s: string)
    | JArr(items: seq<Json>)
    | JObj(fields: seq<(string, Json)>)

  /** A TypeError thrown by reading a property of null or undefined. */
  datatype TypeError = NullPropertyRead(key: string)

  /** Some field of the object is named `key`. */
  predicate HasKey(fields: seq<(string, Json)>, key: string) {
    exists i :: 0 <= i < |fields| && fields[i].0 == key
  }

  /**
   * The value of field `key`: the last field of that name, which is the one
   * `JSON.parse` keeps when a name is repeated.
   */
  function Lookup(fields: seq<(string, Json)>, key: string): (r: Option<Json>)
    ensures r.Some? <==> HasKey(fields, key)
    ensures r.Some? ==> exists i :: 0 <= i < |fields| && fields[i] == (key, r.value)
                                    && forall k :: i < k < |fields| ==> fields[k].0 != key
  {
    if |fields| == 0 then None
    else
      var init := fields[..|fields| - 1];
      var last := fields[|fields| - 1];
      if last.0 == key then Some(last.1)
      else
        var r := Lookup(init, key);
        assert HasKey(fields, key) <==> HasKey(init, key) by {
          if HasKey(fields, key) {
            var i :| 0 <= i < |fields| && fields[i].0 == key;
            assert init[i].0 == key;
          }
          if HasKey(init, key) {
            var i :| 0 <= i < |init| && init[i].0 == key;
            assert fields[i].0 == key;
          }
        }
        if r.Some? then
          var i :| 0 <= i < |init| && init[i] == (key, r.value)
                  && forall k :: i < k < |init| ==> init[k].0 != key;
          assert fields[i] == (key, r.value);
          assert forall k :: i < k < |fields| ==> fields[k].0 != key by {
            forall k | i < k < |fields| ensures fields[k].0 != key {
              if k < |init| {
                assert init[k] == fields[k];
              }
            }
          }
          r
        else r
  }

  /** A field followed by no other field of the same name is the one looked up. */
  lemma {:induction false} LookupLast(fields: seq<(string, Json)>, i: nat)
    requires i < |fields|
    requires forall k :: i < k < |fields| ==> fields[k].0 != fields[i].0
    ensures Lookup(fields, fields[i].0) == Some(fields[i].1)
    decreases |fields|
  {
    if i < |fields| - 1 {
      var init := fields[..|fields| - 1];
      assert init[i] == fields[i];
      LookupLast(init, i);
    }
  }

  /** `v.key` for a value that is neither null nor undefined: only objects have data fields. */
  function Field(v: Json, key: string): (r: Option<Json>)
    ensures r.Some? ==> v.JObj?
  {
    if v.JObj? then Lookup(v.fields, key) else None
  }

  /** `v.key` where `v` may be undefined (None): throws on null and undefined. */
  function Get(v: Option<Json>, key: string): (r: Result<Option<Json>, TypeError>)
    ensures r.Failure? <==> v == None || v == Some(JNull)
    ensures r.Success? ==> r.value == Field(v.value, key)
  {
    match v
    case None => Failure(NullPropertyRead(key))
    case Some(JNull) => Failure(NullPropertyRead(key))
    case Some(j) => Success(Field(j, key))
  }

  /** `v?.key`: undefined instead of a TypeError on null and undefined. */
  function GetOpt(v: Option<Json>, key: string): (r: Option<Json>)
    ensures r.Some? ==> v.Some? && v.value.JObj?
  {
    match Get(v, key)
    case Success(r) => r
    case Failure(_) => None
  }

  /** JavaScript truthiness (`!!v`), with None as undefined. */
  predicate Truthy(v: Option<Json>) {
    match v
    case None => false
    case Some(JNull) => false
    case Some(JBool(b)) => b
    case Some(JNum(n)) => n != 0
    case Some(JStr(s)) => s != ""
    case Some(JArr(_)) => true
    case Some(JObj(_)) => true
  }

  /** `a || b`: `a` when it is truthy, `b` otherwise. */
  function Or(a: Option<Json>, b: Json): (r: Json)
    ensures Truthy(a) ==> r == a.value
    ensures !Truthy(a) ==> r == b
  {
    if Truthy(a) then a.value else b
  }

  /**
   * The numeric value JavaScript's `-` and `>` give `v`, None standing for NaN:
   * undefined is NaN, null and false are 0, true is 1, the empty string and
   * the empty array are 0. Any other string, array or object reads as NaN.
   */
  function ToNumber(v: Option<Json>): (r: Option<int>)
    ensures v == None ==> r == None
    ensures v.Some? && v.value.JNum? ==> r == Some(v.value.n)
  {
    match v
    case None => None
    case Some(JNull) => Some(0)
    case Some(JBool(b)) => Some(if b then 1 else 0)
    case Some(JNum(n)) => Some(n)
    case Some(JStr(s)) => if s == "" then Some(0) else None
    case Some(JArr(items)) => if |items| == 0 then Some(0) else None
    case Some(JObj(_)) => None
  }

  /** `now - v > limit`, false whenever the subtraction yields NaN. */
  predicate OlderThan(now: int, v: Option<Json>, limit: int) {
    match ToNumber(v)
    case Some(t) => now - t > limit
    case None => false
  }

  /**
   * `obj[key] = value`: a new key is appended after the existing ones, as
   * JavaScript orders a newly added property; an existing key keeps its
   * place and takes the new value.
   */
  function Put(fields: seq<(string, Json)>, key: string, value: Json): (r: seq<(string, Json)>)
    ensures Lookup(r, key) == Some(value)
    ensures forall k :: k != key ==> Lookup(r, k) == Lookup(fields, k)
    ensures !HasKey(fields, key) ==> r == fields + [(key, value)]
    ensures HasKey(fields, key) ==> |r| == |fields| && forall i :: 0 <= i < |r| ==> r[i].0 == fields[i].0
  {
    if HasKey(fields, key) then Replace(fields, key, value)
    else
      var r := fields + [(key, value)];
      assert r[..|r| - 1] == fields;
      r
  }

  /** The last field named `key` takes the value `value`; every field keeps its place. */
  function Replace(fields: seq<(string, Json)>, key: string, value: Json): (r: seq<(string, Json)>)
    requires HasKey(fields, key)
    ensures Lookup(r, key) == Some(value)
    ensures forall k :: k != key ==> Lookup(r, k) == Lookup(fields, k)
    ensures |r| == |fields| && forall i :: 0 <= i < |r| ==> r[i].0 == fields[i].0
    decreases |fields|
  {
    var init := fields[..|fields| - 1];
    var last := fields[|fields| - 1];
    assert fields == init + [last];
    if last.0 == key then
      var r := init + [(key, value)];
      assert r[..|r| - 1] == init;
      r
    else
      assert HasKey(init, key) by {
        var i :| 0 <= i < |fields| && fields[i].0 == key;
        assert init[i].0 == key;
      }
      var r := Replace(init, key, value) + [last];
      assert r[..|r| - 1] == Replace(init, key, value);
      r
  }

  /** The JSON text of a string (quotes and backslash and control characters escaped). */
  function Quote(s: string): (r: string)
    ensures |r| >= 2 && r[0] == '"' && r[|r| - 1] == '"'
  {
    "\"" + Escape(s) + "\""
  }

  function Escape(s: string): string {
    if |s| == 0 then ""
    else EscapeChar(s[0]) + Escape(s[1..])
  }

  function EscapeChar(c: char): string {
    if c == '"' then "\\\""
    else if c == '\\' then "\\\\"
    else if c == '\n' then "\\n"
    else if c == '\r' then "\\r"
    else if c == '\t' then "\\t"
    else if c == '\U{0008}' then "\\b"
    else if c == '\U{000C}' then "\\f"
    else if c < ' ' then "\\u00" + [HexDigit(c as int / 16), HexDigit(c as int % 16)]
    else [c]
  }

  function HexDigit(d: nat): char
    requires d < 16
  {
    "0123456789abcdef"[d]
  }

  /** `JSON.stringify(v)` without indentation; never the empty string. */
  function Stringify(v: Json): (r: string)
    ensures |r| > 0
    decreases v, 1
  {
    match v
    case JNull => "null"
    case JBool(b) => if b then "true" else "false"
    case JNum(n) => Text.IntToString(n)
    case JStr(s) => Quote(s)
    case JArr(items) => "[" + StringifyItems(v, items) + "]"
    case JObj(fields) => "{" + StringifyFields(v, fields) + "}"
  }

  function StringifyItems(parent: Json, items: seq<Json>): string
    requires forall i :: 0 <= i < |items| ==> items[i] < parent
    decreases parent, 0, |items|
  {
    if |items| == 0 then ""
    else
      Stringify(items[0])
      + (if |items| == 1 then "" else "," + StringifyItems(parent, items[1..]))
  }

  function StringifyFields(parent: Json, fields: seq<(string, Json)>): string
    requires forall i :: 0 <= i < |fields| ==> fields[i].1 < parent
    decreases parent, 0, |fields|
  {
    if |fields| == 0 then ""
    else
      Quote(fields[0].0) + ":" + Stringify(fields[0].1)
      + (if |fields| == 1 then "" else "," + StringifyFields(parent, fields[1..]))
  }
}

=== FILE: render_diagnostic.dfy ===
/**
 * The render diagnostic overlay: counts the renders of a component while it
 * is enabled, explains each by the dependencies that changed, keeps the 20
 * newest explanations and colours its chip by the count.
 */
module RenderDiagnostic {
  import opened Wrappers
  import Capped

  const HISTORY_LIMIT := 20

  /**
   * Why a render happened: the first counted render, the indices of the
   * dependencies that are not `===` to their previous value, or no visible
   * reason.
   */
  datatype Reason = InitialRender | DependenciesChanged(indices: seq<nat>) | UnknownReason

  datatype RenderInfo = RenderInfo(component: string, reason: Reason)

  /**
   * The overlay's state: the render count, the previous dependencies and the
   * history, newest first. A dependency is `Some(v)`, or None for undefined;
   * `==` on `D` stands for `===`.
   */
  datatype State<D(==)> = State(count: nat, lastDeps: seq<Option<D>>, history: seq<RenderInfo>)

  function Initial<D(==)>(): State<D> {
    State(0, [], [])
  }

  /** `lastDeps[i]`: undefined past the end. */
  function LastAt<D(==)>(last: seq<Option<D>>, i: nat): Option<D> {
    if i < |last| then last[i] else None
  }

  /** The indices of `deps` whose value differs from the previous one at the same index, in increasing order. */
  function ChangedFrom<D(==)>(deps: seq<Option<D>>, last: seq<Option<D>>, from: nat): (r: seq<nat>)
    requires from <= |deps|
    ensures forall k :: 0 <= k < |r| ==> from <= r[k] < |deps| && deps[r[k]] != LastAt(last, r[k])
    ensures forall k, l :: 0 <= k < l < |r| ==> r[k] < r[l]
    ensures forall i :: from <= i < |deps| && deps[i] != LastAt(last, i) ==> i in r
    decreases |deps| - from
  {
    if from == |deps| then []
    else (if deps[from] != LastAt(last, from) then [from] else []) + ChangedFrom(deps, last, from + 1)
  }

  function Changed<D(==)>(deps: seq<Option<D>>, last: seq<Option<D>>): (r: seq<nat>)
    ensures forall k :: 0 <= k < |r| ==> r[k] < |deps| && deps[r[k]] != LastAt(last, r[k])
    ensures forall k, l :: 0 <= k < l < |r| ==> r[k] < r[l]
    ensures forall i :: 0 <= i < |deps| && deps[i] != LastAt(last, i) ==> i in r
  {
    ChangedFrom(deps, last, 0)
  }

  /** The reason given to the render numbered `count` (counting from 1). */
  function ReasonFor<D(==)>(count: nat, deps: seq<Option<D>>, last: seq<Option<D>>): (r: Reason)
    ensures count <= 1 <==> r.InitialRender?
    ensures count > 1 && Changed(deps, last) != [] ==> r == DependenciesChanged(Changed(deps, last))
    ensures count > 1 && Changed(deps, last) == [] ==> r.UnknownReason?
  {
    if count <= 1 then InitialRender
    else if Changed(deps, last) != [] then DependenciesChanged(Changed(deps, last))
    else UnknownReason
  }

  lemma {:induction false} NothingChangedFrom<D>(deps: seq<Option<D>>, from: nat)
    requires from <= |deps|
    ensures ChangedFrom(deps, deps, from) == []
    decreases |deps| - from
  {
    if from < |deps| {
      NothingChangedFrom(deps, from + 1);
    }
  }

  /** The same dependencies again leave nothing to report. */
  lemma UnchangedDepsUnknown<D>(count: nat, deps: seq<Option<D>>)
    requires count > 1
    ensures ReasonFor(count, deps, deps) == UnknownReason
  {
    NothingChangedFrom(deps, 0);
  }

  /**
   * The effect after a render: nothing when disabled; otherwise the count
   * grows by one, the render's explanation goes to the head of the history
   * (cut at 20 entries) and the dependencies are remembered.
   */
  function OnRender<D(==)>(s: State<D>, enabled: bool, component: string, deps: seq<Option<D>>): (r: State<D>)
    ensures !enabled ==> r == s
    ensures enabled ==>
              && r.count == s.count + 1
              && r.lastDeps == deps
              && r.history == Capped.Push(s.history, RenderInfo(component, ReasonFor(s.count + 1, deps, s.lastDeps)), HISTORY_LIMIT)
  {
    if !enabled then s
    else
      var count := s.count + 1;
      var info := RenderInfo(component, ReasonFor(count, deps, s.lastDeps));
      State(count, deps, Capped.Push(s.history, info, HISTORY_LIMIT))
  }

  /** `clearHistory`: no history and a zero count; the previous dependencies stay. */
  function ClearHistory<D(==)>(s: State<D>): (r: State<D>)
    ensures r.count == 0 && r.history == [] && r.lastDeps == s.lastDeps
  {
    s.(count := 0, history := [])
  }

  datatype Chip = ErrorChip | WarningChip | DefaultChip

  /** The chip's colour: error above 5 renders, warning above 2. */
  function ChipColor(count: nat): (c: Chip)
    ensures c == ErrorChip <==> count > 5
    ensures c == WarningChip <==> 2 < count <= 5
    ensures c == DefaultChip <==> count <= 2
  {
    if count > 5 then ErrorChip else if count > 2 then WarningChip else DefaultChip
  }

  /** The overlay shows its chip (with the count) only when enabled. */
  function View<D(==)>(s: State<D>, enabled: bool): (v: Option<(nat, Chip)>)
    ensures v.Some? <==> enabled
    ensures v.Some? ==> v.value.1 == ChipColor(v.value.0) && v.value.0 == s.count
  {
    if enabled then Some((s.count, ChipColor(s.count))) else None
  }

  // ---- Over a run ----

  datatype Event<D(==)> = Rendered(enabled: bool, component: string, deps: seq<Option<D>>) | Cleared

  function Step<D(==)>(s: State<D>, e: Event<D>): State<D> {
    match e
    case Rendered(enabled, component, deps) => OnRender(s, enabled, component, deps)
    case Cleared => ClearHistory(s)
  }

  function Run<D(==)>(s: State<D>, events: seq<Event<D>>): State<D>
    decreases |events|
  {
    if |events| == 0 then s else Run(Step(s, events[0]), events[1..])
  }

  /** The number of enabled renders after the last clear of `events`, plus `base` when there was none. */
  function CountedSince<D(==)>(base: nat, events: seq<Event<D>>): nat
    decreases |events|
  {
    if |events| == 0 then base
    else
      var e := events[|events| - 1];
      var before := events[..|events| - 1];
      match e
      case Cleared => 0
      case Rendered(enabled, _, _) => CountedSince(base, before) + (if enabled then 1 else 0)
  }

  lemma {:induction false} RunLast<D>(s: State<D>, events: seq<Event<D>>)
    requires |events| > 0
    ensures Run(s, events) == Step(Run(s, events[..|events| - 1]), events[|events| - 1])
    decreases |events|
  {
    if |events| > 1 {
      RunLast(Step(s, events[0]), events[1..]);
      assert events[1..][..|events| - 2] == events[..|events| - 1][1..];
    }
  }

  /** The history always holds one entry per counted render, up to 20. */
  predicate Inv<D(==)>(s: State<D>) {
    |s.history| == if s.count < HISTORY_LIMIT then s.count else HISTORY_LIMIT
  }

  /**
   * Over any run from a consistent state, the count is the number of enabled
   * renders since the last clear, and the history holds that many entries,
   * at most 20.
   */
  lemma {:induction false} CountsRendersSinceClear<D>(s: State<D>, events: seq<Event<D>>)
    requires Inv(s)
    ensures Run(s, events).count == CountedSince(s.count, events)
    ensures Inv(Run(s, events))
    decreases |events|
  {
    if |events| > 0 {
      var before := events[..|events| - 1];
      RunLast(s, events);
      CountsRendersSinceClear(s, before);
    }
  }

  /**
   * After any run from a consistent state, an enabled overlay shows the
   * number of enabled renders since the last clear, coloured by that number.
   */
  lemma ViewAfterRun<D>(s: State<D>, events: seq<Event<D>>)
    requires Inv(s)
    ensures var n := CountedSince(s.count, events);
      View(Run(s, events), true) == Some((n, ChipColor(n)))
  {
    CountsRendersSinceClear(s, events);
  }

  /** The first render counted after a clear is reported as the initial render. */
  lemma ClearThenRenderIsInitial<D>(s: State<D>, component: string, deps: seq<Option<D>>)
    ensures var r := OnRender(ClearHistory(s), true, component, deps);
      r.count == 1 && r.history == [RenderInfo(component, InitialRender)]
  {
  }
}

=== FILE: restart_manager.dfy ===
/**
 * The restart manager: runs a restart of the requested type, records a
 * successful one as a manual restart event, and keeps the restart history
 * newest first and at most ten entries long.
 */
module RestartManager {
  import opened Wrappers
  import opened Json
  import opened Storage
  import opened RestartTypes
  import AppStateManager
  import Text
  import Capped

  const HISTORY_LIMIT := 10

  /** `[event, ...history].slice(0, 10)`. */
  function PushHistory(history: seq<RestartEvent>, event: RestartEvent): (r: seq<RestartEvent>)
    ensures |r| == if |history| < HISTORY_LIMIT then |history| + 1 else HISTORY_LIMIT
    ensures r[0] == event
    ensures r[1..] == history[..|r| - 1]
  {
    Capped.Push(history, event, HISTORY_LIMIT)
  }

  // ---- Restarts ----

  /** The components whose saved state a soft restart clears. */
  const SOFT_RESET_COMPONENTS: seq<string> := ["ConsciousnessChat", "EventConsole", "AgentManagement"]

  /** `saveComponentState(name, null)` for each name, in order; nothing is written when `setItem` throws. */
  function ClearComponents(st: Store, names: seq<string>, now: int, writable: bool): (r: Store)
    ensures writable ==> forall n :: n in names ==>
              AppStateManager.ComponentKey(n) in r
              && r[AppStateManager.ComponentKey(n)] == Doc(AppStateManager.ComponentRecord(JNull, now))
    ensures !writable ==> r == st
    ensures forall k :: (forall n :: n in names ==> k != AppStateManager.ComponentKey(n)) ==>
              (k in r <==> k in st) && (k in st ==> r[k] == st[k])
    ensures st.Keys <= r.Keys
    decreases |names|
  {
    if |names| == 0 then st
    else ClearComponents(AppStateManager.SaveComponentState(st, names[0], JNull, now, writable).0, names[1..], now, writable)
  }

  /** What the type-specific part of a restart does. */
  datatype DispatchResult = DispatchResult(store: Store, ok: bool, reloaded: bool, servicesRequested: bool)

  /** The surroundings of one restart: storage, location, clock readings, the services endpoint. */
  datatype RestartEnv = RestartEnv(
    store: Store,
    hash: string,
    start: int,        // Date.now() at the start
    actAt: int,        // Date.now() during the type-specific part
    end: int,          // Date.now() when the event is built
    servicesOk: bool,  // the services restart request answered with an ok status
    writable: bool)    // localStorage.setItem succeeds

  /** `performSoftRestart`: null saved for each of the three components. */
  function SoftRestart(st: Store, env: RestartEnv): DispatchResult {
    DispatchResult(ClearComponents(st, SOFT_RESET_COMPONENTS, env.actAt, env.writable), true, false, false)
  }

  /** `performHardRestart`: the page reloads. */
  function HardRestart(st: Store): DispatchResult {
    DispatchResult(st, true, true, false)
  }

  /** `performServicesRestart`: fails unless the backend answers ok. */
  function ServicesRestart(st: Store, env: RestartEnv): DispatchResult {
    DispatchResult(st, env.servicesOk, false, true)
  }

  /** `performFullRestart`: services, then hard unless services failed. */
  function FullRestart(st: Store, env: RestartEnv): DispatchResult {
    var services := ServicesRestart(st, env);
    if !services.ok then services
    else HardRestart(services.store).(servicesRequested := true)
  }

  /**
   * The type-specific part: soft clears three components' state, hard
   * reloads the page, services asks the backend (failing when it does not
   * answer ok), full does services and then, only if that succeeded, hard.
   */
  function Dispatch(kind: RestartType, st: Store, env: RestartEnv): (r: DispatchResult)
    ensures r.ok <==> (kind != Services && kind != Full) || env.servicesOk
    ensures r.reloaded <==> kind == Hard || (kind == Full && env.servicesOk)
    ensures r.servicesRequested <==> kind == Services || kind == Full
    ensures kind != Soft ==> r.store == st
    ensures st.Keys <= r.store.Keys
    ensures APP_STATE_KEY in st ==> r.store[APP_STATE_KEY] == st[APP_STATE_KEY]
  {
    match kind
    case Soft => SoftRestart(st, env)
    case Hard => HardRestart(st)
    case Services => ServicesRestart(st, env)
    case Full => FullRestart(st, env)
  }

  /**
   * The type-specific part never reads the snapshot key: run on a store that
   * differs from `st` only there, it leaves the same contents under every
   * other key.
   */
  lemma DispatchIgnoresSnapshot(kind: RestartType, st: Store, v: Entry, env: RestartEnv)
    ensures var a := Dispatch(kind, st[APP_STATE_KEY := v], env).store;
      var b := Dispatch(kind, st, env).store;
      forall k :: k != APP_STATE_KEY ==> (k in a <==> k in b) && (k in b ==> a[k] == b[k])
  {
    if kind == Soft {
      var st1 := st[APP_STATE_KEY := v];
      var a := ClearComponents(st1, SOFT_RESET_COMPONENTS, env.actAt, env.writable);
      var b := ClearComponents(st, SOFT_RESET_COMPONENTS, env.actAt, env.writable);
      forall k | k != APP_STATE_KEY
        ensures (k in a <==> k in b) && (k in b ==> a[k] == b[k])
      {
        if env.writable && exists n :: n in SOFT_RESET_COMPONENTS && k == AppStateManager.ComponentKey(n) {
          var n :| n in SOFT_RESET_COMPONENTS && k == AppStateManager.ComponentKey(n);
          assert a[k] == b[k];
        }
      }
    }
  }

  datatype ManagerState = ManagerState(
    isOpen: bool,
    isRestarting: bool,
    restartType: RestartType,
    saveState: bool,
    history: seq<RestartEvent>)

  const INITIAL := ManagerState(false, false, Soft, true, [])

  datatype RestartOutcome = RestartOutcome(
    state: ManagerState,
    store: Store,
    event: Option<RestartEvent>,  // the recorded event, None when the restart failed
    reloaded: bool,
    delayAwaited: Option<int>,
    servicesRequested: bool)

  /** `options.reason || \`Redémarrage ${type} manuel\``. */
  function RestartMessage(opts: RestartOptions): (m: string)
    ensures opts.reason.Some? && opts.reason.value != "" ==> m == opts.reason.value
    ensures opts.reason.None? || opts.reason == Some("") ==>
              m == "Redémarrage " + RestartTypeName(opts.kind) + " manuel"
  {
    if opts.reason.Some? && opts.reason.value != "" then opts.reason.value
    else "Redémarrage " + RestartTypeName(opts.kind) + " manuel"
  }

  /** The manual restart event a successful restart records. */
  function ManualEvent(opts: RestartOptions, env: RestartEnv): (e: RestartEvent)
    ensures e.reason == RestartReason(Manual, RestartMessage(opts), env.end, Medium)
    ensures e.stateSaved == (opts.saveState == Some(true))
    ensures !e.stateRestored && e.success && e.retryCount == 0
    ensures e.duration == env.end - env.start
    ensures e.id == "restart_" + Text.IntToString(env.end)
  {
    RestartEvent(
      "restart_" + Text.IntToString(env.end),
      RestartReason(Manual, RestartMessage(opts), env.end, Medium),
      opts.saveState == Some(true), false, env.end - env.start, true, 0)
  }

  /**
   * `performRestart(options)`: saves the snapshot when asked, waits a
   * positive delay, runs the type-specific part and, if that succeeded,
   * records a manual restart event. The restarting flag and the dialog are
   * off afterwards in every case.
   */
  function PerformRestart(m: ManagerState, opts: RestartOptions, env: RestartEnv): (o: RestartOutcome)
    ensures !o.state.isRestarting && !o.state.isOpen
    ensures o.state.restartType == m.restartType && o.state.saveState == m.saveState
    ensures o.delayAwaited.Some? <==> opts.delay.Some? && opts.delay.value > 0
    ensures o.delayAwaited.Some? ==> o.delayAwaited == opts.delay
    ensures o.event.None? ==> o.state.history == m.history
    ensures o.event.Some? ==> o.state.history == PushHistory(m.history, o.event.value)
    ensures o.event.Some? <==> Dispatch(opts.kind, env.store, env).ok
    ensures o.event.Some? ==> o.event.value == ManualEvent(opts, env)
    ensures opts.saveState == Some(true) && env.writable ==>
              && APP_STATE_KEY in o.store
              && o.store[APP_STATE_KEY] == Doc(AppStateJson(AppStateManager.Snapshot(env.store, env.hash, env.start, EMPTY_PATCH)))
    ensures opts.saveState != Some(true) ==> o.store == Dispatch(opts.kind, env.store, env).store
    ensures opts.saveState == Some(true) && !env.writable ==> o.store == Dispatch(opts.kind, env.store, env).store
    ensures forall k :: k != APP_STATE_KEY ==>
              && (k in o.store <==> k in Dispatch(opts.kind, env.store, env).store)
              && (k in o.store ==> o.store[k] == Dispatch(opts.kind, env.store, env).store[k])
  {
    DispatchIgnoresSnapshot(opts.kind, env.store,
                            Doc(AppStateJson(AppStateManager.Snapshot(env.store, env.hash, env.start, EMPTY_PATCH))), env);
    var saved := if opts.saveState == Some(true)
                 then AppStateManager.SaveState(env.store, env.hash, env.start, EMPTY_PATCH, env.writable).0
                 else env.store;
    var delay := if opts.delay.Some? && opts.delay.value > 0 then opts.delay else None;
    var d := Dispatch(opts.kind, saved, env);
    var done := m.(isRestarting := false, isOpen := false);
    if !d.ok then
      RestartOutcome(done, d.store, None, d.reloaded, delay, d.servicesRequested)
    else
      var event := ManualEvent(opts, env);
      RestartOutcome(done.(history := PushHistory(m.history, event)), d.store, Some(event),
                     d.reloaded, delay, d.servicesRequested)
  }

  /**
   * A restart asked to save the state leaves the default snapshot taken at
   * its start, whatever its type: a restore within 24 hours gives it back.
   */
  lemma RestartSavesSnapshot(m: ManagerState, opts: RestartOptions, env: RestartEnv, now: int)
    requires opts.saveState == Some(true) && env.writable
    requires now - env.start <= AppStateManager.MAX_SNAPSHOT_AGE
    ensures AppStateManager.RestoreState(PerformRestart(m, opts, env).store, now, true).state
            == Some(AppStateJson(AppStateManager.Snapshot(env.store, env.hash, env.start, EMPTY_PATCH)))
  {
    var snap := AppStateManager.Snapshot(env.store, env.hash, env.start, EMPTY_PATCH);
    AppStateManager.RestoreStored(PerformRestart(m, opts, env).store, snap, now);
  }

  /**
   * A full restart is a services restart followed by a hard restart: it
   * succeeds exactly when the services restart does, and reloads only then.
   */
  lemma FullIsServicesThenHard(m: ManagerState, opts: RestartOptions, env: RestartEnv)
    requires opts.kind == Full
    ensures var full := PerformRestart(m, opts, env);
      var services := PerformRestart(m, opts.(kind := Services), env);
      && (full.event.Some? <==> services.event.Some?)
      && (full.reloaded <==> services.event.Some?)
      && full.store == services.store
      && full.servicesRequested
  {
  }

  /**
   * A soft restart leaves null saved for exactly the three components:
   * restoring any of them gives null, and every other key but the snapshot's
   * keeps its entry.
   */
  lemma SoftRestartClearsComponents(m: ManagerState, opts: RestartOptions, env: RestartEnv, name: string, maxAge: int, now: int)
    requires opts.kind == Soft && env.writable
    requires name in SOFT_RESET_COMPONENTS
    ensures var st := PerformRestart(m, opts, env).store;
      AppStateManager.RestoreComponentState(st, name, maxAge, now).1 == JNull
  {
    var st := PerformRestart(m, opts, env).store;
    var key := AppStateManager.ComponentKey(name);
    assert key in st && st[key] == Doc(AppStateManager.ComponentRecord(JNull, env.actAt));
    AppStateManager.NullRecordRestoresNull(st, name, env.actAt, maxAge, now);
  }

  lemma SoftRestartKeepsOthers(m: ManagerState, opts: RestartOptions, env: RestartEnv, k: string)
    requires opts.kind == Soft && opts.saveState != Some(true)
    requires forall n :: n in SOFT_RESET_COMPONENTS ==> k != AppStateManager.ComponentKey(n)
    ensures var st := PerformRestart(m, opts, env).store;
      (k in st <==> k in env.store) && (k in env.store ==> st[k] == env.store[k])
  {
  }

  /** A failed restart (a services request not answered ok) adds nothing to the history. */
  lemma FailedRestartNotRecorded(m: ManagerState, opts: RestartOptions, env: RestartEnv)
    requires (opts.kind == Services || opts.kind == Full) && !env.servicesOk
    ensures PerformRestart(m, opts, env).event.None?
    ensures PerformRestart(m, opts, env).state.history == m.history
    ensures !PerformRestart(m, opts, env).reloaded
  {
  }

  /** The restart button: the selected type and save flag, with a reason naming the type. */
  function ClickOptions(m: ManagerState): (opts: RestartOptions)
    ensures opts.kind == m.restartType && opts.saveState == Some(m.saveState)
    ensures opts.delay.None? && opts.force.None?
    ensures opts.reason == Some("Redémarrage " + RestartTypeName(m.restartType) + " manuel depuis l'interface")
  {
    RestartOptions(m.restartType, Some(m.saveState),
                   Some("Redémarrage " + RestartTypeName(m.restartType) + " manuel depuis l'interface"), None, None)
  }

  function HandleRestartClick(m: ManagerState, env: RestartEnv): (o: RestartOutcome)
    ensures o == PerformRestart(m, ClickOptions(m), env)
    ensures o.event.Some? ==> o.event.value.stateSaved == m.saveState
    ensures o.event.Some? ==>
              && o.event.value.reason.kind == Manual
              && o.event.value.reason.message == "Redémarrage " + RestartTypeName(m.restartType) + " manuel depuis l'interface"
    ensures m.saveState && env.writable ==>
              && APP_STATE_KEY in o.store
              && o.store[APP_STATE_KEY] == Doc(AppStateJson(AppStateManager.Snapshot(env.store, env.hash, env.start, EMPTY_PATCH)))
    ensures !m.saveState ==> o.store == Dispatch(m.restartType, env.store, env).store
    ensures m.saveState && !env.writable ==> o.store == Dispatch(m.restartType, env.store, env).store
    ensures forall k :: k != APP_STATE_KEY ==>
              && (k in o.store <==> k in Dispatch(m.restartType, env.store, env).store)
              && (k in o.store ==> o.store[k] == Dispatch(m.restartType, env.store, env).store[k])
  {
    PerformRestart(m, ClickOptions(m), env)
  }

  /** A successful recovery reported by the recovery hook also enters the history. */
  function OnRecoveryEvent(m: ManagerState, event: RestartEvent): (r: ManagerState)
    ensures r.history == PushHistory(m.history, event)
    ensures r.(history := m.history) == m
  {
    m.(history := PushHistory(m.history, event))
  }
}

=== FILE: restart_types.dfy ===
/**
 * The records of the restart subsystem: configuration, the application
 * snapshot kept for crash recovery, restart reasons and events, and the
 * results of a health check. Clock readings are integers in milliseconds.
 */
module RestartTypes {
  import opened Wrappers
  import opened Json

  datatype RestartConfig = RestartConfig(
    autoRestart: bool,
    maxRetries: int,
    retryDelay: int,           // milliseconds
    healthCheckInterval: int,  // milliseconds
    saveStateOnRestart: bool,
    notifyUser: bool)

  /** `Partial<RestartConfig>`: a field given by the caller, or absent. */
  datatype ConfigPatch = ConfigPatch(
    autoRestart: Option<bool>,
    maxRetries: Option<int>,
    retryDelay: Option<int>,
    healthCheckInterval: Option<int>,
    saveStateOnRestart: Option<bool>,
    notifyUser: Option<bool>)

  const DEFAULT_RESTART_CONFIG := RestartConfig(
    autoRestart := true,
    maxRetries := 3,
    retryDelay := 5000,
    healthCheckInterval := 30000,
    saveStateOnRestart := true,
    notifyUser := true)

  lemma DefaultConfigValues()
    ensures DEFAULT_RESTART_CONFIG.autoRestart && DEFAULT_RESTART_CONFIG.maxRetries == 3
    ensures DEFAULT_RESTART_CONFIG.retryDelay == 5000 && DEFAULT_RESTART_CONFIG.healthCheckInterval == 30000
    ensures DEFAULT_RESTART_CONFIG.saveStateOnRestart && DEFAULT_RESTART_CONFIG.notifyUser
  {
  }

  /** The localStorage keys of the subsystem. */
  const APP_STATE_KEY: string := "consciousness_app_state"
  const RESTART_CONFIG_KEY: string := "consciousness_restart_config"
  const RESTART_HISTORY_KEY: string := "consciousness_restart_history"

  lemma StorageKeysDistinct()
    ensures APP_STATE_KEY != RESTART_CONFIG_KEY
    ensures APP_STATE_KEY != RESTART_HISTORY_KEY
    ensures RESTART_CONFIG_KEY != RESTART_HISTORY_KEY
  {
  }

  // ---- Application snapshot (AppState) ----

  datatype UserSession = UserSession(isAuthenticated: bool, user: Json, token: Option<string>)

  datatype ErrorDetails = ErrorDetails(message: string, stack: Option<string>, timestamp: string)

  datatype UiState = UiState(
    sidebarOpen: Option<Json>,
    theme: Option<string>,
    notifications: Option<Json>,
    lastError: Option<ErrorDetails>)

  datatype AppState = AppState(
    currentRoute: string,
    userSession: UserSession,
    uiState: UiState,
    timestamp: int)

  /** `Partial<AppState>`: each top-level field is given or absent. */
  datatype StatePatch = StatePatch(
    currentRoute: Option<string>,
    userSession: Option<UserSession>,
    uiState: Option<UiState>,
    timestamp: Option<int>)

  const EMPTY_PATCH := StatePatch(None, None, None, None)

  /** The fields `JSON.stringify` emits: absent (undefined) fields are skipped. */
  function OptField(key: string, v: Option<Json>): seq<(string, Json)> {
    if v.Some? then [(key, v.value)] else []
  }

  function OptStr(s: Option<string>): Option<Json> {
    if s.Some? then Some(JStr(s.value)) else None
  }

  function ErrorDetailsJson(e: ErrorDetails): Json {
    JObj([("message", JStr(e.message))] + OptField("stack", OptStr(e.stack))
         + [("timestamp", JStr(e.timestamp))])
  }

  function UserSessionJson(u: UserSession): (j: Json)
    ensures j.JObj?
  {
    JObj([("isAuthenticated", JBool(u.isAuthenticated)), ("user", u.user)]
         + OptField("token", OptStr(u.token)))
  }

  function UiStateJson(u: UiState): (j: Json)
    ensures j.JObj?
  {
    JObj(OptField("sidebarOpen", u.sidebarOpen)
         + OptField("theme", OptStr(u.theme))
         + OptField("notifications", u.notifications)
         + OptField("lastError", if u.lastError.Some? then Some(ErrorDetailsJson(u.lastError.value)) else None))
  }

  /** The document stored under APP_STATE for a snapshot. */
  function AppStateJson(s: AppState): (j: Json)
    ensures j.JObj?
    ensures Field(j, "timestamp") == Some(JNum(s.timestamp))
    ensures Field(j, "currentRoute") == Some(JStr(s.currentRoute))
    ensures Field(j, "userSession") == Some(UserSessionJson(s.userSession))
    ensures Field(j, "uiState") == Some(UiStateJson(s.uiState))
  {
    var fields := [("currentRoute", JStr(s.currentRoute)),
                   ("userSession", UserSessionJson(s.userSession)),
                   ("uiState", UiStateJson(s.uiState)),
                   ("timestamp", JNum(s.timestamp))];
    LookupLast(fields, 0);
    LookupLast(fields, 1);
    LookupLast(fields, 2);
    LookupLast(fields, 3);
    JObj(fields)
  }

  /**
   * `{...defaults, ...patch}`: every field the patch gives replaces the
   * default field as a whole (a shallow merge); the others are kept.
   */
  function ApplyPatch(defaults: AppState, patch: StatePatch): (s: AppState)
    ensures s.currentRoute == patch.currentRoute.GetOr(defaults.currentRoute)
    ensures s.userSession == patch.userSession.GetOr(defaults.userSession)
    ensures s.uiState == patch.uiState.GetOr(defaults.uiState)
    ensures s.timestamp == patch.timestamp.GetOr(defaults.timestamp)
  {
    AppState(
      patch.currentRoute.GetOr(defaults.currentRoute),
      patch.userSession.GetOr(defaults.userSession),
      patch.uiState.GetOr(defaults.uiState),
      patch.timestamp.GetOr(defaults.timestamp))
  }

  // ---- Restart reasons and events ----

  datatype ReasonType = Manual | Auto | ErrorReason | HealthCheck | ServiceFailure
  datatype Severity = Low | Medium | High | Critical

  datatype RestartReason = RestartReason(
    kind: ReasonType,
    message: string,
    timestamp: int,
    severity: Severity)

  datatype RestartEvent = RestartEvent(
    id: string,
    reason: RestartReason,
    stateSaved: bool,
    stateRestored: bool,
    duration: int,  // milliseconds
    success: bool,
    retryCount: int)

  // ---- Health ----

  datatype ServiceState = Running | Stopped | ServiceError | ServiceUnknown

  datatype ServiceStatus = ServiceStatus(name: string, status: ServiceState, lastCheck: int, url: Option<string>)

  /** The overall health of the application; Unknown only before the first check. */
  datatype Health = Healthy | Degraded | Unhealthy | Unknown

  /** The frontend is always assessed: its status is never Unknown. */
  type FrontendStatus = h: Health | h != Unknown witness Healthy

  datatype FrontendHealth = FrontendHealth(
    status: FrontendStatus,
    renderCount: Option<int>,  // None when a render counter did not parse (NaN)
    errorCount: int)

  datatype HealthCheckResult = HealthCheckResult(
    overall: Health,
    services: seq<ServiceStatus>,
    frontend: FrontendHealth,
    timestamp: int)

  // ---- Restart requests ----

  datatype RestartType = Soft | Hard | Services | Full

  lemma RestartTypeVariants(t: RestartType)
    ensures t == Soft || t == Hard || t == Services || t == Full
  {
  }

  /** The name the interface uses for a restart type. */
  function RestartTypeName(t: RestartType): string {
    match t
    case Soft => "soft"
    case Hard => "hard"
    case Services => "services"
    case Full => "full"
  }

  datatype RestartOptions = RestartOptions(
    kind: RestartType,
    saveState: Option<bool>,
    reason: Option<string>,
    force: Option<bool>,
    delay: Option<int>)
}

=== FILE: storage.dfy ===
/**
 * The browser's localStorage as a map from keys to entries. An entry is
 * either a JSON document (what `setItem(key, JSON.stringify(v))` leaves) or a
 * string that `JSON.parse` rejects, the empty string included.
 */
module Storage {
  import opened Wrappers
  import opened Json

  datatype Entry =
    | Text(s: string)  // a string that is not JSON text
    | Doc(v: Json)     // the JSON text of `v`

  type Store = map<string, Entry>

  /** `localStorage.getItem(key)`, None standing for null. */
  function GetItem(st: Store, key: string): (r: Option<string>)
    ensures r.Some? <==> key in st
    ensures key in st && st[key].Text? ==> r == Some(st[key].s)
    ensures key in st && st[key].Doc? ==> r.Some? && |r.value| > 0
  {
    if key !in st then None
    else match st[key]
      case Text(s) => Some(s)
      case Doc(v) => Some(Stringify(v))
  }

  /** `!!localStorage.getItem(key)`: the key holds a non-empty string. */
  predicate Present(st: Store, key: string) {
    key in st && (st[key].Doc? || st[key].s != "")
  }

  lemma PresentIsTruthyItem(st: Store, key: string)
    ensures Present(st, key) <==> GetItem(st, key).Some? && GetItem(st, key).value != ""
  {
  }

  /** What `const x = getItem(key); if (!x) …; JSON.parse(x)` reaches. */
  datatype Read = Absent | Unparsable | Parsed(v: Json)

  function ReadJson(st: Store, key: string): (r: Read)
    ensures r.Absent? <==> !Present(st, key)
    ensures r.Parsed? <==> key in st && st[key].Doc?
    ensures r.Parsed? ==> st[key] == Doc(r.v)
  {
    if !Present(st, key) then Absent
    else match st[key]
      case Doc(v) => Parsed(v)
      case Text(_) => Unparsable
  }

  /**
   * The entry `setItem(key, v)` leaves for a value read out of a JSON
   * document, which JavaScript converts with `String(v)`: a string is stored
   * as is, undefined as "undefined", an object as "[object Object]", and
   * null, booleans, numbers and arrays as their JSON text.
   */
  function Coerce(v: Option<Json>): (e: Entry)
    ensures v.Some? && v.value.JStr? ==> e == Text(v.value.s)
    ensures v.Some? && (v.value.JNum? || v.value.JBool? || v.value.JNull?) ==> e == Doc(v.value)
  {
    match v
    case None => Text("undefined")
    case Some(JStr(s)) => Text(s)
    case Some(JObj(_)) => Text("[object Object]")
    case Some(j) => Doc(j)
  }
}

=== FILE: system_monitoring.dfy ===
/**
 * The monitoring page's evaluation panel: the list of models fetched from the
 * backend and the selected model, the evaluate request built from the edited
 * payload (with the selected model injected when the payload names none),
 * the display of its answer, and the reset button.
 */
module SystemMonitoring {
  import opened Wrappers
  import opened Json
  import Text

  /** The model selected when the page mounts, and the one the reset button restores. */
  const DEFAULT_MODEL := "tinyllama"

  const STATIC_MODELS: seq<Json> := [JStr("tinyllama"), JStr("qwen2.5:3b-instruct"), JStr("llama3.2:3b-instruct")]

  /** The text of the default evaluation payload, two-space indented as `JSON.stringify(v, null, 2)` writes it. */
  const DEFAULT_PAYLOAD: string :=
    "{\n  \"quality\": {\n    \"agentType\": \"assistant\",\n    \"changeId\": \"webui-quality\",\n"
    + "    \"scores\": {\n      \"selfAwareness\": 0.8,\n      \"ethical\": 0.9,\n"
    + "      \"meta_cognitive_depth\": 0.75,\n      \"empathy\": 0.8\n    }\n  }\n}"

  /** How an answer is shown: a JSON answer pretty-printed, anything else as its raw text. */
  datatype Shown = Pretty(v: Json) | Raw(text: string)

  /** Why an evaluation failed. */
  datatype EvalError =
    | InvalidPayload                    // JSON.parse rejected the payload (the engine's message is shown)
    | ModelNotSettable                  // the payload is null or a primitive: setting `model` throws a TypeError
    | Http(status: int, text: string)   // a non-ok answer
    | Network(message: Option<string>)  // fetch or reading the body rejected

  datatype Panel = Panel(
    payload: string,
    selected: Json,          // `selectedModel`; a fetched list may hold non-strings
    available: seq<Json>,
    loading: bool,
    error: Option<EvalError>,
    response: Option<Shown>)

  const INITIAL := Panel(DEFAULT_PAYLOAD, JStr(DEFAULT_MODEL), STATIC_MODELS, false, None, None)

  // ---- The model list ----

  /** One entry of `data.models`: a string as is, otherwise its `name` when truthy, else its `model`. */
  function ModelEntry(m: Json): (r: Option<Json>)
    ensures m.JStr? ==> r == Some(m)
    ensures !m.JStr? && Truthy(GetOpt(Some(m), "name")) ==> r == GetOpt(Some(m), "name")
    ensures !m.JStr? && !Truthy(GetOpt(Some(m), "name")) ==> r == GetOpt(Some(m), "model")
    ensures !m.JObj? && !m.JStr? ==> r.None?
  {
    if m.JStr? then Some(m)
    else if Truthy(GetOpt(Some(m), "name")) then GetOpt(Some(m), "name")
    else GetOpt(Some(m), "model")
  }

  /** `items.map(ModelEntry).filter(Boolean)`. */
  function Entries(items: seq<Json>): (r: seq<Json>)
    ensures |r| <= |items|
    ensures forall k :: 0 <= k < |r| ==> Truthy(Some(r[k]))
    ensures forall i :: 0 <= i < |items| && Truthy(ModelEntry(items[i])) ==> ModelEntry(items[i]).value in r
    decreases |items|
  {
    if |items| == 0 then []
    else
      var e := ModelEntry(items[0]);
      (if Truthy(e) then [e.value] else []) + Entries(items[1..])
  }

  /** Every entry is the mapped value of some item: nothing is invented. */
  lemma {:induction false} EntriesComeFromItems(items: seq<Json>)
    ensures forall k :: 0 <= k < |Entries(items)| ==>
              exists i :: 0 <= i < |items| && ModelEntry(items[i]) == Some(Entries(items)[k])
    decreases |items|
  {
    if |items| > 0 {
      var r, rest := Entries(items), Entries(items[1..]);
      EntriesComeFromItems(items[1..]);
      forall k | 0 <= k < |Entries(items)|
        ensures exists i :: 0 <= i < |items| && ModelEntry(items[i]) == Some(Entries(items)[k])
      {
        var off := if Truthy(ModelEntry(items[0])) then 1 else 0;
        if k < off {
          assert ModelEntry(items[0]) == Some(r[k]);
        } else {
          assert r[k] == rest[k - off];
          var i :| 0 <= i < |items[1..]| && ModelEntry(items[1..][i]) == Some(rest[k - off]);
          assert items[i + 1] == items[1..][i];
        }
      }
    } else {
      assert Entries(items) == [];
    }
  }

  /**
   * Order is kept: the first entry is the mapped value of the first item
   * whose entry is truthy, and there is none exactly when no item has one.
   */
  lemma {:induction false} FirstEntry(items: seq<Json>, i: nat)
    requires i < |items| && Truthy(ModelEntry(items[i]))
    requires forall j :: 0 <= j < i ==> !Truthy(ModelEntry(items[j]))
    ensures |Entries(items)| > 0 && Entries(items)[0] == ModelEntry(items[i]).value
    decreases i
  {
    if i > 0 {
      assert forall j :: 0 <= j < i - 1 ==> items[1..][j] == items[j + 1];
      FirstEntry(items[1..], i - 1);
    }
  }

  /** The entries are empty exactly when no item maps to a truthy entry. */
  lemma NoEntries(items: seq<Json>)
    ensures Entries(items) == [] <==> forall i :: 0 <= i < |items| ==> !Truthy(ModelEntry(items[i]))
  {
    if exists i :: 0 <= i < |items| && Truthy(ModelEntry(items[i])) {
      var i :| 0 <= i < |items| && Truthy(ModelEntry(items[i]));
      assert ModelEntry(items[i]).value in Entries(items);
    }
  }

  /** A list of non-empty names is taken over unchanged. */
  lemma {:induction false} NamesKept(items: seq<Json>)
    requires forall i :: 0 <= i < |items| ==> items[i].JStr? && items[i].s != ""
    ensures Entries(items) == items
    decreases |items|
  {
    if |items| > 0 {
      NamesKept(items[1..]);
      assert Truthy(ModelEntry(items[0]));
    }
  }

  /** The list the models endpoint's answer `data` gives: empty unless `data.models` is an array. */
  function FetchedModels(data: Option<Json>): (r: seq<Json>)
    ensures (GetOpt(data, "models").Some? && GetOpt(data, "models").value.JArr?) ==>
              r == Entries(GetOpt(data, "models").value.items)
    ensures !(GetOpt(data, "models").Some? && GetOpt(data, "models").value.JArr?) ==> r == []
  {
    match GetOpt(data, "models")
    case Some(JArr(items)) => Entries(items)
    case _ => []
  }

  /**
   * The answer of the models request reaching the panel (None when the
   * request or the decoding failed, which keeps the static list): a
   * non-empty list replaces the available models, and the selection moves to
   * its first entry when the list lacks the model that was selected at mount
   * (the effect runs once and reads the selection of the first render).
   * Nothing happens once the page has unmounted.
   */
  function LoadModels(p: Panel, data: Option<Option<Json>>, cancelled: bool): (r: Panel)
    ensures cancelled || data.None? || FetchedModels(data.value) == [] ==> r == p
    ensures !cancelled && data.Some? && FetchedModels(data.value) != [] ==>
              var models := FetchedModels(data.value);
              && r.available == models
              && (JStr(DEFAULT_MODEL) in models ==> r.selected == p.selected)
              && (JStr(DEFAULT_MODEL) !in models ==> r.selected == models[0])
              && r.(available := p.available, selected := p.selected) == p
  {
    if cancelled || data.None? then p
    else
      var models := FetchedModels(data.value);
      if models == [] then p
      else if JStr(DEFAULT_MODEL) in models then p.(available := models)
      else p.(available := models, selected := models[0])
  }

  /** Loaded at mount, the selection is always one of the available models. */
  lemma SelectionAvailableAfterLoad(data: Option<Option<Json>>)
    ensures var r := LoadModels(INITIAL, data, false);
      r.selected in r.available
  {
    assert INITIAL.selected == STATIC_MODELS[0];
  }

  // ---- Evaluation ----

  /** `typeof body === 'object' && body && 'model' in body`. */
  predicate HasTopLevelModel(body: Json) {
    body.JObj? && HasKey(body.fields, "model")
  }

  /** `typeof body?.llm === 'object' && body.llm && 'model' in body.llm`. */
  predicate HasNestedModel(body: Json) {
    var llm := GetOpt(Some(body), "llm");
    llm.Some? && llm.value.JObj? && HasKey(llm.value.fields, "model")
  }

  /** Whether the selected model is written into the body. */
  predicate Injects(body: Json, selected: Json) {
    !HasTopLevelModel(body) && !HasNestedModel(body) && Truthy(Some(selected))
  }

  /**
   * The body sent after the injection: an object gains `model`, an array
   * keeps its JSON text (a named property of an array is not serialised), and
   * setting a property of null or of a primitive throws.
   */
  function InjectModel(body: Json, selected: Json): (r: Result<Json, EvalError>)
    ensures !Injects(body, selected) ==> r == Success(body)
    ensures Injects(body, selected) && body.JObj? ==>
              r.Success? && r.value.JObj?
              && Lookup(r.value.fields, "model") == Some(selected)
              && forall k :: k != "model" ==> Lookup(r.value.fields, k) == Lookup(body.fields, k)
    ensures Injects(body, selected) && body.JObj? ==> r == Success(JObj(body.fields + [("model", selected)]))
    ensures Injects(body, selected) && body.JArr? ==> r == Success(body)
    ensures Injects(body, selected) && !body.JObj? && !body.JArr? ==> r == Failure(ModelNotSettable)
  {
    if !Injects(body, selected) then Success(body)
    else match body
      case JObj(fields) => Success(JObj(Put(fields, "model", selected)))
      case JArr(_) => Success(body)
      case _ => Failure(ModelNotSettable)
  }

  /** A model the payload names itself, at the top or under `llm`, is never replaced. */
  lemma UserModelKept(body: Json, selected: Json)
    requires HasTopLevelModel(body) || HasNestedModel(body)
    ensures InjectModel(body, selected) == Success(body)
  {
  }

  /** What the evaluate request gave: an answer with its status and text, or a rejection. */
  datatype Answer = Answered(ok: bool, status: int, text: string) | Rejected(message: Option<string>)

  /** The panel after one click on the evaluate button, and the body sent, if any. */
  datatype Evaluation = Evaluation(panel: Panel, sent: Option<Json>)

  /**
   * The evaluate button: parses the payload, injects the selected model,
   * sends the body and shows the answer, pretty-printed when it is JSON; a
   * non-ok answer shows `HTTP <status>: <text>` as the error. The loading
   * flag is off afterwards in every case.
   */
  function Evaluate(p: Panel, parse: string -> Option<Json>, answer: Answer): (e: Evaluation)
    ensures !e.panel.loading
    ensures e.panel.payload == p.payload && e.panel.selected == p.selected && e.panel.available == p.available
    ensures e.panel.error.None? <==> e.panel.response.Some?
    ensures parse(p.payload).None? ==> e.sent.None? && e.panel.error == Some(InvalidPayload)
    ensures parse(p.payload).Some? ==>
              var body := parse(p.payload).value;
              && (InjectModel(body, p.selected).Failure? ==> e.sent.None? && e.panel.error == Some(ModelNotSettable))
              && (InjectModel(body, p.selected).Success? ==> e.sent == Some(InjectModel(body, p.selected).value))
    ensures e.sent.Some? && answer.Rejected? ==> e.panel.error == Some(Network(answer.message))
    ensures e.sent.Some? && answer.Answered? && !answer.ok ==> e.panel.error == Some(Http(answer.status, answer.text))
    ensures e.sent.Some? && answer.Answered? && answer.ok ==>
              e.panel.response == Some(if parse(answer.text).Some? then Pretty(parse(answer.text).value) else Raw(answer.text))
  {
    var cleared := p.(error := None, response := None, loading := false);
    match parse(p.payload)
    case None => Evaluation(cleared.(error := Some(InvalidPayload)), None)
    case Some(body) =>
      match InjectModel(body, p.selected)
      case Failure(err) => Evaluation(cleared.(error := Some(err)), None)
      case Success(sent) =>
        var shown :=
          match answer
          case Rejected(m) => cleared.(error := Some(Network(m)))
          case Answered(ok, status, text) =>
            if !ok then cleared.(error := Some(Http(status, text)))
            else match parse(text)
              case Some(j) => cleared.(response := Some(Pretty(j)))
              case None => cleared.(response := Some(Raw(text)));
        Evaluation(shown, Some(sent))
  }

  /** The message the error banner shows; `engineMessage` is the message of a SyntaxError or TypeError thrown by the engine. */
  function ErrorText(err: EvalError, engineMessage: string): (m: string)
    ensures err.Http? ==> m == "HTTP " + Text.IntToString(err.status) + ": " + err.text
    ensures err.Network? && err.message.Some? && err.message.value != "" ==> m == err.message.value
    ensures err.Network? && (err.message.None? || err.message == Some("")) ==> m == "Erreur inattendue"
    ensures (err.InvalidPayload? || err.ModelNotSettable?) && engineMessage != "" ==> m == engineMessage
  {
    match err
    case Http(status, text) => "HTTP " + Text.IntToString(status) + ": " + text
    case Network(Some(msg)) => if msg != "" then msg else "Erreur inattendue"
    case Network(None) => "Erreur inattendue"
    case _ => if engineMessage != "" then engineMessage else "Erreur inattendue"
  }

  /** The reset button: the default payload and model, no error and no answer. */
  function Reset(p: Panel): (r: Panel)
    ensures r.payload == INITIAL.payload && r.selected == INITIAL.selected
    ensures r.error.None? && r.response.None?
    ensures r.available == p.available && r.loading == p.loading
  {
    p.(payload := DEFAULT_PAYLOAD, selected := JStr(DEFAULT_MODEL), error := None, response := None)
  }

  /** After a reset the default payload, when parsed as an object without `model`, gets the default model injected. */
  lemma ResetThenEvaluateInjectsDefault(p: Panel, parse: string -> Option<Json>, answer: Answer)
    requires parse(DEFAULT_PAYLOAD).Some? && parse(DEFAULT_PAYLOAD).value.JObj?
    requires !HasTopLevelModel(parse(DEFAULT_PAYLOAD).value) && !HasNestedModel(parse(DEFAULT_PAYLOAD).value)
    ensures var e := Evaluate(Reset(p), parse, answer);
      e.sent.Some? && e.sent.value.JObj? && Lookup(e.sent.value.fields, "model") == Some(JStr(DEFAULT_MODEL))
  {
  }
}

=== FILE: text.dfy ===
/**
 * The JavaScript string built-ins the application relies on: `trim`,
 * `startsWith`, `split(/\r?\n/)` and the decimal rendering of integers.
 */
module Text {

  /** ECMAScript WhiteSpace and LineTerminator code points, which `String.prototype.trim` removes. */
  predicate IsWhitespace(c: char) {
    || c == '\t' || c == '\n' || c == '\U{000B}' || c == '\U{000C}' || c == '\r' || c == ' '
    || c == '\U{00A0}' || c == '\U{1680}' || ('\U{2000}' <= c <= '\U{200A}')
    || c == '\U{2028}' || c == '\U{2029}' || c == '\U{202F}' || c == '\U{205F}'
    || c == '\U{3000}' || c == '\U{FEFF}'
  }

  predicate AllWhitespace(s: string) {
    forall i :: 0 <= i < |s| ==> IsWhitespace(s[i])
  }

  /** The first index from `i` on that holds no whitespace, or `|s|`. */
  function SkipForward(s: string, i: nat): (n: nat)
    requires i <= |s|
    ensures i <= n <= |s|
    ensures forall t :: i <= t < n ==> IsWhitespace(s[t])
    ensures n < |s| ==> !IsWhitespace(s[n])
    decreases |s| - i
  {
    if i == |s| || !IsWhitespace(s[i]) then i else SkipForward(s, i + 1)
  }

  /** The end of `s[lo..j]` once its trailing whitespace is dropped. */
  function SkipBackward(s: string, lo: nat, j: nat): (n: nat)
    requires lo <= j <= |s|
    ensures lo <= n <= j
    ensures forall t :: n <= t < j ==> IsWhitespace(s[t])
    ensures n > lo ==> !IsWhitespace(s[n - 1])
    decreases j - lo
  {
    if j == lo || !IsWhitespace(s[j - 1]) then j else SkipBackward(s, lo, j - 1)
  }

  /**
   * `s.trim()`: the infix of `s` obtained by removing whitespace at both ends.
   * The result is empty or starts and ends with a non-whitespace character,
   * and only whitespace was removed.
   */
  function Trim(s: string): (r: string)
    ensures exists i, j :: 0 <= i <= j <= |s| && r == s[i..j]
                           && AllWhitespace(s[..i]) && AllWhitespace(s[j..])
    ensures |r| > 0 ==> !IsWhitespace(r[0]) && !IsWhitespace(r[|r| - 1])
    ensures AllWhitespace(s) <==> r == []
  {
    var i := SkipForward(s, 0);
    var j := SkipBackward(s, i, |s|);
    assert AllWhitespace(s[..i]) by {
      forall t | 0 <= t < i ensures IsWhitespace(s[..i][t]) {
        assert s[..i][t] == s[t];
      }
    }
    assert AllWhitespace(s[j..]) by {
      forall t | 0 <= t < |s| - j ensures IsWhitespace(s[j..][t]) {
        assert s[j..][t] == s[j + t];
      }
    }
    assert i < j ==> !IsWhitespace(s[i]);
    s[i..j]
  }

  /** A string with no whitespace at either end is its own trim. */
  lemma TrimPlain(s: string)
    requires |s| > 0 && !IsWhitespace(s[0]) && !IsWhitespace(s[|s| - 1])
    ensures Trim(s) == s
  {
    assert SkipForward(s, 0) == 0;
    assert SkipBackward(s, 0, |s|) == |s|;
    assert s[0..|s|] == s;
  }

  /** `s.startsWith(p)`. */
  predicate StartsWith(s: string, p: string) {
    p <= s
  }

  function DigitChar(d: nat): (c: char)
    requires d < 10
    ensures '0' <= c <= '9'
  {
    ('0' as int + d) as char
  }

  function DigitValue(c: char): (d: nat)
    requires '0' <= c <= '9'
    ensures d < 10 && DigitChar(d) == c
  {
    (c as int - '0' as int) as nat
  }

  /** The decimal rendering of a natural number, as `String(n)` produces it. */
  function NatToString(n: nat): (r: string)
    ensures |r| > 0
    ensures forall i :: 0 <= i < |r| ==> '0' <= r[i] <= '9'
    decreases n
  {
    if n < 10 then [DigitChar(n)] else NatToString(n / 10) + [DigitChar(n % 10)]
  }

  /** The value of a string of decimal digits (the reading of `parseInt` on digits alone). */
  function DigitsValue(s: string): nat
    requires forall i :: 0 <= i < |s| ==> '0' <= s[i] <= '9'
  {
    if |s| == 0 then 0 else 10 * DigitsValue(s[..|s| - 1]) + DigitValue(s[|s| - 1])
  }

  /** Reading back the decimal rendering of `n` gives `n`. */
  lemma {:induction false} NatToStringRoundTrip(n: nat)
    ensures DigitsValue(NatToString(n)) == n
    decreases n
  {
    if n >= 10 {
      var s := NatToString(n / 10) + [DigitChar(n % 10)];
      assert s[..|s| - 1] == NatToString(n / 10);
      assert DigitValue(s[|s| - 1]) == n % 10;
      NatToStringRoundTrip(n / 10);
    }
  }

  /** `String(i)` for an integer: a minus sign before the magnitude when negative. */
  function IntToString(i: int): (r: string)
    ensures |r| > 0
    ensures i < 0 <==> r[0] == '-'
  {
    if i < 0 then "-" + NatToString(-i) else NatToString(i)
  }

  predicate NoNewline(s: string) {
    forall k :: 0 <= k < |s| ==> s[k] != '\n'
  }

  /** Index of the first `'\n'` in `s`, or `|s|` when there is none. */
  function FirstNewline(s: string): (i: nat)
    ensures i <= |s|
    ensures i < |s| ==> s[i] == '\n'
  {
    if |s| == 0 then 0
    else if s[0] == '\n' then 0
    else 1 + FirstNewline(s[1..])
  }

  /** No `'\n'` comes before the first one. */
  lemma {:induction false} BeforeFirstNewline(s: string)
    ensures forall k :: 0 <= k < FirstNewline(s) ==> s[k] != '\n'
    decreases |s|
  {
    if |s| > 0 && s[0] != '\n' {
      BeforeFirstNewline(s[1..]);
      forall k | 1 <= k < FirstNewline(s) ensures s[k] != '\n' {
        assert s[k] == s[1..][k - 1];
      }
    }
  }

  /**
   * `s.split(/\r?\n/)`: the leftmost match of `\r?\n` always ends at the first
   * `'\n'`, and takes the `'\r'` before it when there is one.
   */
  function SplitLines(s: string): (lines: seq<string>)
    ensures |lines| > 0
    decreases |s|
  {
    var i := FirstNewline(s);
    if i == |s| then [s] else [LineBefore(s, i)] + SplitLines(s[i + 1..])
  }

  /** The text before the line break at `i`, without the `'\r'` just before it. */
  function LineBefore(s: string, i: nat): string
    requires i <= |s|
  {
    if i > 0 && s[i - 1] == '\r' then s[..i - 1] else s[..i]
  }

  function CountNewlines(s: string): nat {
    if |s| == 0 then 0 else (if s[0] == '\n' then 1 else 0) + CountNewlines(s[1..])
  }

  lemma {:induction false} CountNewlinesAppend(a: string, b: string)
    ensures CountNewlines(a + b) == CountNewlines(a) + CountNewlines(b)
    decreases |a|
  {
    if |a| > 0 {
      assert (a + b)[1..] == a[1..] + b;
      CountNewlinesAppend(a[1..], b);
    } else {
      assert a + b == b;
    }
  }

  lemma {:induction false} NoNewlineCount(s: string)
    requires NoNewline(s)
    ensures CountNewlines(s) == 0
    decreases |s|
  {
    if |s| > 0 {
      assert NoNewline(s[1..]) by {
        forall k | 0 <= k < |s[1..]| ensures s[1..][k] != '\n' {
          assert s[1..][k] == s[k + 1];
        }
      }
      NoNewlineCount(s[1..]);
    }
  }

  /** The first line break counts once, and the rest of the count lies after it. */
  lemma {:induction false} CountNewlinesAtFirst(s: string)
    requires FirstNewline(s) < |s|
    ensures CountNewlines(s) == 1 + CountNewlines(s[FirstNewline(s) + 1..])
    decreases |s|
  {
    if s[0] != '\n' {
      CountNewlinesAtFirst(s[1..]);
      assert s[1..][FirstNewline(s[1..]) + 1..] == s[FirstNewline(s) + 1..];
    }
  }

  /** Past the first line break, the split has one line fewer. */
  lemma SplitLinesLength(s: string)
    requires FirstNewline(s) < |s|
    ensures |SplitLines(s)| == 1 + |SplitLines(s[FirstNewline(s) + 1..])|
  {
  }

  /** There is exactly one more line than there are `'\n'` characters in `s`. */
  lemma {:induction false} SplitLinesCount(s: string)
    ensures |SplitLines(s)| == CountNewlines(s) + 1
    decreases |s|
  {
    var i := FirstNewline(s);
    if i == |s| {
      BeforeFirstNewline(s);
      NoNewlineCount(s);
    } else {
      SplitLinesCount(s[i + 1..]);
      SplitLinesLength(s);
      CountNewlinesAtFirst(s);
    }
  }

  /** No line of a split holds a `'\n'`. */
  lemma {:induction false} SplitLinesNoNewline(s: string)
    ensures forall j :: 0 <= j < |SplitLines(s)| ==> NoNewline(SplitLines(s)[j])
    decreases |s|
  {
    var i := FirstNewline(s);
    BeforeFirstNewline(s);
    if i < |s| {
      var tail := s[i + 1..];
      SplitLinesNoNewline(tail);
      var line := LineBefore(s, i);
      assert SplitLines(s) == [line] + SplitLines(tail);
      assert NoNewline(line) by {
        forall k | 0 <= k < |line| ensures line[k] != '\n' {
          assert line[k] == s[k];
        }
      }
    }
  }

  /** A string without `'\n'` is one line, kept as is. */
  lemma SplitNoNewline(s: string)
    requires NoNewline(s)
    ensures SplitLines(s) == [s]
  {
  }

  /** The first line break of `x` is the first of `x + y`. */
  lemma FirstNewlineConcat(x: string, y: string)
    requires FirstNewline(x) < |x|
    ensures FirstNewline(x + y) == FirstNewline(x)
  {
    var i := FirstNewline(x);
    BeforeFirstNewline(x);
    BeforeFirstNewline(x + y);
    assert (x + y)[i] == '\n';
  }

  /** Splitting past the first line break of `x`: its first line, then the lines of the rest. */
  lemma SplitAfterFirst(x: string)
    requires FirstNewline(x) < |x|
    ensures SplitLines(x) == [LineBefore(x, FirstNewline(x))] + SplitLines(x[FirstNewline(x) + 1..])
  {
  }

  /** The first line of `x`, when it ends in `x`, is also the first line of `x + y`. */
  lemma SplitFirstLine(x: string, y: string)
    requires FirstNewline(x) < |x|
    ensures SplitLines(x + y) == [LineBefore(x, FirstNewline(x))] + SplitLines(x[FirstNewline(x) + 1..] + y)
  {
    var i := FirstNewline(x);
    var s := x + y;
    FirstNewlineConcat(x, y);
    SplitAfterFirst(s);
    LineBeforeConcat(x, y, i);
    assert s[i + 1..] == x[i + 1..] + y;
  }

  /** A line that ends inside `x` is the same line of `x + y`. */
  lemma LineBeforeConcat(x: string, y: string, i: nat)
    requires i <= |x|
    ensures LineBefore(x + y, i) == LineBefore(x, i)
  {
    assert (x + y)[..i] == x[..i];
    if i > 0 {
      assert (x + y)[..i - 1] == x[..i - 1];
    }
  }

  /**
   * Splitting a concatenation: the complete lines of `x`, then the lines of
   * what follows `x`'s last `'\n'` joined to `y`.
   */
  lemma {:induction false} SplitConcat(x: string, y: string)
    ensures var lx := SplitLines(x);
      SplitLines(x + y) == lx[..|lx| - 1] + SplitLines(lx[|lx| - 1] + y)
    decreases |x|
  {
    var i := FirstNewline(x);
    if i < |x| {
      var tail := x[i + 1..];
      var lx := SplitLines(x);
      var rest := SplitLines(tail);
      var line := LineBefore(x, i);
      calc {
        SplitLines(x + y);
        { SplitFirstLine(x, y); }
        [line] + SplitLines(tail + y);
        { SplitConcat(tail, y); }
        [line] + (rest[..|rest| - 1] + SplitLines(rest[|rest| - 1] + y));
        { SplitAfterFirst(x);
          PrependLine(line, lx, rest, rest[..|rest| - 1] + SplitLines(rest[|rest| - 1] + y), SplitLines(rest[|rest| - 1] + y)); }
        lx[..|lx| - 1] + SplitLines(lx[|lx| - 1] + y);
      }
    }
  }

  /** Putting one line in front of a split whose last line was joined to what follows. */
  lemma PrependLine<T>(head: T, whole: seq<T>, rest: seq<T>, restJoined: seq<T>, lastJoined: seq<T>)
    requires |rest| > 0 && whole == [head] + rest
    requires restJoined == rest[..|rest| - 1] + lastJoined
    ensures [head] + restJoined == whole[..|whole| - 1] + lastJoined
    ensures whole[|whole| - 1] == rest[|rest| - 1]
  {
    assert whole[..|whole| - 1] == [head] + rest[..|rest| - 1];
  }

  /** A string that ends with `'\n'` has an empty last line. */
  lemma {:induction false} SplitEndsWithNewline(x: string)
    requires |x| > 0 && x[|x| - 1] == '\n'
    ensures var lx := SplitLines(x); lx[|lx| - 1] == ""
    decreases |x|
  {
    var i := FirstNewline(x);
    BeforeFirstNewline(x);
    assert i < |x|;
    var tail := x[i + 1..];
    SplitAfterFirst(x);
    if i < |x| - 1 {
      SplitEndsWithNewline(tail);
    } else {
      assert tail == "";
      assert SplitLines(tail) == [""];
    }
    var rest := SplitLines(tail);
    assert SplitLines(x)[|SplitLines(x)| - 1] == rest[|rest| - 1];
  }

  /** The last line of a split is what follows the last `'\n'`: it holds none. */
  lemma LastLineNoNewline(x: string)
    ensures var lx := SplitLines(x); NoNewline(lx[|lx| - 1])
  {
    SplitLinesNoNewline(x);
  }
}

=== FILE: wrappers.dfy ===
/** Failure-compatible wrappers shared by every module of the model. */
module Wrappers {

  /** JavaScript's `undefined`/absent value as None, a present value as Some. */
  datatype Option<+T> = None | Some(value: T) {

    predicate IsFailure() {
      None?
    }

    function PropagateFailure<U>(): Option<U>
      requires None?
    {
      None
    }

    function Extract(): T
      requires Some?
    {
      value
    }

    function GetOr(default: T): T {
      match this
      case Some(v) => v
      case None => default
    }
  }

  /** The outcome of an operation that either returns a value or throws. */
  datatype Result<+R, +E> = Success(value: R) | Failure(error: E) {

    predicate IsFailure() {
      Failure?
    }

    function PropagateFailure<U>(): Result<U, E>
      requires Failure?
    {
      Failure(error)
    }

    function Extract(): R
      requires Success?
    {
      value
    }
  }
}
